=== FILE: README.md ===
# Java project analyzer, modelled in Dafny

The analyzer walks a Maven project tree. For each runnable Spring Boot module it records three things:

- an **application**;
- the **container app** that hosts it;
- the **backing services** its dependencies ask for: MySQL, PostgreSQL, Redis and Service Bus.

It then merges the per-module results into one **analysis result** and converts that result into an azd project configuration.

The model covers the deterministic part of this work:

- the three fail-fast add operations on the analysis result and the merge of two results;
- the rule table that turns a module's dependencies and Spring configuration into backing services;
- the recursive fold over the directory tree;
- the Spring configuration helpers:
  - `${NAME:DEFAULT}` substitution;
  - database-name extraction and validation;
  - stream-binding destinations;
  - `.properties` lines, YAML flattening and profile layering;
- the extraction of the effective POM from the console output of `mvn help:effective-pom`;
- the derivation of an application name from a directory;
- the converter to the azd configuration;
- the older `Project` merge.

Values are immutable. Each Go function that mutates its receiver in place becomes a function that returns an `Update`: the new result together with the error, if any. Go walks maps in an unspecified order. Each such walk is modelled as a loop that picks any remaining key (`:|`), so what is proved about it holds for every order.

| file | module | models |
|---|---|---|
| wrappers.dfy | `Wrappers`, `Collections`, `Errors` | `Option`/`Result`, set-of-a-slice helpers, the error kinds |
| strings.dfy | `Strings` | `TrimSpace`, `Index`, `LastIndex`, `Replace`, `%d`, `bufio.ScanLines` |
| placeholder.dfy | `Placeholder` | the `${NAME:DEFAULT}` scanner and substitution |
| database_name.dfy | `DatabaseName` | `GetDatabaseName`, `IsValidDatabaseName` |
| spring_config.dfy | `SpringConfig` | `.properties` lines, `parseYAML`, `ReadProperties` layering |
| bindings.dfy | `Bindings` | destination filtering and de-duplication |
| paths.dfy | `Paths` | `filepath.Base`/`Join`/`Rel`/`Dir`, `GetNameFromDirPath`, the `pom.xml` test |
| pom.dfy | `Maven`, `EffectivePom` | POM records; the console-output extractor |
| analysis_result.dfy | `AnalysisResult` | the result, the services and the three add operations |
| merge.dfy | `Merging` | `mergeProjectAnalysisResult` |
| analyzer.dfy | `PomAnalysis` | `isSpringBootRunnableProject`, `analyzePomProject` |
| scan.dfy | `ProjectScan` | `analyzeJavaProjectSubDirectory`, `AnalyzeJavaProject` |
| converter.dfy | `Azd`, `Converter` | the azd configuration types; the converter |
| project.dfy | `ProjectResourceTypes`, `LegacyProject` | the older `Project` and `mergeProject` |

The central invariant is `AnalysisResult.Consistent`. It requires that:

- bindings name registered applications;
- the services are exactly the ones referred to;
- every service is one of the known kinds;
- every hosting service is a container app that no other application shares;
- every application with backing services is hosted.

A weaker invariant, `AnalysisResult.WellFormed`, keeps only the first two points and non-empty backing sets. Every successful add preserves it, whatever the service. `Consistent` is preserved by the adds the analyzer itself makes: container apps for hosting, and known services for a hosted application. The rule loop, the merge and the directory scan preserve it too. The converter never fails on a consistent result. So every result the analyzer produces converts without error.

The scan is also described by what it collects. `ProjectScan.TreeCollected` is a function of the directory tree. It gives the applications and the backing-service names of every runnable module, in listing order. A successful scan's applications and backing bindings are exactly those.

## Model

| member | source | states |
|---|---|---|
| Strings.TrimSpace | analyzer/internal/spring_boot_property.go:121 | the result is the infix left after dropping only leading and trailing white space; it neither starts nor ends with white space; it is empty exactly when the input is all white space; a string with no white space at either end is returned unchanged |
| Strings.IndexOf | analyzer/internal/spring_boot_property.go:146 | absent exactly when the character does not occur; otherwise the position of its first occurrence |
| Strings.LastIndexOf | analyzer/internal/spring_boot_property.go:141 | absent exactly when the character does not occur; otherwise the position of its last occurrence |
| Strings.ReplaceAllSkips | analyzer/internal/spring_boot_property.go:135 | replacing all occurrences copies a leading piece that lacks the pattern's first character and then carries on after it |
| Strings.DecimalRoundTrip | analyzer/internal/spring_boot_property.go:81 | the decimal text of an index reads back as that index, so distinct items get distinct keys |
| Strings.LinesRoundTrip | analyzer/pom.go:106-110 | scanning lines that were written out with newlines gives the same lines back |
| Placeholder.MatchPrefix | analyzer/internal/spring_boot_property.go:118 | a match at the start of a text is a well-formed placeholder that prefixes the text; there is no match unless the text starts with `${` |
| Placeholder.MatchRendered | analyzer/internal/spring_boot_property.go:118 | a written placeholder is recognised as exactly that placeholder (name and default), whatever follows it |
| Placeholder.DistinctPlaceholdersDiffer | analyzer/internal/spring_boot_property.go:118 | two placeholders cannot both match at one position |
| Placeholder.FindAll | analyzer/internal/spring_boot_property.go:122 | every match found is well formed; a text without `}` has no matches |
| Placeholder.FindAllSkipsLiteral | analyzer/internal/spring_boot_property.go:122 | text without `$` yields no match and is passed over |
| Placeholder.ScanTemplate | analyzer/internal/spring_boot_property.go:118-122 | the scanner finds exactly the placeholders a value was written with, in order |
| Placeholder.ReplaceInTemplate | analyzer/internal/spring_boot_property.go:135 | replacing the text of one placeholder in the value equals replacing that placeholder by the literal |
| Placeholder.ReplaceEachExpands | analyzer/internal/spring_boot_property.go:124-136 | the sequential replacement loop yields the expansion once every placeholder of the value has been scheduled |
| Placeholder.Substitute | analyzer/internal/spring_boot_property.go:120-137 | a value with no well-formed placeholder comes back only trimmed |
| Placeholder.SubstituteTemplate | analyzer/internal/spring_boot_property.go:120-137 | every placeholder of the value is replaced by its variable when that is set and non-empty, else by its default, else by "", however many placeholders there are |
| Placeholder.UnterminatedKept | analyzer/internal/spring_boot_property.go:118-123 | `${VALUE_ONE` without a closing brace is left as it is |
| Placeholder.SubstituteSingle | analyzer/internal/spring_boot_property.go:120-137 | a value that is one placeholder becomes what the placeholder resolves to, whatever that text contains, since it is replaced once as a whole |
| Placeholder.DefaultFillsIn | analyzer/internal/spring_boot_property.go:128-133 | an unset or empty variable gives the default |
| Placeholder.VariableBeatsDefault | analyzer/internal/spring_boot_property.go:128-133 | a set, non-empty variable wins over the default, whatever its text |
| DatabaseName.MatchNamePattern | analyzer/internal/spring_boot_property.go:159-160 | the character automaton accepts exactly the strings of `^[a-z0-9]+(-[a-z0-9]+)*$` (labels joined by single hyphens) |
| DatabaseName.DashSeparatedSplits | analyzer/internal/spring_boot_property.go:159 | every string of that hyphen shape is labels joined by single hyphens |
| DatabaseName.JoinedLabelsAreDashSeparated | analyzer/internal/spring_boot_property.go:159 | labels joined by single hyphens have that hyphen shape, so both descriptions of the language coincide |
| DatabaseName.IsValidDatabaseName | analyzer/internal/spring_boot_property.go:155-161 | true exactly when the length is 3 to 63 and the name has the hyphen shape |
| DatabaseName.ValidNameExamples | analyzer/internal/spring_boot_property.go:155-161 | the listed names are accepted and rejected as the source's cases expect |
| DatabaseName.GetDatabaseName | analyzer/internal/spring_boot_property.go:140-153 | the result is "" or a valid name without `/` or `?`; it is "" when the URL has no `/` |
| DatabaseName.NameAfterLastSlash | analyzer/internal/spring_boot_property.go:140-153 | for `prefix/name?query` the result is the name if it is valid and "" otherwise |
| DatabaseName.QueryStringDropped | analyzer/internal/spring_boot_property.go:141-148 | the sample JDBC URL gives `your-database-name` |
| SpringConfig.ChildKey | analyzer/internal/spring_boot_property.go:72-75 | a mapping entry's key extends its parent's prefix |
| SpringConfig.ItemKey | analyzer/internal/spring_boot_property.go:81 | a sequence item's key extends its parent's prefix |
| SpringConfig.YamlOverwrites | analyzer/internal/spring_boot_property.go:53-90 | reading a YAML tree into a filled map equals reading it alone and letting it overwrite the map |
| SpringConfig.YamlKeysExtendPrefix | analyzer/internal/spring_boot_property.go:53-90 | every key read below a prefix extends that prefix |
| SpringConfig.YamlValuesFromScalars | analyzer/internal/spring_boot_property.go:53-90 | only scalars produce entries: every value read from a tree is the substitution of a scalar reachable through documents, sequence items and scalar-keyed mapping entries, or was in the map before |
| SpringConfig.YamlWithoutScalarsEmpty | analyzer/internal/spring_boot_property.go:53-90 | a tree with no such reachable scalar (aliases, empty collections, entries under non-scalar keys) gives no property |
| SpringConfig.NonScalarKeySkipped | analyzer/internal/spring_boot_property.go:66-69 | a mapping entry whose key is not a scalar adds nothing: the mapping reads exactly as if the entry were not there |
| SpringConfig.NestedKeyDotted | analyzer/internal/spring_boot_property.go:55-77 | a nested mapping `a: {b: v}` in a document gives exactly the key `a.b` with the substituted value |
| SpringConfig.SequenceKeysIndexed | analyzer/internal/spring_boot_property.go:78-83 | a sequence `a: [x, y]` gives exactly the keys `a[0]` and `a[1]` |
| SpringConfig.ParsePropertyLine | analyzer/internal/spring_boot_property.go:104-115 | a line gives nothing exactly when it is blank, starts with `#` or has no `=`; otherwise the key contains no `=`, so the split is at the first `=` |
| SpringConfig.PropertyLineRoundTrip | analyzer/internal/spring_boot_property.go:109-113 | `key=value` reads back as the trimmed key and the substituted value, even when the value holds more `=` |
| SpringConfig.PropertyLinesOverwrite | analyzer/internal/spring_boot_property.go:103-115 | reading lines into a filled map equals reading them alone and letting them overwrite the map |
| SpringConfig.PropertyLinesAppend | analyzer/internal/spring_boot_property.go:103-115 | reading two blocks of lines is reading the second over the result of the first |
| SpringConfig.LastLineWins | analyzer/internal/spring_boot_property.go:104-114 | the last line that sets a key decides its value |
| SpringConfig.LayerOverwrites | analyzer/internal/spring_boot_property.go:18-20 | a layer is `.properties`, then `.yml`, then `.yaml`, each file overwriting the ones before |
| SpringConfig.ReadProperties | analyzer/internal/spring_boot_property.go:15-29 | the active profile's layer never drops a key of the `application` layer, and without `spring.profiles.active` the configuration is that layer alone |
| SpringConfig.ReadPropertiesLayers | analyzer/internal/spring_boot_property.go:15-29 | the configuration is the base layer, with the layer of `spring.profiles.active` over it when the base sets that key |
| Bindings.GetBindingDestinationMap | analyzer/internal/spring_boot_property.go:163-174 | the sub-map of exactly the entries whose key has the bindings prefix and the `.destination` suffix, values unchanged |
| Bindings.OtherPropertiesIgnored | analyzer/internal/spring_boot_property.go:163-174 | adding or changing a non-destination property does not change the map |
| Bindings.DestinationMapIdempotent | analyzer/internal/spring_boot_property.go:163-174 | filtering twice is filtering once |
| Bindings.BindingKeyAccepted | analyzer/internal/spring_boot_property.go:168 | every `spring.cloud.stream.bindings.<name>.destination` key is accepted |
| Bindings.DestinationKeyHasBindingName | analyzer/internal/spring_boot_property.go:168 | an accepted key long enough for both parts is a binding name between the prefix and the suffix |
| Bindings.SharedDotAccepted | analyzer/internal/spring_boot_property.go:168 | the prefix and the suffix may share their dot, so `spring.cloud.stream.bindings.destination` is accepted |
| Bindings.DistinctMapValues | analyzer/internal/spring_boot_property.go:180-190 | the result holds every value of the map once and nothing else, in any order |
| Bindings.GetDistinctBindingDestinationValues | analyzer/internal/spring_boot_property.go:176-178 | the destination values, each once |
| Bindings.AppendAndDistinct | analyzer/internal/spring_boot_property.go:192-205 | the members of both slices, each once |
| Paths.PathBase | analyzer/analyzer.go:22 | Go's `filepath.Base`: `.` for the empty path, `/` for a path made only of slashes, the path itself when it has no slash; never empty, and contains `/` only when it is `/` |
| Paths.PathBaseLastElement | analyzer/analyzer.go:22 | for any other path the base is its last element: the text after the last `/` once trailing slashes are dropped, with no `/` in it |
| Paths.BaseOfChild | analyzer/analyzer.go:22 | the base of `dir/name` is `name` |
| Paths.BaseIgnoresTrailingSlash | analyzer/analyzer.go:22 | a trailing slash does not change the base |
| Paths.BaseOfDirPath | analyzer/analyzer.go:27 | the base of a sub-directory path is the directory's own name |
| Paths.BaseOfRelativeDir | analyzer/analyzer.go:70 | a module's relative path ends in the module directory's name |
| Paths.NameFromDirPath | analyzer/internal/name_util.go:5-11 | the name is never empty; it is the label of the base name, or `root` when that label is empty |
| Paths.NameDependsOnBaseOnly | analyzer/internal/name_util.go:5-11 | any two paths with the same base give the same name |
| Paths.ChildNameIgnoresParent | analyzer/internal/name_util.go:5-11 | a directory's name does not depend on the directory that holds it |
| Paths.PomFileNameCases | analyzer/analyzer.go:39 | `pom.xml` is recognised in any mix of cases, and other build files are not |
| EffectivePom.StartAndEndDisjoint | analyzer/pom.go:101-102 | no line both opens and closes a block |
| EffectivePom.LastStart | analyzer/pom.go:111-113 | the index found is an opening line with no opening line after it; when none is found there is no opening line at all |
| EffectivePom.ScanComputes | analyzer/pom.go:109-121 | from any state, the line loop computes the loop-free description of its output |
| EffectivePom.EffectivePomString | analyzer/pom.go:104-130 | a returned effective POM is never empty, and the only failure is the empty-content error |
| EffectivePom.EffectivePomStringSpec | analyzer/pom.go:104-130 | the output is the last opening line and what its block collects, or only the closing lines when no line opens; the call fails exactly when that text is empty |
| EffectivePom.StartsWithLastOpening | analyzer/pom.go:111-113 | with an opening line the call succeeds, and the output starts with the last opening line |
| EffectivePom.BlockEndsAtClose | analyzer/pom.go:114-120 | an open block collects its lines up to and including the first closing line; after that only closing lines are kept, all joined with no separator |
| EffectivePom.NoProjectFails | analyzer/pom.go:125-128 | output with no opening or closing line gives the empty-content error |
| EffectivePom.StrayClosingKept | analyzer/pom.go:114-116 | a closing line outside any block is still appended |
| AnalysisResult.AddApplication | analyzer/project_analysis_result.go:75-84 | fails exactly when the name is registered, and then changes nothing; on success exactly that application is added and no other field changes |
| AnalysisResult.AddHosting | analyzer/project_analysis_result.go:86-109 | succeeds exactly when the application is registered, the service name is free and the application is not yet hosted; on success exactly that service and binding are added; every failure leaves the hosting bindings as they were. The add is not atomic: when only the binding is taken, the service is stored before the error |
| AnalysisResult.AddBacking | analyzer/project_analysis_result.go:111-138 | succeeds exactly when the application is registered and not yet bound to the service. A service already stored under the name is kept, so the first writer wins. On success exactly that binding is added, and other applications keep theirs; a failure leaves every backing binding as it was |
| AnalysisResult.AddApplicationWellFormed | analyzer/project_analysis_result.go:75-84 | adding an application, successfully or not, keeps a result well formed |
| AnalysisResult.AddHostingWellFormed | analyzer/project_analysis_result.go:86-109 | any successful hosting add, of any kind of service, keeps a result well formed |
| AnalysisResult.AddBackingWellFormed | analyzer/project_analysis_result.go:111-138 | any successful backing add, of any service, keeps a result well formed |
| AnalysisResult.FailedHostingLeavesService | analyzer/project_analysis_result.go:96-106 | a hosting add for an already hosted application fails with the binding error, yet leaves the new service stored and referred to by nothing, so the result is no longer well formed |
| AnalysisResult.AddApplicationPreserves | analyzer/project_analysis_result.go:75-84 | adding an application keeps a result consistent |
| AnalysisResult.AddHostingPreserves | analyzer/project_analysis_result.go:86-109 | a successful add of a container app keeps a result consistent |
| AnalysisResult.AddBackingPreserves | analyzer/project_analysis_result.go:111-138 | a successful backing add of a known service, for a hosted application, keeps a result consistent |
| AnalysisResult.AddBackingBackedNames | analyzer/project_analysis_result.go:126-136 | a successful backing add names exactly one more backing service |
| Merging.MergedName | analyzer/project_analysis_result.go:142-151 | the merged name is the first name unless that is empty; with compatible names it is empty only when both are |
| Merging.Merge | analyzer/project_analysis_result.go:140-186 | succeeds exactly when the merge conditions hold (compatible names, disjoint applications, every binding of the second result addable); its value is then the specified merged result; clashing non-empty names give the name-conflict error |
| Merging.MergeApplications | analyzer/project_analysis_result.go:152-158 | in any order, succeeds exactly when the application sets are disjoint, and then adds all applications of the second result |
| Merging.MergeHosting | analyzer/project_analysis_result.go:159-170 | in any order, succeeds exactly when every hosting binding can be added; then the bindings are added and each hosting service is copied |
| Merging.HostMissing | analyzer/project_analysis_result.go:161-165 | a hosting binding whose service the second result lacks cannot be added |
| Merging.MergeBacking | analyzer/project_analysis_result.go:171-184 | in any order, succeeds exactly when every backing pair can be added; then the bindings are united, and services are copied only where the name is still free |
| Merging.MergeComposes | analyzer/project_analysis_result.go:140-186 | the three steps, run one after the other, give the merged result |
| Merging.MissingServiceRefused | analyzer/project_analysis_result.go:160-178 | a hosting or backing binding whose service the second result lacks makes the merge fail |
| Merging.DisjointMerge | analyzer/project_analysis_result.go:152-185 | consistent results with different applications and new hosting services merge, even when both use a backing service of the same name; the merged services are the union, and the first result's service wins for a shared name |
| Merging.MergedBackingOf | analyzer/project_analysis_result.go:171-184 | after a merge, each application's backing services are the union of its services in both results |
| Merging.MergedBackedNames | analyzer/project_analysis_result.go:171-184 | the backing services of the merge are those of both results |
| Merging.MergedHostNames | analyzer/project_analysis_result.go:159-170 | the hosting services of the merge are those of both results |
| Merging.MergedInjective | analyzer/project_analysis_result.go:159-170 | a merge never lets two applications share a hosting service |
| Merging.MergePreservesConsistent | analyzer/project_analysis_result.go:140-186 | merging consistent results gives a consistent result |
| Merging.MergeIntoNamed | analyzer/project_analysis_result.go:140-186 | a consistent result merged into a directory's named start changes only in its name |
| Merging.MergeEmpty | analyzer/project_analysis_result.go:140-186 | merging an empty result changes at most the name |
| Merging.MergedMaps | analyzer/project_analysis_result.go:152-184 | for well-formed results that merge, the applications and the backing bindings of the merge are the unions of both results' |
| Merging.MergedShape | analyzer/project_analysis_result.go:140-186 | for consistent results that merge, every field of the merge is the union of both; for a shared service name the first result's service is kept |
| Merging.MergeableIff | analyzer/project_analysis_result.go:140-186 | consistent results merge exactly when their names are compatible, their applications are disjoint and the second's hosting services are not services of the first |
| Merging.MergeAssociative | analyzer/project_analysis_result.go:140-186 | for three consistent results, merging the first two and then the third succeeds exactly when merging the first with the merge of the last two does, and both give the same result |
| Merging.AdoptTwice | analyzer/project_analysis_result.go:121-125 | copying services where names are free, in two rounds, is copying them once |
| PomAnalysis.HasBootPlugin | analyzer/analyzer.go:145-150 | true exactly when some plugin is `org.springframework.boot:spring-boot-maven-plugin` |
| PomAnalysis.IsSpringBootRunnableProject | analyzer/analyzer.go:141-151 | a POM with modules is never runnable; a POM is runnable exactly when it has no modules and uses the Spring Boot Maven plugin |
| PomAnalysis.Triggered | analyzer/analyzer.go:92-137 | each of the five dependency checks asks for its service under its default name: MySQL and PostgreSQL with the database name, Redis, Service Bus for JMS, and Service Bus with the destinations for the binder; nothing else asks for anything |
| PomAnalysis.RulesExclusive | analyzer/analyzer.go:93-128 | no dependency matches two of the five checks |
| PomAnalysis.AddBackings | analyzer/analyzer.go:92-137 | the rule loop keeps the stored services and other applications' bindings; with an unknown application it fails at once, and any other error is a duplicate binding of this application |
| PomAnalysis.AddBackingsSucceeds | analyzer/analyzer.go:92-137 | the rule loop succeeds exactly when no service name is asked for twice and none is already bound to the application |
| PomAnalysis.AddBackingsBindings | analyzer/analyzer.go:92-137 | after a successful rule loop the application is bound to exactly its earlier services plus the names asked for |
| PomAnalysis.AddBackingsServices | analyzer/analyzer.go:92-137 | a service the rule loop stores is the one the first request under its name carried |
| PomAnalysis.AddBackingsPreserves | analyzer/analyzer.go:92-137 | the rule loop keeps a result consistent when it adds known services for a hosted application |
| PomAnalysis.NamesIgnoreParameters | analyzer/analyzer.go:92-137 | the service names the checks ask for depend only on the dependencies, not on the database name or the destinations |
| PomAnalysis.DatabaseNameOf | analyzer/analyzer.go:85-89 | the database name is "" or a valid name, and it is "" when `spring.datasource.url` is missing |
| PomAnalysis.PomOutcome | analyzer/analyzer.go:57-68 | a POM whose effective POM cannot be made gives an empty result and that error; a POM that is not runnable gives an empty result and no error |
| PomAnalysis.AnalyzePomProject | analyzer/analyzer.go:56-139 | the outcome is the analysis for some duplicate-free order of the destination values; a result without error is consistent, and every application runs on a container app of its own name |
| PomAnalysis.OutcomeConsistent | analyzer/analyzer.go:56-139 | whatever the order of the destinations, an analysis without error is consistent and self-hosted |
| PomAnalysis.AnalyzeRunnable | analyzer/analyzer.go:68-137 | a runnable module's result has exactly its one application, hosted on a container app of the same name, whatever the rule loop does; the only possible error is a duplicate backing binding of that application |
| PomAnalysis.RunnableApplication | analyzer/analyzer.go:69-82 | a runnable module gives exactly one application, with the module's relative path, hosted on a container app of the same name |
| PomAnalysis.RunnableSucceeds | analyzer/analyzer.go:92-137 | a runnable module is analysed without error exactly when no backing service name is asked for twice |
| PomAnalysis.RunnableBindings | analyzer/analyzer.go:92-137 | after a successful analysis the application is bound to exactly the names its dependencies ask for |
| PomAnalysis.RunnableServices | analyzer/analyzer.go:99-131 | every service asked for is stored; one whose name differs from the application's is the service its rule built |
| PomAnalysis.RunnableDatabaseName | analyzer/analyzer.go:85-108 | a MySQL or PostgreSQL service carries the name from `spring.datasource.url`, or "" without it |
| PomAnalysis.DependencyBound | analyzer/analyzer.go:92-137 | every dependency a check matches has its service bound after a successful analysis |
| PomAnalysis.SameServiceTwiceFails | analyzer/analyzer.go:92-137 | two dependencies asking for the same service make the analysis fail with a duplicate backing binding |
| PomAnalysis.ServiceBusTwiceFails | analyzer/analyzer.go:121-135 | the Service Bus JMS starter together with the Service Bus stream binder fail with a duplicate `service-bus` binding |
| PomAnalysis.ScopeIgnored | analyzer/analyzer.go:92-137 | the checks ignore a dependency's scope: test dependencies count like any other |
| ProjectScan.RunnableCollected | analyzer/analyzer.go:69-137 | a runnable module analysed without error collects one application, with its relative path, bound to every service name its dependencies ask for (no binding when they ask for none) |
| ProjectScan.PomOutcomeCollected | analyzer/analyzer.go:56-139 | whatever the order of the destinations, a POM analysed without error collects what the POM contributes: its application and bindings when it is runnable, nothing otherwise |
| ProjectScan.MergeInto | analyzer/analyzer.go:31-34 | the merge into the result so far succeeds exactly when the merge conditions hold; its value is then exactly the merged result, whose applications and backing bindings are the unions of both; it keeps the name and the invariants; a partial result that found nothing (a non-runnable POM, a directory with no modules) leaves the result so far unchanged |
| ProjectScan.ScanEntry | analyzer/analyzer.go:24-51 | the result is the result so far merged with what the entry contributes: a sub-directory's scan, or a POM file's analysis for some order of its destinations. Its applications and backing bindings are those so far joined with the entry's, which are new applications. A POM without an effective POM gives that error; other files leave the result as it is |
| ProjectScan.ScanSubdirectory | analyzer/analyzer.go:25-34 | a sub-directory's scan merged into the result so far; the collected applications and bindings are joined with the sub-tree's |
| ProjectScan.ScanPomFile | analyzer/analyzer.go:39-49 | a POM file's analysis merged into the result so far; the collected applications and bindings are joined with the module's, and a missing effective POM gives that error |
| ProjectScan.ScanEntries | analyzer/analyzer.go:24-52 | the entry loop: on success every entry was read, the result is consistent and named after the root, and it collects exactly what the tree contributes; a read tree without POM files leaves the start unchanged |
| ProjectScan.ScanNext | analyzer/analyzer.go:24-52 | one step of the entry loop: what is collected after the entry at `i` is what the entries up to and including it contribute, the entries so far were read, and while they hold no POM file the result is still the start |
| ProjectScan.ScanDirectory | analyzer/analyzer.go:16-54 | an unreadable directory gives the read error. A successful scan is named after the root's base, is consistent and self-hosted, and read every directory. Its applications and backing bindings are exactly those of every runnable module in the tree, so a sub-module's application shows up in the root's result. A readable tree with no `pom.xml` gives the named empty result |
| ProjectScan.AnalyzeJavaProject | analyzer/analyzer.go:12-14 | the scan of the root: its applications and backing bindings are exactly those collected from the whole tree, and it has the same other guarantees |
| Converter.ToResourceType | converter/converter.go:78-101 | fails exactly on an unknown kind; MySQL maps to `db.postgres` and Cosmos DB to `db.mongo` |
| Converter.ToProps | converter/converter.go:48-76 | fails exactly on an unknown kind; a container app gets port 8080; Service Bus, Event Hubs and Storage keep their lists |
| Converter.PropsFitType | converter/converter.go:48-101 | every known kind gets the props kind its resource type is written with |
| Converter.BaseResources | converter/converter.go:23-38 | fails exactly when some service is of an unknown kind; otherwise there is one resource per service, named by its key, with that service's type and props |
| Converter.ProjectAnalysisResultToAzdProjectConfig | converter/converter.go:10-46 | fails exactly when some service is of an unknown kind, whatever the bindings, since that error is returned before the uses are filled in. Otherwise: the name is kept; each application gives a Java container-app service with its path; each service gives a resource of its type and props; each resource uses exactly the backing services of the applications whose hosting name it has ("" for an unhosted one, as a Go map lookup gives); when no two applications with backing services share a hosting name, no use is listed twice |
| Converter.ConsistentIsConvertible | converter/converter.go:25-42 | a consistent result has no unknown service and hosts every application with backing services on a container app of its own, so its conversion cannot fail and lists no use twice |
| Converter.HostUsesBacking | converter/converter.go:39-44 | the resource hosting an application uses exactly that application's backing services |
| Converter.NonHostUsesNothing | converter/converter.go:39-44 | a resource that hosts no application uses nothing, except one named "", which uses the backing services of every unhosted application |
| LegacyProject.MergeProject | analyzer/project.go:39-47 | each list of the merge is the first project's list followed by the second's, so the lengths add |
| LegacyProject.MergeIdentity | analyzer/project.go:39-47 | the empty project is a unit on both sides |
| LegacyProject.MergeAssociative | analyzer/project.go:39-47 | merging is associative |
| LegacyProject.MergeKeepsDuplicates | analyzer/project.go:39-47 | a resource present in both projects is kept twice |

## Left out

- **Outside inputs become parameters.** File reading, `os.ReadDir`, `os.Stat`, `os.Getenv`, `exec` of `mvn` and XML decoding are not modelled:
  - the directory is an inductive tree (`ProjectScan.Listing`);
  - the configuration files are maps from path to lines or to a parsed YAML tree;
  - the environment is a map;
  - each effective POM is a record looked up by path.
- **Effective POM failures.** A missing effective POM stands for any failure of `createEffectivePom`. Its ignored XML error is not modelled.
- **YAML and `log.Fatalf`.** YAML parsing and `log.Fatalf` on unreadable files are not modelled. A missing file is simply an absent key.
- **Scanner limits.** The `bufio.Scanner` token-size error is not modelled.
- **`LabelName` and `DistinctValues`.** `LabelName` is not part of this model. It is a function parameter about which nothing is assumed. `DistinctValues` (analyzer/analyzer.go:91) is not shown in the source either, and is taken to behave as `DistinctMapValues`.
- **Error texts.** Errors are the constructors of `Errors.Error`. Go's message texts and `%w` wrapping are dropped.
- **Go runtime details.** The model does not distinguish `nil` maps from empty ones and does not reproduce map aliasing through shared references. `append` sharing a backing array is not modelled either.
- **Paths.** `filepath.Join` is modelled for clean paths, without `Clean`. The `filepath.Rel` error (analyzer/analyzer.go:61-64) cannot arise for a file below the root and is left out.
- **azd output.** The azd YAML marshalling and `Save` are left out. `ContainerAppProps` carries only its port.
- **`Uses` order.** The converter states the set of uses and its freedom from duplicates, not the order, since that order depends on map iteration.
- **Backing walk.** The nested walk over backing bindings, in the merge and in the converter, is flattened to one walk over (application, service) pairs. Every nested order is one pair order.
- **Quirks kept on purpose.** These are reproduced as in the source, not fixed:
  - `DefaultMongoServiceName` is `"redis"`, though no rule uses it;
  - MySQL converts to `db.postgres`;
  - the hosting add is not atomic;
  - a stored backing service is never replaced;
  - the JMS starter and the stream binder together fail.
- Converter.ProjectAnalysisResultToAzdProjectConfig: requires, for a result without unknown services, that every application with at least one backing service has a resource under its hosting name (its binding, or "" when it has none). The source panics exactly when that fails: converter/converter.go:42 then dereferences a nil resource. An unknown service returns its error first, and the resource of an application with no backing service is never dereferenced, so neither needs the requirement. A panic is not modelled. `Converter.ConsistentIsConvertible` shows every analyzer result meets the requirement.
- Placeholder.SubstituteTemplate: the expansion is proved only when three conditions hold:
  - the value has no surrounding white space;
  - no `$` appears in its literal text, nor in any placeholder's name or default (`TemplateOk`);
  - no resolved text contains `$`.

  The source replaces placeholder texts inside the partly substituted value, so a replacement that spells a later placeholder is replaced again. That case is modelled by `Placeholder.Substitute` itself but not summarised by a lemma.
- Placeholder.DefaultFillsIn: stated for a value that is a single placeholder without `$` in its name or default, rather than for the exact strings of the source's test cases.

=== FILE: analysis_result.dfy ===
/** The result of analysing a Java project: applications, the Azure
    services they need and which service hosts or backs which application
    (analyzer/project_analysis_result.go:5-138). */
module AnalysisResult {
  import opened Wrappers
  import opened Errors

  /** One runnable Spring Boot module. */
  datatype Application = Application(projectRelativePath: string)

  /** The services the analyzer knows.  Go stores them behind an empty
      interface, so any other value can sit in the map as well; `Foreign`
      stands for such a value, named by its type. */
  datatype Service =
    | AzureContainerApp
    | AzureDatabaseForPostgresql(databaseName: string)
    | AzureDatabaseForMysql(databaseName: string)
    | AzureCacheForRedis
    | AzureCosmosDbForMongoDb
    | AzureCosmosDb
    | AzureServiceBus(queues: seq<string>, topics: seq<string>)
    | AzureEventHubs(hubs: seq<string>)
    | AzureStorageAccount(containers: seq<string>)
    | Foreign(typeName: string)

  const DefaultPostgresqlServiceName := "postgresql"
  const DefaultMysqlServiceName := "mysql"
  const DefaultRedisServiceName := "redis"
  /** The same name as the Redis service, as in the source. */
  const DefaultMongoServiceName := "redis"
  const DefaultCosmosServiceName := "cosmos"
  const DefaultServiceBusServiceName := "service-bus"
  const DefaultEventHubsServiceName := "event-hubs"
  const DefaultStorageServiceName := "storage"

  /** `ProjectAnalysisResult`.  `hosting` maps an application to the name of
      the service it runs on, `backing` maps an application to the names of
      the services it uses. */
  datatype ProjectAnalysisResult = ProjectAnalysisResult(
    name: string,
    applications: map<string, Application>,
    services: map<string, Service>,
    hosting: map<string, string>,
    backing: map<string, set<string>>)

  /** The result with only a name, as a directory starts out. */
  function Named(name: string): (r: ProjectAnalysisResult)
    ensures r.name == name
    ensures r.applications == map[] && r.services == map[] && r.hosting == map[] && r.backing == map[]
  {
    ProjectAnalysisResult(name, map[], map[], map[], map[])
  }

  /** `ProjectAnalysisResult{}`. */
  const Empty := Named("")

  /** The backing services of an application; none when it has no entry. */
  function BackingOf(r: ProjectAnalysisResult, app: string): set<string>
  {
    if app in r.backing then r.backing[app] else {}
  }

  /** Every service name some application uses as a backing service. */
  function BackedNames(r: ProjectAnalysisResult): set<string>
  {
    set a, s | a in r.backing && s in r.backing[a] :: s
  }

  /** The (application, service) pairs of the backing bindings. */
  function BackingPairs(r: ProjectAnalysisResult): set<(string, string)>
  {
    set a, s | a in r.backing && s in r.backing[a] :: (a, s)
  }

  /** Every service name some application refers to. */
  function ReferencedNames(r: ProjectAnalysisResult): set<string>
  {
    r.hosting.Values + BackedNames(r)
  }

  /** What the add operations keep: bindings name registered applications,
      backing sets are never empty, and the services are exactly the ones
      referred to. */
  predicate WellFormed(r: ProjectAnalysisResult)
  {
    && r.hosting.Keys <= r.applications.Keys
    && r.backing.Keys <= r.applications.Keys
    && (forall a | a in r.backing :: r.backing[a] != {})
    && r.services.Keys == ReferencedNames(r)
  }

  /** No two applications share a hosting service. */
  predicate HostingInjective(hosting: map<string, string>)
  {
    forall a, b | a in hosting && b in hosting && a != b :: hosting[a] != hosting[b]
  }

  /** What every result of the analyzer satisfies on top of `WellFormed`:
      every service is one of the known kinds, every hosting service is a
      container app of its own, and an application with backing services is
      hosted. */
  predicate Consistent(r: ProjectAnalysisResult)
  {
    && WellFormed(r)
    && (forall s | s in r.services :: !r.services[s].Foreign?)
    && (forall a | a in r.hosting :: r.services[r.hosting[a]] == AzureContainerApp)
    && HostingInjective(r.hosting)
    && r.backing.Keys <= r.hosting.Keys
  }

  /** A result after an add operation, and the error it reported.  Go
      mutates the result in place and may have changed it before
      it returns an error, so both are kept. */
  datatype Update = Update(result: ProjectAnalysisResult, err: Option<Error>)

  /** `addApplicationToResult`. */
  function AddApplication(r: ProjectAnalysisResult, appName: string, app: Application): (u: Update)
    ensures u.err.None? <==> appName !in r.applications
    ensures u.err.Some? ==> u.err.value == ApplicationExists(appName) && u.result == r
    ensures u.err.None? ==> u.result.applications.Keys == r.applications.Keys + {appName}
    ensures u.err.None? ==> u.result.applications[appName] == app
    ensures forall n | n in r.applications :: n in u.result.applications && u.result.applications[n] == r.applications[n]
    ensures u.result.(applications := r.applications) == r
  {
    if appName in r.applications then Update(r, Some(ApplicationExists(appName)))
    else Update(r.(applications := r.applications[appName := app]), None)
  }

  /** `addApplicationRelatedHostingServiceToResult`.  The service is stored
      before the binding is checked, so a failed binding check leaves the
      service behind. */
  function AddHosting(r: ProjectAnalysisResult, appName: string, svcName: string, svc: Service): (u: Update)
    ensures u.err.None? <==> appName in r.applications && svcName !in r.services && appName !in r.hosting
    ensures appName !in r.applications ==> u == Update(r, Some(ApplicationNotFound(appName)))
    ensures appName in r.applications && svcName in r.services ==> u == Update(r, Some(HostingServiceExists(svcName)))
    ensures u.err.None? ==> u.result.services == r.services[svcName := svc] && u.result.hosting == r.hosting[appName := svcName]
    ensures appName in r.applications && svcName !in r.services && appName in r.hosting ==>
      u.result.services == r.services[svcName := svc] && u.err == Some(HostingBindingExists(appName))
    ensures u.err.Some? ==> u.result.hosting == r.hosting
    ensures u.result.(services := r.services, hosting := r.hosting) == r
  {
    if appName !in r.applications then Update(r, Some(ApplicationNotFound(appName)))
    else if svcName in r.services then Update(r, Some(HostingServiceExists(svcName)))
    else
      var withService := r.(services := r.services[svcName := svc]);
      if appName in r.hosting then Update(withService, Some(HostingBindingExists(appName)))
      else Update(withService.(hosting := r.hosting[appName := svcName]), None)
  }

  /** `addApplicationRelatedBackingServiceToResult`.  A service already
      registered under the name is kept as it is: the first writer wins. */
  function AddBacking(r: ProjectAnalysisResult, appName: string, svcName: string, svc: Service): (u: Update)
    ensures u.err.None? <==> appName in r.applications && svcName !in BackingOf(r, appName)
    ensures appName !in r.applications ==> u == Update(r, Some(ApplicationNotFound(appName)))
    ensures appName in r.applications ==>
      && u.result.services == (if svcName in r.services then r.services else r.services[svcName := svc])
      && u.result.services[svcName] == (if svcName in r.services then r.services[svcName] else svc)
    ensures appName in r.applications && svcName in BackingOf(r, appName) ==> u.err == Some(BackingBindingExists(appName, svcName))
    ensures u.err.None? ==> BackingOf(u.result, appName) == BackingOf(r, appName) + {svcName}
    ensures u.err.None? ==> u.result.backing.Keys == r.backing.Keys + {appName}
    ensures u.err.Some? ==> u.result.backing == r.backing
    ensures forall a | a in r.backing && a != appName :: a in u.result.backing && u.result.backing[a] == r.backing[a]
    ensures u.result.(services := r.services, backing := r.backing) == r
  {
    if appName !in r.applications then Update(r, Some(ApplicationNotFound(appName)))
    else
      var withService := if svcName in r.services then r else r.(services := r.services[svcName := svc]);
      if svcName in BackingOf(r, appName) then Update(withService, Some(BackingBindingExists(appName, svcName)))
      else Update(withService.(backing := r.backing[appName := BackingOf(r, appName) + {svcName}]), None)
  }

  /** Adding an application keeps a result consistent. */
  lemma AddApplicationPreserves(r: ProjectAnalysisResult, appName: string, app: Application)
    requires Consistent(r)
    ensures Consistent(AddApplication(r, appName, app).result)
  {
    var r' := AddApplication(r, appName, app).result;
    assert ReferencedNames(r') == ReferencedNames(r);
  }

  /** Binding a new application adds exactly its service to the hosting
      services. */
  lemma HostingValuesAdd(hosting: map<string, string>, appName: string, svcName: string)
    requires appName !in hosting
    ensures hosting[appName := svcName].Values == hosting.Values + {svcName}
  {
    var h := hosting[appName := svcName];
    forall s | s in h.Values ensures s in hosting.Values + {svcName} {
      var a :| a in h && h[a] == s;
      if a != appName {
        assert hosting[a] == s;
      }
    }
    assert h[appName] == svcName;
    forall s | s in hosting.Values ensures s in h.Values {
      var a :| a in hosting && hosting[a] == s;
      assert h[a] == s;
    }
  }

  /** Adding an application keeps bindings, services and references in
      step. */
  lemma AddApplicationWellFormed(r: ProjectAnalysisResult, appName: string, app: Application)
    requires WellFormed(r)
    ensures WellFormed(AddApplication(r, appName, app).result)
  {
    var r' := AddApplication(r, appName, app).result;
    assert ReferencedNames(r') == ReferencedNames(r);
  }

  /** Any successful hosting add, whatever the service, keeps bindings on
      registered applications and the services exactly the referenced
      ones. */
  lemma AddHostingWellFormed(r: ProjectAnalysisResult, appName: string, svcName: string, svc: Service)
    requires WellFormed(r)
    requires AddHosting(r, appName, svcName, svc).err.None?
    ensures WellFormed(AddHosting(r, appName, svcName, svc).result)
  {
    var r' := AddHosting(r, appName, svcName, svc).result;
    assert BackedNames(r') == BackedNames(r);
    HostingValuesAdd(r.hosting, appName, svcName);
  }

  /** The hosting add is not atomic: when only the binding is taken, the
      service it stored is referred to by nothing. */
  lemma FailedHostingLeavesService(r: ProjectAnalysisResult, appName: string, svcName: string, svc: Service)
    requires WellFormed(r)
    requires appName in r.applications && svcName !in r.services && appName in r.hosting
    ensures var u := AddHosting(r, appName, svcName, svc);
      u.err == Some(HostingBindingExists(appName)) && svcName in u.result.services
      && svcName !in ReferencedNames(u.result) && !WellFormed(u.result)
  {
    var u := AddHosting(r, appName, svcName, svc);
    assert u.result.hosting == r.hosting && u.result.backing == r.backing;
    assert BackedNames(u.result) == BackedNames(r);
  }

  /** A successful hosting add of a container app keeps a result consistent. */
  lemma {:induction false} AddHostingPreserves(r: ProjectAnalysisResult, appName: string, svcName: string)
    requires Consistent(r)
    requires AddHosting(r, appName, svcName, AzureContainerApp).err.None?
    ensures Consistent(AddHosting(r, appName, svcName, AzureContainerApp).result)
  {
    AddHostingWellFormed(r, appName, svcName, AzureContainerApp);
  }

  /** Any successful backing add, whatever the service and whether or not
      the application is hosted, keeps bindings on registered applications
      and the services exactly the referenced ones. */
  lemma AddBackingWellFormed(r: ProjectAnalysisResult, appName: string, svcName: string, svc: Service)
    requires WellFormed(r)
    requires AddBacking(r, appName, svcName, svc).err.None?
    ensures WellFormed(AddBacking(r, appName, svcName, svc).result)
  {
    AddBackingBackedNames(r, appName, svcName, svc);
  }

  /** A successful backing add of a known service, for a hosted application,
      keeps a result consistent. */
  lemma {:induction false} AddBackingPreserves(r: ProjectAnalysisResult, appName: string, svcName: string, svc: Service)
    requires Consistent(r) && !svc.Foreign? && appName in r.hosting
    requires AddBacking(r, appName, svcName, svc).err.None?
    ensures Consistent(AddBacking(r, appName, svcName, svc).result)
  {
    var r' := AddBacking(r, appName, svcName, svc).result;
    AddBackingBackedNames(r, appName, svcName, svc);
    forall a | a in r'.hosting ensures r'.services[r'.hosting[a]] == AzureContainerApp {
      assert r.hosting[a] in r.services;
    }
  }

  /** A successful backing add names one more backing service. */
  lemma AddBackingBackedNames(r: ProjectAnalysisResult, appName: string, svcName: string, svc: Service)
    requires AddBacking(r, appName, svcName, svc).err.None?
    ensures BackedNames(AddBacking(r, appName, svcName, svc).result) == BackedNames(r) + {svcName}
  {
    var r' := AddBacking(r, appName, svcName, svc).result;
    forall s | s in BackedNames(r') ensures s in BackedNames(r) + {svcName} {
      var a :| a in r'.backing && s in r'.backing[a];
      if a != appName {
        assert s in r.backing[a];
      } else if s != svcName {
        assert s in r.backing[a];
      }
    }
    assert svcName in r'.backing[appName];
    forall s | s in BackedNames(r) ensures s in BackedNames(r') {
      var a :| a in r.backing && s in r.backing[a];
      assert s in r'.backing[a];
    }
  }
}

=== FILE: analyzer.dfy ===
/** Analysing one Maven module (analyzer/analyzer.go:56-151): whether it is
    a runnable Spring Boot application, and if so the application, its
    container app and the backing services its dependencies call for. */
module PomAnalysis {
  import opened Wrappers
  import opened Errors
  import opened Collections
  import opened Maven
  import opened AnalysisResult
  import opened Paths
  import opened SpringConfig
  import opened DatabaseName
  import opened Bindings

  /** What the analyzer reads besides the directory tree: the environment,
      the configuration files, the effective POM of each POM file by path
      (absent where `mvn help:effective-pom` fails), and `LabelName`. */
  datatype Workspace = Workspace(
    env: map<string, string>,
    files: ConfigFiles,
    effectivePoms: map<string, Pom>,
    labelName: string -> string)

  predicate IsBootPlugin(p: Plugin)
  {
    p.groupId == "org.springframework.boot" && p.artifactId == "spring-boot-maven-plugin"
  }

  /** The plugin loop of `isSpringBootRunnableProject`. */
  function HasBootPlugin(plugins: seq<Plugin>): (b: bool)
    ensures b <==> exists i | 0 <= i < |plugins| :: IsBootPlugin(plugins[i])
  {
    if plugins == [] then false
    else if IsBootPlugin(plugins[0]) then true
    else
      assert forall i | 1 <= i < |plugins| :: plugins[i] == plugins[1..][i - 1];
      HasBootPlugin(plugins[1..])
  }

  /** `isSpringBootRunnableProject`: a POM without modules that uses the
      Spring Boot Maven plugin. */
  function IsSpringBootRunnableProject(pom: Pom): (b: bool)
    ensures |pom.modules| > 0 ==> !b
    ensures b <==> |pom.modules| == 0 && exists i | 0 <= i < |pom.plugins| :: IsBootPlugin(pom.plugins[i])
  {
    if |pom.modules| > 0 then false else HasBootPlugin(pom.plugins)
  }

  predicate IsMysqlDependency(d: Dependency)
  {
    || (d.groupId == "com.mysql" && d.artifactId == "mysql-connector-j")
    || (d.groupId == "com.azure.spring" && d.artifactId == "spring-cloud-azure-starter-jdbc-mysql")
  }

  predicate IsPostgresqlDependency(d: Dependency)
  {
    || (d.groupId == "org.postgresql" && d.artifactId == "postgresql")
    || (d.groupId == "com.azure.spring" && d.artifactId == "spring-cloud-azure-starter-jdbc-postgresql")
  }

  predicate IsRedisDependency(d: Dependency)
  {
    || (d.groupId == "org.springframework.boot" && d.artifactId == "spring-boot-starter-data-redis")
    || (d.groupId == "org.springframework.boot" && d.artifactId == "spring-boot-starter-data-redis-reactive")
  }

  predicate IsServiceBusJmsDependency(d: Dependency)
  {
    d.groupId == "com.azure.spring" && d.artifactId == "spring-cloud-azure-starter-servicebus-jms"
  }

  predicate IsServiceBusBinderDependency(d: Dependency)
  {
    d.groupId == "com.azure.spring" && d.artifactId == "spring-cloud-azure-stream-binder-servicebus"
  }

  /** The backing services one dependency asks for, in the order of the
      five checks of the rule loop; the checks are independent `if`s. */
  function Triggered(d: Dependency, databaseName: string, queues: seq<string>): (adds: seq<(string, Service)>)
    ensures |adds| <= 1
    ensures IsMysqlDependency(d) ==> adds == [(DefaultMysqlServiceName, AzureDatabaseForMysql(databaseName))]
    ensures IsPostgresqlDependency(d) ==> adds == [(DefaultPostgresqlServiceName, AzureDatabaseForPostgresql(databaseName))]
    ensures IsRedisDependency(d) ==> adds == [(DefaultRedisServiceName, AzureCacheForRedis)]
    ensures IsServiceBusJmsDependency(d) ==> adds == [(DefaultServiceBusServiceName, AzureServiceBus([], []))]
    ensures IsServiceBusBinderDependency(d) ==> adds == [(DefaultServiceBusServiceName, AzureServiceBus(queues, []))]
    ensures adds == [] <==> !IsMysqlDependency(d) && !IsPostgresqlDependency(d) && !IsRedisDependency(d)
                            && !IsServiceBusJmsDependency(d) && !IsServiceBusBinderDependency(d)
  {
    RulesExclusive(d);
    (if IsMysqlDependency(d) then [(DefaultMysqlServiceName, AzureDatabaseForMysql(databaseName))] else [])
    + (if IsPostgresqlDependency(d) then [(DefaultPostgresqlServiceName, AzureDatabaseForPostgresql(databaseName))] else [])
    + (if IsRedisDependency(d) then [(DefaultRedisServiceName, AzureCacheForRedis)] else [])
    + (if IsServiceBusJmsDependency(d) then [(DefaultServiceBusServiceName, AzureServiceBus([], []))] else [])
    + (if IsServiceBusBinderDependency(d) then [(DefaultServiceBusServiceName, AzureServiceBus(queues, []))] else [])
  }

  /** No dependency is matched by two of the five checks. */
  lemma RulesExclusive(d: Dependency)
    ensures IsMysqlDependency(d) ==> !IsPostgresqlDependency(d) && !IsRedisDependency(d)
    ensures IsMysqlDependency(d) ==> !IsServiceBusJmsDependency(d) && !IsServiceBusBinderDependency(d)
    ensures IsPostgresqlDependency(d) ==> !IsRedisDependency(d)
    ensures IsPostgresqlDependency(d) ==> !IsServiceBusJmsDependency(d) && !IsServiceBusBinderDependency(d)
    ensures IsRedisDependency(d) ==> !IsServiceBusJmsDependency(d) && !IsServiceBusBinderDependency(d)
    ensures IsServiceBusJmsDependency(d) ==> !IsServiceBusBinderDependency(d)
  {
  }

  /** The names of a list of additions. */
  function Names(adds: seq<(string, Service)>): (names: seq<string>)
    ensures |names| == |adds|
    ensures forall i | 0 <= i < |adds| :: names[i] == adds[i].0
  {
    seq(|adds|, i requires 0 <= i < |adds| => adds[i].0)
  }

  /** What one of the five checks adds. */
  predicate IsRuleOutput(add: (string, Service), databaseName: string, queues: seq<string>)
  {
    || add == (DefaultMysqlServiceName, AzureDatabaseForMysql(databaseName))
    || add == (DefaultPostgresqlServiceName, AzureDatabaseForPostgresql(databaseName))
    || add == (DefaultRedisServiceName, AzureCacheForRedis)
    || add == (DefaultServiceBusServiceName, AzureServiceBus([], []))
    || add == (DefaultServiceBusServiceName, AzureServiceBus(queues, []))
  }

  /** The additions the whole dependency list asks for. */
  function BackingAdds(deps: seq<Dependency>, databaseName: string, queues: seq<string>): (adds: seq<(string, Service)>)
    ensures forall i | 0 <= i < |adds| :: IsRuleOutput(adds[i], databaseName, queues) && !adds[i].1.Foreign?
  {
    if deps == [] then []
    else Triggered(deps[0], databaseName, queues) + BackingAdds(deps[1..], databaseName, queues)
  }

  /** The rule loop: each addition in turn, stopping at the first error. */
  function AddBackings(r: ProjectAnalysisResult, app: string, adds: seq<(string, Service)>): (u: Update)
    decreases |adds|
    ensures u.result.(services := r.services, backing := r.backing) == r
    ensures forall s | s in r.services :: s in u.result.services && u.result.services[s] == r.services[s]
    ensures forall a | a in r.backing && a != app :: a in u.result.backing && u.result.backing[a] == r.backing[a]
    ensures app !in r.applications && adds != [] ==> u == Update(r, Some(ApplicationNotFound(app)))
    ensures u.err.Some? && app in r.applications ==> u.err.value.BackingBindingExists? && u.err.value.applicationName == app
  {
    if adds == [] then Update(r, None)
    else
      var step := AddBacking(r, app, adds[0].0, adds[0].1);
      if step.err.Some? then step else AddBackings(step.result, app, adds[1..])
  }

  lemma NoDuplicatesCons(x: string, s: seq<string>)
    ensures NoDuplicates([x] + s) <==> x !in s && NoDuplicates(s)
    ensures Elements([x] + s) == {x} + Elements(s)
  {
    if x !in s && NoDuplicates(s) {
      forall i, j | 0 <= i < j < |[x] + s| ensures ([x] + s)[i] != ([x] + s)[j] {
        if i > 0 {
          assert ([x] + s)[i] == s[i - 1] && ([x] + s)[j] == s[j - 1];
        } else {
          assert ([x] + s)[j] in s;
        }
      }
    }
    if NoDuplicates([x] + s) {
      forall i, j | 0 <= i < j < |s| ensures s[i] != s[j] {
        assert s[i] == ([x] + s)[i + 1] && s[j] == ([x] + s)[j + 1];
      }
      forall k | 0 <= k < |s| ensures s[k] != x {
        assert s[k] == ([x] + s)[k + 1] && x == ([x] + s)[0];
      }
    }
  }

  lemma NamesCons(adds: seq<(string, Service)>)
    requires adds != []
    ensures Names(adds) == [adds[0].0] + Names(adds[1..])
  {
  }

  /** The rule loop succeeds exactly when no name repeats and none is bound
      to the application already. */
  lemma {:induction false} AddBackingsSucceeds(r: ProjectAnalysisResult, app: string, adds: seq<(string, Service)>)
    requires app in r.applications
    ensures AddBackings(r, app, adds).err.None?
        <==> NoDuplicates(Names(adds)) && Elements(Names(adds)) !! BackingOf(r, app)
    decreases |adds|
  {
    if adds != [] {
      NamesCons(adds);
      NoDuplicatesCons(adds[0].0, Names(adds[1..]));
      var step := AddBacking(r, app, adds[0].0, adds[0].1);
      if step.err.None? {
        AddBackingsSucceeds(step.result, app, adds[1..]);
      }
    }
  }

  /** After a successful rule loop the application is bound to every
      name. */
  lemma {:induction false} AddBackingsBindings(r: ProjectAnalysisResult, app: string, adds: seq<(string, Service)>)
    requires AddBackings(r, app, adds).err.None?
    ensures BackingOf(AddBackings(r, app, adds).result, app) == BackingOf(r, app) + Elements(Names(adds))
    decreases |adds|
  {
    if adds != [] {
      NamesCons(adds);
      NoDuplicatesCons(adds[0].0, Names(adds[1..]));
      AddBackingsBindings(AddBacking(r, app, adds[0].0, adds[0].1).result, app, adds[1..]);
    }
  }

  /** A successful rule loop gives the application a backing entry when
      there is anything to add. */
  lemma {:induction false} AddBackingsKeys(r: ProjectAnalysisResult, app: string, adds: seq<(string, Service)>)
    requires AddBackings(r, app, adds).err.None?
    ensures AddBackings(r, app, adds).result.backing.Keys == r.backing.Keys + (if adds == [] then {} else {app})
    decreases |adds|
  {
    if adds != [] {
      AddBackingsKeys(AddBacking(r, app, adds[0].0, adds[0].1).result, app, adds[1..]);
    }
  }

  /** A successful rule loop stores a service under every name. */
  lemma {:induction false} AddBackingsServiceNames(r: ProjectAnalysisResult, app: string, adds: seq<(string, Service)>)
    requires AddBackings(r, app, adds).err.None?
    ensures AddBackings(r, app, adds).result.services.Keys == r.services.Keys + Elements(Names(adds))
    decreases |adds|
  {
    if adds != [] {
      NamesCons(adds);
      NoDuplicatesCons(adds[0].0, Names(adds[1..]));
      AddBackingsServiceNames(AddBacking(r, app, adds[0].0, adds[0].1).result, app, adds[1..]);
    }
  }

  /** A service stored by the rule loop is the one the first addition of
      its name carried. */
  lemma {:induction false} AddBackingsServices(r: ProjectAnalysisResult, app: string, adds: seq<(string, Service)>, i: nat)
    requires AddBackings(r, app, adds).err.None?
    requires i < |adds| && adds[i].0 !in r.services
    requires forall j | 0 <= j < i :: adds[j].0 != adds[i].0
    ensures var services := AddBackings(r, app, adds).result.services;
      adds[i].0 in services && services[adds[i].0] == adds[i].1
    decreases |adds|
  {
    var step := AddBacking(r, app, adds[0].0, adds[0].1);
    if i > 0 {
      AddBackingsServices(step.result, app, adds[1..], i - 1);
    }
  }

  /** The rule loop keeps a result consistent when it adds known services
      for a hosted application. */
  lemma {:induction false} AddBackingsPreserves(r: ProjectAnalysisResult, app: string, adds: seq<(string, Service)>)
    requires Consistent(r) && app in r.hosting
    requires forall i | 0 <= i < |adds| :: !adds[i].1.Foreign?
    requires AddBackings(r, app, adds).err.None?
    ensures Consistent(AddBackings(r, app, adds).result)
    decreases |adds|
  {
    if adds != [] {
      var step := AddBacking(r, app, adds[0].0, adds[0].1);
      AddBackingPreserves(r, app, adds[0].0, adds[0].1);
      AddBackingsPreserves(step.result, app, adds[1..]);
    }
  }

  /** The database name of `spring.datasource.url`, "" without it. */
  function DatabaseNameOf(props: Properties): (name: string)
    ensures name != "" ==> ValidName(name)
    ensures "spring.datasource.url" !in props ==> name == ""
  {
    if "spring.datasource.url" in props then GetDatabaseName(props["spring.datasource.url"]) else ""
  }

  /** The result with the application and its container app, after the
      first two steps of `analyzePomProject`. */
  function Hosted(app: string, relativeDir: string): (r: ProjectAnalysisResult)
    ensures Consistent(r) && app in r.hosting
  {
    var r := ProjectAnalysisResult("", map[app := Application(relativeDir)], map[app := AzureContainerApp], map[app := app], map[]);
    assert ReferencedNames(r) == {app} by {
      assert BackedNames(r) == {};
      assert r.hosting.Values == {app} by {
        assert r.hosting[app] == app;
      }
    }
    r
  }

  /** `analyzePomProject` for a runnable module, once the destination list
      is known: add the application, its container app under the same name,
      then the backing services. */
  function AnalyzeRunnable(app: string, relativeDir: string, props: Properties, queues: seq<string>, deps: seq<Dependency>): (u: Update)
    ensures u.result.applications == map[app := Application(relativeDir)]
    ensures u.result.hosting == map[app := app]
    ensures app in u.result.services && u.result.services[app] == AzureContainerApp
    ensures u.err.Some? ==> u.err.value.BackingBindingExists? && u.err.value.applicationName == app
  {
    var withApp := AddApplication(Empty, app, Application(relativeDir));
    if withApp.err.Some? then withApp
    else
      var withHost := AddHosting(withApp.result, app, app, AzureContainerApp);
      if withHost.err.Some? then withHost
      else AddBackings(withHost.result, app, BackingAdds(deps, DatabaseNameOf(props), queues))
  }

  /** The first two steps cannot fail. */
  lemma AnalyzeRunnableHosts(app: string, relativeDir: string, props: Properties, queues: seq<string>, deps: seq<Dependency>)
    ensures AnalyzeRunnable(app, relativeDir, props, queues, deps)
         == AddBackings(Hosted(app, relativeDir), app, BackingAdds(deps, DatabaseNameOf(props), queues))
  {
  }

  /** The effective POM path of the file `name` in the directory `rel`
      below `root`. */
  function PomPath(root: string, rel: seq<string>, name: string): string
  {
    DirPath(root, rel) + "/" + name
  }

  /** `analyzePomProject` with the order of the destination list fixed by
      `queues`. */
  function PomOutcome(ws: Workspace, root: string, rel: seq<string>, name: string, queues: seq<string>): (u: Update)
    ensures PomPath(root, rel, name) !in ws.effectivePoms ==> u == Update(Empty, Some(EffectivePomFailed(PomPath(root, rel, name))))
    ensures PomPath(root, rel, name) in ws.effectivePoms && !IsSpringBootRunnableProject(ws.effectivePoms[PomPath(root, rel, name)])
            ==> u == Update(Empty, None)
  {
    var pomPath := PomPath(root, rel, name);
    if pomPath !in ws.effectivePoms then Update(Empty, Some(EffectivePomFailed(pomPath)))
    else
      var pom := ws.effectivePoms[pomPath];
      if !IsSpringBootRunnableProject(pom) then Update(Empty, None)
      else
        var dir := DirPath(root, rel);
        AnalyzeRunnable(NameFromDirPath(ws.labelName, dir), RelativeDir(rel), ReadProperties(ws.env, ws.files, dir), queues, pom.dependencies)
  }

  /** Every application runs on a container app of its own name. */
  predicate SelfHosted(r: ProjectAnalysisResult)
  {
    r.hosting.Keys == r.applications.Keys && forall a | a in r.hosting :: r.hosting[a] == a
  }

  /** `analyzePomProject` for the POM file `name` in the directory `rel`
      below `root`.  The destination list comes from a map walk, so its
      order is any duplicate-free order of the destinations. */
  method AnalyzePomProject(ws: Workspace, root: string, rel: seq<string>, name: string) returns (u: Update)
    ensures exists queues | Elements(queues) == DestinationValues(ReadProperties(ws.env, ws.files, DirPath(root, rel))) && NoDuplicates(queues)
      :: u == PomOutcome(ws, root, rel, name, queues)
    ensures u.err.None? ==> Consistent(u.result) && SelfHosted(u.result)
  {
    var pomPath := PomPath(root, rel, name);
    var dir := DirPath(root, rel);
    var props := ReadProperties(ws.env, ws.files, dir);
    var queues := GetDistinctBindingDestinationValues(props);
    OutcomeConsistent(ws, root, rel, name, queues);
    if pomPath !in ws.effectivePoms {
      u := Update(Empty, Some(EffectivePomFailed(pomPath)));
    } else {
      var pom := ws.effectivePoms[pomPath];
      if !IsSpringBootRunnableProject(pom) {
        u := Update(Empty, None);
      } else {
        var app := NameFromDirPath(ws.labelName, dir);
        u := AnalyzeRunnable(app, RelativeDir(rel), props, queues, pom.dependencies);
      }
    }
    assert u == PomOutcome(ws, root, rel, name, queues);
  }

  /** Whatever the destination list, a POM analysed without error gives a
      consistent result with every application on its own container app. */
  lemma OutcomeConsistent(ws: Workspace, root: string, rel: seq<string>, name: string, queues: seq<string>)
    ensures var u := PomOutcome(ws, root, rel, name, queues);
      u.err.None? ==> Consistent(u.result) && SelfHosted(u.result)
  {
    var pomPath := PomPath(root, rel, name);
    if pomPath in ws.effectivePoms && IsSpringBootRunnableProject(ws.effectivePoms[pomPath]) {
      var dir := DirPath(root, rel);
      RunnableConsistent(NameFromDirPath(ws.labelName, dir), RelativeDir(rel), ReadProperties(ws.env, ws.files, dir),
        queues, ws.effectivePoms[pomPath].dependencies);
    } else {
      EmptyConsistent();
    }
  }

  lemma EmptyConsistent()
    ensures Consistent(Empty) && SelfHosted(Empty)
  {
    assert ReferencedNames(Empty) == {};
  }

  /** The analysis of a runnable module, when it succeeds, is consistent
      and hosts its one application on a container app of its name. */
  lemma RunnableConsistent(app: string, relativeDir: string, props: Properties, queues: seq<string>, deps: seq<Dependency>)
    ensures var u := AnalyzeRunnable(app, relativeDir, props, queues, deps);
      u.err.None? ==> Consistent(u.result) && SelfHosted(u.result)
  {
    AnalyzeRunnableHosts(app, relativeDir, props, queues, deps);
    HostedSelf(app, relativeDir);
    BackingsKeepHosting(Hosted(app, relativeDir), app, BackingAdds(deps, DatabaseNameOf(props), queues));
  }

  lemma HostedSelf(app: string, relativeDir: string)
    ensures Consistent(Hosted(app, relativeDir)) && SelfHosted(Hosted(app, relativeDir)) && app in Hosted(app, relativeDir).hosting
  {
  }

  /** Backing additions keep a consistent result consistent, and leave its
      applications and hosting bindings alone. */
  lemma BackingsKeepHosting(r: ProjectAnalysisResult, app: string, adds: seq<(string, Service)>)
    requires Consistent(r) && SelfHosted(r) && app in r.hosting
    requires forall i | 0 <= i < |adds| :: !adds[i].1.Foreign?
    ensures var u := AddBackings(r, app, adds);
      u.err.None? ==> Consistent(u.result) && SelfHosted(u.result)
  {
    if AddBackings(r, app, adds).err.None? {
      AddBackingsPreserves(r, app, adds);
    }
  }

  /** Every runnable module is one application on a container app of its
      own name, whatever its dependencies. */
  lemma RunnableApplication(app: string, relativeDir: string, props: Properties, queues: seq<string>, deps: seq<Dependency>)
    ensures var r := AnalyzeRunnable(app, relativeDir, props, queues, deps).result;
      && r.name == ""
      && r.applications == map[app := Application(relativeDir)]
      && r.hosting == map[app := app]
      && r.services[app] == AzureContainerApp
  {
    AnalyzeRunnableHosts(app, relativeDir, props, queues, deps);
  }

  /** A runnable module is analysed without error exactly when no backing
      service name is asked for twice. */
  lemma RunnableSucceeds(app: string, relativeDir: string, props: Properties, queues: seq<string>, deps: seq<Dependency>)
    ensures AnalyzeRunnable(app, relativeDir, props, queues, deps).err.None?
        <==> NoDuplicates(Names(BackingAdds(deps, DatabaseNameOf(props), queues)))
  {
    AnalyzeRunnableHosts(app, relativeDir, props, queues, deps);
    AddBackingsSucceeds(Hosted(app, relativeDir), app, BackingAdds(deps, DatabaseNameOf(props), queues));
  }

  /** After a successful analysis the application is bound to exactly the
      names its dependencies ask for. */
  lemma RunnableBindings(app: string, relativeDir: string, props: Properties, queues: seq<string>, deps: seq<Dependency>)
    requires AnalyzeRunnable(app, relativeDir, props, queues, deps).err.None?
    ensures var adds := BackingAdds(deps, DatabaseNameOf(props), queues);
      var r := AnalyzeRunnable(app, relativeDir, props, queues, deps).result;
      && r.backing.Keys == (if adds == [] then {} else {app})
      && BackingOf(r, app) == Elements(Names(adds))
  {
    AnalyzeRunnableHosts(app, relativeDir, props, queues, deps);
    BindingsFromNone(Hosted(app, relativeDir), app, BackingAdds(deps, DatabaseNameOf(props), queues));
  }

  /** Backing additions to a result without backing bindings bind exactly
      the added names, to the one application. */
  lemma BindingsFromNone(r: ProjectAnalysisResult, app: string, adds: seq<(string, Service)>)
    requires r.backing == map[] && AddBackings(r, app, adds).err.None?
    ensures var r' := AddBackings(r, app, adds).result;
      && r'.backing.Keys == (if adds == [] then {} else {app})
      && BackingOf(r', app) == Elements(Names(adds))
  {
    AddBackingsBindings(r, app, adds);
    AddBackingsKeys(r, app, adds);
  }

  /** After a successful analysis every service asked for is stored, and
      one whose name differs from the application's carries what its rule
      built. */
  lemma RunnableServices(app: string, relativeDir: string, props: Properties, queues: seq<string>, deps: seq<Dependency>, i: nat)
    requires AnalyzeRunnable(app, relativeDir, props, queues, deps).err.None?
    requires i < |BackingAdds(deps, DatabaseNameOf(props), queues)|
    ensures var add := BackingAdds(deps, DatabaseNameOf(props), queues)[i];
      var services := AnalyzeRunnable(app, relativeDir, props, queues, deps).result.services;
      && add.0 in services
      && (add.0 != app ==> services[add.0] == add.1)
  {
    var adds := BackingAdds(deps, DatabaseNameOf(props), queues);
    AnalyzeRunnableHosts(app, relativeDir, props, queues, deps);
    RunnableSucceeds(app, relativeDir, props, queues, deps);
    AddBackingsServiceNames(Hosted(app, relativeDir), app, adds);
    assert adds[i].0 in Elements(Names(adds));
    if adds[i].0 != app {
      AddBackingsServices(Hosted(app, relativeDir), app, adds, i);
    }
  }

  /** A database added by the rules carries the name from
      `spring.datasource.url`, or "" when the property is missing. */
  lemma RunnableDatabaseName(app: string, relativeDir: string, props: Properties, queues: seq<string>, deps: seq<Dependency>, i: nat)
    requires AnalyzeRunnable(app, relativeDir, props, queues, deps).err.None?
    requires i < |BackingAdds(deps, DatabaseNameOf(props), queues)|
    requires BackingAdds(deps, DatabaseNameOf(props), queues)[i].0 in {DefaultMysqlServiceName, DefaultPostgresqlServiceName}
    requires BackingAdds(deps, DatabaseNameOf(props), queues)[i].0 != app
    ensures var services := AnalyzeRunnable(app, relativeDir, props, queues, deps).result.services;
      var n := BackingAdds(deps, DatabaseNameOf(props), queues)[i].0;
      n in services && services[n] == if n == DefaultMysqlServiceName then AzureDatabaseForMysql(DatabaseNameOf(props))
                     else AzureDatabaseForPostgresql(DatabaseNameOf(props))
  {
    RunnableServices(app, relativeDir, props, queues, deps, i);
  }

  lemma NamesAppend(a: seq<(string, Service)>, b: seq<(string, Service)>)
    ensures Names(a + b) == Names(a) + Names(b)
  {
  }

  /** The service names a dependency list asks for.  They depend neither on
      the database name nor on the destination list, so this is the list
      with both left empty. */
  function RuleNames(deps: seq<Dependency>): seq<string>
  {
    Names(BackingAdds(deps, "", []))
  }

  /** Which services are asked for does not depend on the database name or
      on the destinations; only the services' contents do. */
  lemma {:induction false} NamesIgnoreParameters(deps: seq<Dependency>, databaseName: string, queues: seq<string>)
    ensures Names(BackingAdds(deps, databaseName, queues)) == RuleNames(deps)
    decreases |deps|
  {
    if deps != [] {
      NamesIgnoreParameters(deps[1..], databaseName, queues);
      NamesAppend(Triggered(deps[0], databaseName, queues), BackingAdds(deps[1..], databaseName, queues));
      NamesAppend(Triggered(deps[0], "", []), BackingAdds(deps[1..], "", []));
      assert Names(Triggered(deps[0], databaseName, queues)) == Names(Triggered(deps[0], "", []));
    }
  }

  lemma {:induction false} BackingAddsAppend(deps1: seq<Dependency>, deps2: seq<Dependency>, databaseName: string, queues: seq<string>)
    ensures BackingAdds(deps1 + deps2, databaseName, queues)
         == BackingAdds(deps1, databaseName, queues) + BackingAdds(deps2, databaseName, queues)
    decreases |deps1|
  {
    if deps1 == [] {
      assert deps1 + deps2 == deps2;
    } else {
      assert (deps1 + deps2)[0] == deps1[0];
      assert (deps1 + deps2)[1..] == deps1[1..] + deps2;
      BackingAddsAppend(deps1[1..], deps2, databaseName, queues);
    }
  }

  /** The additions for the dependencies before, at and after index `i`. */
  lemma BackingAddsAt(deps: seq<Dependency>, i: nat, databaseName: string, queues: seq<string>)
    requires i < |deps|
    ensures BackingAdds(deps, databaseName, queues)
         == BackingAdds(deps[..i], databaseName, queues) + Triggered(deps[i], databaseName, queues)
            + BackingAdds(deps[i + 1..], databaseName, queues)
  {
    assert deps == deps[..i] + deps[i..];
    BackingAddsAppend(deps[..i], deps[i..], databaseName, queues);
    assert deps[i..][1..] == deps[i + 1..];
  }

  /** Every dependency a rule matches gets its backing service bound. */
  lemma DependencyBound(app: string, relativeDir: string, props: Properties, queues: seq<string>, deps: seq<Dependency>, i: nat)
    requires AnalyzeRunnable(app, relativeDir, props, queues, deps).err.None?
    requires i < |deps|
    ensures var triggered := Triggered(deps[i], DatabaseNameOf(props), queues);
      Elements(Names(triggered)) <= BackingOf(AnalyzeRunnable(app, relativeDir, props, queues, deps).result, app)
  {
    var db := DatabaseNameOf(props);
    BackingAddsAt(deps, i, db, queues);
    NamesAppend(BackingAdds(deps[..i], db, queues) + Triggered(deps[i], db, queues), BackingAdds(deps[i + 1..], db, queues));
    NamesAppend(BackingAdds(deps[..i], db, queues), Triggered(deps[i], db, queues));
    RunnableBindings(app, relativeDir, props, queues, deps);
  }

  /** Two dependencies asking for the same backing service make the
      analysis fail with a duplicate binding. */
  lemma SameServiceTwiceFails(app: string, relativeDir: string, props: Properties, queues: seq<string>, deps: seq<Dependency>, i: nat, j: nat)
    requires i < j < |deps|
    requires var db := DatabaseNameOf(props);
      Triggered(deps[i], db, queues) != [] && Names(Triggered(deps[i], db, queues)) == Names(Triggered(deps[j], db, queues))
    ensures var u := AnalyzeRunnable(app, relativeDir, props, queues, deps);
      u.err.Some? && u.err.value.BackingBindingExists? && u.err.value.applicationName == app
  {
    NameRepeated(deps, i, j, DatabaseNameOf(props), queues);
    RunnableSucceeds(app, relativeDir, props, queues, deps);
    AnalyzeRunnableHosts(app, relativeDir, props, queues, deps);
  }

  /** Two dependencies asking for the same name put it twice in the list. */
  lemma NameRepeated(deps: seq<Dependency>, i: nat, j: nat, databaseName: string, queues: seq<string>)
    requires i < j < |deps|
    requires Triggered(deps[i], databaseName, queues) != []
    requires Names(Triggered(deps[i], databaseName, queues)) == Names(Triggered(deps[j], databaseName, queues))
    ensures !NoDuplicates(Names(BackingAdds(deps, databaseName, queues)))
  {
    var ti, tj := Triggered(deps[i], databaseName, queues), Triggered(deps[j], databaseName, queues);
    assert Names(ti)[0] == ti[0].0 && Names(tj)[0] == tj[0].0;
    TwoPositions(deps, i, j, databaseName, queues);
    NamesRepeat(BackingAdds(deps, databaseName, queues),
      |BackingAdds(deps[..i], databaseName, queues)|, |BackingAdds(deps[..j], databaseName, queues)|);
  }

  /** Where the additions of two dependencies stand in the whole list. */
  lemma TwoPositions(deps: seq<Dependency>, i: nat, j: nat, databaseName: string, queues: seq<string>)
    requires i < j < |deps|
    requires Triggered(deps[i], databaseName, queues) != [] && Triggered(deps[j], databaseName, queues) != []
    ensures var all, k1, k2 := BackingAdds(deps, databaseName, queues),
        |BackingAdds(deps[..i], databaseName, queues)|, |BackingAdds(deps[..j], databaseName, queues)|;
      && k1 < k2 < |all|
      && all[k1] == Triggered(deps[i], databaseName, queues)[0]
      && all[k2] == Triggered(deps[j], databaseName, queues)[0]
  {
    var before := BackingAdds(deps[..j], databaseName, queues);
    var tj := Triggered(deps[j], databaseName, queues);
    BackingAddsAt(deps, j, databaseName, queues);
    assert deps[..j][i] == deps[i] && deps[..j][..i] == deps[..i];
    AddedAt(deps[..j], i, databaseName, queues);
    PositionInPrefix(before, tj + BackingAdds(deps[j + 1..], databaseName, queues),
      |BackingAdds(deps[..i], databaseName, queues)|);
  }

  /** An index into the first part of a concatenation, and the first
      element after it. */
  lemma PositionInPrefix<T>(a: seq<T>, b: seq<T>, k: nat)
    requires k < |a| && b != []
    ensures (a + b)[k] == a[k] && (a + b)[|a|] == b[0]
  {
  }

  /** The addition a dependency asks for stands after those of the
      dependencies before it. */
  lemma AddedAt(deps: seq<Dependency>, i: nat, databaseName: string, queues: seq<string>)
    requires i < |deps| && Triggered(deps[i], databaseName, queues) != []
    ensures var k := |BackingAdds(deps[..i], databaseName, queues)|;
      k < |BackingAdds(deps, databaseName, queues)|
      && BackingAdds(deps, databaseName, queues)[k] == Triggered(deps[i], databaseName, queues)[0]
  {
    BackingAddsAt(deps, i, databaseName, queues);
  }

  /** Two positions with the same name make the names repeat. */
  lemma NamesRepeat(adds: seq<(string, Service)>, k1: nat, k2: nat)
    requires k1 < k2 < |adds| && adds[k1].0 == adds[k2].0
    ensures !NoDuplicates(Names(adds))
  {
    assert Names(adds)[k1] == Names(adds)[k2];
  }

  /** The Service Bus JMS starter and the Service Bus stream binder in one
      module ask for the same service name, so the analysis fails. */
  lemma ServiceBusTwiceFails(app: string, relativeDir: string, props: Properties, queues: seq<string>, jms: Dependency, binder: Dependency)
    requires IsServiceBusJmsDependency(jms) && IsServiceBusBinderDependency(binder)
    ensures AnalyzeRunnable(app, relativeDir, props, queues, [jms, binder]).err
         == Some(BackingBindingExists(app, DefaultServiceBusServiceName))
  {
    var db := DatabaseNameOf(props);
    assert [jms, binder][1..] == [binder];
    assert [binder][1..] == [];
    assert BackingAdds([binder], db, queues) == Triggered(binder, db, queues) + BackingAdds([], db, queues);
    assert BackingAdds([jms, binder], db, queues) == Triggered(jms, db, queues) + BackingAdds([binder], db, queues);
    assert BackingAdds([jms, binder], db, queues)
        == [(DefaultServiceBusServiceName, AzureServiceBus([], [])), (DefaultServiceBusServiceName, AzureServiceBus(queues, []))];
    AnalyzeRunnableHosts(app, relativeDir, props, queues, [jms, binder]);
  }

  /** The dependencies with every scope replaced. */
  function WithScope(deps: seq<Dependency>, scope: string): (r: seq<Dependency>)
    ensures |r| == |deps|
    ensures forall i | 0 <= i < |deps| :: r[i] == deps[i].(scope := scope)
  {
    seq(|deps|, i requires 0 <= i < |deps| => deps[i].(scope := scope))
  }

  /** The rules do not look at a dependency's scope: a test dependency
      counts like any other. */
  lemma {:induction false} ScopeIgnored(deps: seq<Dependency>, scope: string, databaseName: string, queues: seq<string>)
    ensures BackingAdds(WithScope(deps, scope), databaseName, queues) == BackingAdds(deps, databaseName, queues)
    decreases |deps|
  {
    if deps != [] {
      assert WithScope(deps, scope)[1..] == WithScope(deps[1..], scope);
      ScopeIgnored(deps[1..], scope, databaseName, queues);
    }
  }
}

=== FILE: bindings.dfy ===
/** Spring Cloud Stream binding destinations and the duplicate-free value
    lists built from them (analyzer/internal/spring_boot_property.go:163-205). */
module Bindings {
  import opened Strings
  import opened Collections

  const BindingsPrefix := "spring.cloud.stream.bindings."
  const DestinationSuffix := ".destination"

  /** A key of the form `spring.cloud.stream.bindings.<binding-name>.destination`,
      checked as prefix and suffix separately, as the source does. */
  predicate IsDestinationKey(key: string)
  {
    BindingsPrefix <= key && HasSuffix(key, DestinationSuffix)
  }

  /** `GetBindingDestinationMap`: the destination properties, unchanged. */
  function GetBindingDestinationMap(properties: map<string, string>): (r: map<string, string>)
    ensures r.Keys <= properties.Keys
    ensures forall k | k in r :: IsDestinationKey(k) && r[k] == properties[k]
    ensures forall k | k in properties && IsDestinationKey(k) :: k in r
  {
    map k | k in properties && IsDestinationKey(k) :: properties[k]
  }

  /** Properties that are not destinations do not matter. */
  lemma OtherPropertiesIgnored(properties: map<string, string>, key: string, value: string)
    requires !IsDestinationKey(key)
    ensures GetBindingDestinationMap(properties[key := value]) == GetBindingDestinationMap(properties - {key})
  {
  }

  /** Filtering twice is filtering once. */
  lemma DestinationMapIdempotent(properties: map<string, string>)
    ensures GetBindingDestinationMap(GetBindingDestinationMap(properties)) == GetBindingDestinationMap(properties)
  {
  }

  /** Every binding name gives a destination key. */
  lemma BindingKeyAccepted(name: string)
    ensures IsDestinationKey(BindingsPrefix + name + DestinationSuffix)
  {
    var key := BindingsPrefix + name + DestinationSuffix;
    assert key[|key| - |DestinationSuffix|..] == DestinationSuffix;
  }

  /** A destination key long enough to hold both parts is a binding name
      wrapped in the prefix and the suffix. */
  lemma DestinationKeyHasBindingName(key: string)
    requires IsDestinationKey(key) && |key| >= |BindingsPrefix| + |DestinationSuffix|
    ensures key == BindingsPrefix + key[|BindingsPrefix|..|key| - |DestinationSuffix|] + DestinationSuffix
  {
    var name := key[|BindingsPrefix|..|key| - |DestinationSuffix|];
    assert key == key[..|BindingsPrefix|] + name + key[|key| - |DestinationSuffix|..];
  }

  /** Prefix and suffix may share the dot between them, so the key without
      any binding name counts as a destination too. */
  lemma SharedDotAccepted()
    ensures IsDestinationKey("spring.cloud.stream.bindings.destination")
    ensures |"spring.cloud.stream.bindings.destination"| < |BindingsPrefix| + |DestinationSuffix|
  {
    var key := "spring.cloud.stream.bindings.destination";
    assert key[..|BindingsPrefix|] == BindingsPrefix;
    assert key[|key| - |DestinationSuffix|..] == DestinationSuffix;
  }

  /** `DistinctMapValues`: the values of a map, each once. */
  method DistinctMapValues(input: map<string, string>) returns (r: seq<string>)
    ensures Elements(r) == input.Values && NoDuplicates(r)
  {
    var valueSet: set<string> := {};
    var keys := Enumerate(input.Keys);
    for i := 0 to |keys|
      invariant valueSet == set j | 0 <= j < i :: input[keys[j]]
    {
      valueSet := valueSet + {input[keys[i]]};
    }
    assert forall v | v in input.Values :: v in valueSet by {
      forall v | v in input.Values ensures v in valueSet {
        var k :| k in input && input[k] == v;
        assert k in Elements(keys);
        var j :| 0 <= j < |keys| && keys[j] == k;
      }
    }
    r := Enumerate(valueSet);
  }

  /** The values of the destination properties. */
  function DestinationValues(properties: map<string, string>): set<string>
  {
    set k | k in properties && IsDestinationKey(k) :: properties[k]
  }

  /** `GetDistinctBindingDestinationValues`: the destinations, each once. */
  method GetDistinctBindingDestinationValues(properties: map<string, string>) returns (r: seq<string>)
    ensures Elements(r) == DestinationValues(properties)
    ensures NoDuplicates(r)
  {
    var destinations := GetBindingDestinationMap(properties);
    r := DistinctMapValues(destinations);
  }

  /** `AppendAndDistinct`: the members of both slices, each once. */
  method AppendAndDistinct(a: seq<string>, b: seq<string>) returns (r: seq<string>)
    ensures Elements(r) == Elements(a) + Elements(b) && NoDuplicates(r)
  {
    var valueSet: set<string> := {};
    for i := 0 to |a|
      invariant valueSet == Elements(a[..i])
    {
      assert a[..i + 1] == a[..i] + [a[i]];
      valueSet := valueSet + {a[i]};
    }
    assert a[..|a|] == a;
    for i := 0 to |b|
      invariant valueSet == Elements(a) + Elements(b[..i])
    {
      assert b[..i + 1] == b[..i] + [b[i]];
      valueSet := valueSet + {b[i]};
    }
    assert b[..|b|] == b;
    r := Enumerate(valueSet);
  }
}

=== FILE: converter.dfy ===
/** The parts of an `azure.yaml` project configuration the converter fills
    in (converter/azd/azd.go:11-76, 175-210). */
module Azd {

  const ContainerAppTarget := "containerapp"
  const ServiceLanguageJava := "java"

  const ResourceTypeDbRedis := "db.redis"
  const ResourceTypeDbPostgres := "db.postgres"
  const ResourceTypeDbMongo := "db.mongo"
  const ResourceTypeHostContainerApp := "host.containerapp"
  const ResourceTypeMessagingEventHubs := "messaging.eventhubs"
  const ResourceTypeMessagingServiceBus := "messaging.servicebus"
  const ResourceTypeStorage := "storage"

  /** One deployable service. */
  datatype ServiceConfig = ServiceConfig(name: string, relativePath: string, host: string, language: string)

  /** The properties of a resource; `NoProps` is Go's nil. */
  datatype Props =
    | NoProps
    | ContainerAppProps(port: int)
    | ServiceBusProps(queues: seq<string>, topics: seq<string>)
    | EventHubsProps(hubs: seq<string>)
    | StorageProps(containers: seq<string>)

  /** One resource and the names of the resources it uses. */
  datatype ResourceConfig = ResourceConfig(name: string, resourceType: string, props: Props, uses: seq<string>)

  datatype ProjectConfig = ProjectConfig(
    name: string,
    services: map<string, ServiceConfig>,
    resources: map<string, ResourceConfig>)
}

/** Turning an analysis result into a project configuration
    (converter/converter.go:10-101). */
module Converter {
  import opened Wrappers
  import opened Errors
  import opened Collections
  import opened AnalysisResult
  import opened Azd

  /** `toResourceType`. */
  function ToResourceType(s: Service): (t: Result<string, Error>)
    ensures t.Failure? <==> s.Foreign?
    ensures t.Failure? ==> t.error == UnknownServiceType
    ensures s.AzureDatabaseForMysql? || s.AzureDatabaseForPostgresql? ==> t == Success(ResourceTypeDbPostgres)
    ensures s.AzureCosmosDb? || s.AzureCosmosDbForMongoDb? ==> t == Success(ResourceTypeDbMongo)
  {
    match s
    case AzureContainerApp => Success(ResourceTypeHostContainerApp)
    case AzureDatabaseForPostgresql(_) => Success(ResourceTypeDbPostgres)
    case AzureDatabaseForMysql(_) => Success(ResourceTypeDbPostgres)
    case AzureCacheForRedis => Success(ResourceTypeDbRedis)
    case AzureCosmosDbForMongoDb => Success(ResourceTypeDbMongo)
    case AzureCosmosDb => Success(ResourceTypeDbMongo)
    case AzureServiceBus(_, _) => Success(ResourceTypeMessagingServiceBus)
    case AzureEventHubs(_) => Success(ResourceTypeMessagingEventHubs)
    case AzureStorageAccount(_) => Success(ResourceTypeStorage)
    case Foreign(_) => Failure(UnknownServiceType)
  }

  /** `toProps`. */
  function ToProps(s: Service): (p: Result<Props, Error>)
    ensures p.Failure? <==> s.Foreign?
    ensures p.Failure? ==> p.error == UnknownServiceType
    ensures s.AzureContainerApp? ==> p == Success(ContainerAppProps(8080))
    ensures s.AzureServiceBus? ==> p == Success(ServiceBusProps(s.queues, s.topics))
    ensures s.AzureEventHubs? ==> p == Success(EventHubsProps(s.hubs))
    ensures s.AzureStorageAccount? ==> p == Success(StorageProps(s.containers))
  {
    match s
    case AzureContainerApp => Success(ContainerAppProps(8080))
    case AzureDatabaseForPostgresql(_) => Success(NoProps)
    case AzureDatabaseForMysql(_) => Success(NoProps)
    case AzureCacheForRedis => Success(NoProps)
    case AzureCosmosDbForMongoDb => Success(NoProps)
    case AzureCosmosDb => Success(NoProps)
    case AzureServiceBus(queues, topics) => Success(ServiceBusProps(queues, topics))
    case AzureEventHubs(hubs) => Success(EventHubsProps(hubs))
    case AzureStorageAccount(containers) => Success(StorageProps(containers))
    case Foreign(_) => Failure(UnknownServiceType)
  }

  /** The props kind a resource type expects when the configuration is
      written out (converter/azd/azd.go:97-108); other types carry no
      props. */
  predicate PropsFit(resourceType: string, p: Props)
  {
    if resourceType == ResourceTypeHostContainerApp then p.ContainerAppProps?
    else if resourceType == ResourceTypeMessagingEventHubs then p.EventHubsProps?
    else if resourceType == ResourceTypeMessagingServiceBus then p.ServiceBusProps?
    else if resourceType == ResourceTypeStorage then p.StorageProps?
    else p.NoProps?
  }

  /** The two tables agree: every known service gets the props its
      resource type is written with, so writing the configuration never
      meets a props value of the wrong kind. */
  lemma PropsFitType(s: Service)
    requires !s.Foreign?
    ensures PropsFit(ToResourceType(s).value, ToProps(s).value)
  {
  }

  /** Some service is of a kind the converter does not know. */
  predicate HasForeign(r: ProjectAnalysisResult)
  {
    exists n | n in r.services :: r.services[n].Foreign?
  }

  /** The hosting name the converter reads for an application: its
      binding, or "", the value a Go map gives for a missing key. */
  function HostOf(r: ProjectAnalysisResult, a: string): string
  {
    if a in r.hosting then r.hosting[a] else ""
  }

  /** Every application with at least one backing service has a resource
      under its hosting name: line 42 of the converter dereferences that
      resource once per backing service, and a missing one is a nil
      pointer. */
  predicate UsesResolvable(r: ProjectAnalysisResult)
  {
    forall a | a in r.backing && r.backing[a] != {} :: HostOf(r, a) in r.services
  }

  /** No two applications with backing services share a hosting name, so
      no resource gets the uses of two applications. */
  predicate UsesUnshared(r: ProjectAnalysisResult)
  {
    forall a, b | a in r.backing && b in r.backing && a != b && r.backing[a] != {} && r.backing[b] != {} ::
      HostOf(r, a) != HostOf(r, b)
  }

  /** The backing services of the pairs in `done` whose application's
      hosting name is `n`. */
  function UsedIn(r: ProjectAnalysisResult, done: set<(string, string)>, n: string): set<string>
  {
    set p | p in done && HostOf(r, p.0) == n :: p.1
  }

  /** The names the resource `n` uses: the backing services of the
      applications it hosts. */
  function UsedNames(r: ProjectAnalysisResult, n: string): set<string>
  {
    UsedIn(r, BackingPairs(r), n)
  }

  /** The resources without uses, or the error of the first unknown
      service.  Every unknown service gives the same error, so the order of
      the walk does not matter. */
  function BaseResources(r: ProjectAnalysisResult): (res: Result<map<string, ResourceConfig>, Error>)
    ensures res.Failure? <==> HasForeign(r)
    ensures res.Failure? ==> res.error == UnknownServiceType
    ensures res.Success? ==> res.value.Keys == r.services.Keys
    ensures res.Success? ==> forall n | n in r.services ::
      && res.value[n].name == n
      && Success(res.value[n].resourceType) == ToResourceType(r.services[n])
      && Success(res.value[n].props) == ToProps(r.services[n])
      && res.value[n].uses == []
  {
    if HasForeign(r) then Failure(UnknownServiceType)
    else Success(map n | n in r.services :: ResourceConfig(n, ToResourceType(r.services[n]).value, ToProps(r.services[n]).value, []))
  }

  /** The state of the uses loop: the resources of `base` with the pairs
      of `done` appended. */
  predicate UsesLoopState(r: ProjectAnalysisResult, base: map<string, ResourceConfig>, done: set<(string, string)>,
                          resources: map<string, ResourceConfig>)
  {
    && resources.Keys == base.Keys
    && (forall n | n in resources :: resources[n].(uses := []) == base[n].(uses := []))
    && (forall n | n in resources :: Elements(resources[n].uses) == UsedIn(r, done, n))
    && (UsesUnshared(r) ==> forall n | n in resources :: NoDuplicates(resources[n].uses))
  }

  /** `ProjectAnalysisResultToAzdProjectConfig`.  The backing bindings are
      walked as (application, service) pairs in map order.  An unknown
      service ends the conversion before the uses are filled in, so only a
      result without one needs its uses to resolve. */
  method ProjectAnalysisResultToAzdProjectConfig(r: ProjectAnalysisResult) returns (res: Result<ProjectConfig, Error>)
    requires !HasForeign(r) ==> UsesResolvable(r)
    ensures res.Failure? <==> HasForeign(r)
    ensures res.Failure? ==> res.error == UnknownServiceType
    ensures res.Success? ==> res.value.name == r.name
    ensures res.Success? ==> res.value.services.Keys == r.applications.Keys
    ensures res.Success? ==> forall a | a in r.applications ::
      res.value.services[a] == ServiceConfig(a, r.applications[a].projectRelativePath, ContainerAppTarget, ServiceLanguageJava)
    ensures res.Success? ==> res.value.resources.Keys == r.services.Keys
    ensures res.Success? ==> forall n | n in r.services ::
      && res.value.resources[n].name == n
      && Success(res.value.resources[n].resourceType) == ToResourceType(r.services[n])
      && Success(res.value.resources[n].props) == ToProps(r.services[n])
      && Elements(res.value.resources[n].uses) == UsedNames(r, n)
    ensures res.Success? && UsesUnshared(r) ==> forall n | n in r.services :: NoDuplicates(res.value.resources[n].uses)
  {
    var services := map a | a in r.applications :: ServiceConfig(a, r.applications[a].projectRelativePath, ContainerAppTarget, ServiceLanguageJava);
    var base := BaseResources(r);
    if base.Failure? {
      return Failure(base.error);
    }
    var resources := base.value;
    var todo := BackingPairs(r);
    var done: set<(string, string)> := {};
    UsesLoopStarts(r, base.value);
    while todo != {}
      invariant done + todo == BackingPairs(r) && done !! todo
      invariant UsesLoopState(r, base.value, done, resources)
      decreases todo
    {
      var p :| p in todo;
      PairResolvable(r, p);
      var h := HostOf(r, p.0);
      UsesStep(r, base.value, done, p, resources);
      resources := resources[h := resources[h].(uses := resources[h].uses + [p.1])];
      done := done + {p};
      todo := todo - {p};
    }
    return Success(ProjectConfig(r.name, services, resources));
  }

  lemma UsesLoopStarts(r: ProjectAnalysisResult, base: map<string, ResourceConfig>)
    requires forall n | n in base :: base[n].uses == []
    ensures UsesLoopState(r, base, {}, base)
  {
    forall n | n in base ensures Elements(base[n].uses) == UsedIn(r, {}, n) {
    }
  }

  lemma PairResolvable(r: ProjectAnalysisResult, p: (string, string))
    requires UsesResolvable(r) && p in BackingPairs(r)
    ensures HostOf(r, p.0) in r.services
  {
    var a, s :| a in r.backing && s in r.backing[a] && p == (a, s);
  }

  /** One pair of the uses loop: its service is appended to the uses of
      the resource hosting its application. */
  lemma UsesStep(r: ProjectAnalysisResult, base: map<string, ResourceConfig>, done: set<(string, string)>,
                 p: (string, string), resources: map<string, ResourceConfig>)
    requires UsesLoopState(r, base, done, resources)
    requires done <= BackingPairs(r) && p in BackingPairs(r) && p !in done && HostOf(r, p.0) in resources
    ensures var h := HostOf(r, p.0);
      UsesLoopState(r, base, done + {p}, resources[h := resources[h].(uses := resources[h].uses + [p.1])])
  {
    var h := HostOf(r, p.0);
    var uses := resources[h].uses + [p.1];
    var resources' := resources[h := resources[h].(uses := uses)];
    forall n | n in resources' ensures Elements(resources'[n].uses) == UsedIn(r, done + {p}, n) {
      UsedInAdd(r, done, p, n);
    }
    if UsesUnshared(r) {
      forall q | q in done && HostOf(r, q.0) == h ensures q.1 != p.1 {
        BackingPairNonEmpty(r, q);
        BackingPairNonEmpty(r, p);
        assert q.0 == p.0;
      }
      assert p.1 !in UsedIn(r, done, h);
      forall n | n in resources' ensures NoDuplicates(resources'[n].uses) {
        if n == h {
          NoDuplicatesSnoc(resources[h].uses, p.1);
        }
      }
    }
  }

  lemma UsedInAdd(r: ProjectAnalysisResult, done: set<(string, string)>, p: (string, string), n: string)
    ensures UsedIn(r, done + {p}, n) == UsedIn(r, done, n) + (if HostOf(r, p.0) == n then {p.1} else {})
  {
  }

  lemma BackingPairNonEmpty(r: ProjectAnalysisResult, p: (string, string))
    requires p in BackingPairs(r)
    ensures p.0 in r.backing && p.1 in r.backing[p.0] && r.backing[p.0] != {}
  {
    var a, s :| a in r.backing && s in r.backing[a] && p == (a, s);
  }

  lemma NoDuplicatesSnoc(s: seq<string>, x: string)
    requires NoDuplicates(s) && x !in s
    ensures NoDuplicates(s + [x])
  {
  }

  /** Every analyzer result can be converted: the analyzer stores only
      services the converter knows and hosts every application it binds
      backing services to. */
  lemma ConsistentIsConvertible(r: ProjectAnalysisResult)
    requires Consistent(r)
    ensures UsesResolvable(r) && UsesUnshared(r) && !HasForeign(r)
  {
  }

  /** With one container app per application, the resource hosting an
      application uses exactly that application's backing services. */
  lemma HostUsesBacking(r: ProjectAnalysisResult, a: string)
    requires Consistent(r) && a in r.hosting
    ensures UsedNames(r, r.hosting[a]) == BackingOf(r, a)
  {
    forall s | s in UsedNames(r, r.hosting[a]) ensures s in BackingOf(r, a) {
      var p :| p in BackingPairs(r) && p.0 in r.hosting && r.hosting[p.0] == r.hosting[a] && p.1 == s;
    }
    forall s | s in BackingOf(r, a) ensures s in UsedNames(r, r.hosting[a]) {
      assert (a, s) in BackingPairs(r);
    }
  }

  /** A resource that hosts no application uses nothing, unless it is
      named "": that is the hosting name read for every application
      without one, so it uses their backing services. */
  lemma NonHostUsesNothing(r: ProjectAnalysisResult, n: string)
    requires n !in r.hosting.Values
    ensures n != "" ==> UsedNames(r, n) == {}
    ensures n == "" ==> UsedNames(r, n) == set p | p in BackingPairs(r) && p.0 !in r.hosting :: p.1
  {
    forall a | a in r.hosting ensures r.hosting[a] != n {
      assert r.hosting[a] in r.hosting.Values;
    }
  }
}

=== FILE: database_name.dfy ===
/** Database names taken from a JDBC datasource URL
    (analyzer/internal/spring_boot_property.go:140-161).

    The source accepts a name of 3 to 63 characters matching the regular
    expression `^[a-z0-9]+(-[a-z0-9]+)*$`.  The model describes that
    language twice: by where hyphens may stand (`DashSeparated`) and by the
    shape of the expression itself (labels joined by single hyphens,
    `JoinDash`), proves the two agree, and models the regular-expression
    match as a left-to-right automaton proved to accept exactly that
    language. */
module DatabaseName {
  import opened Wrappers
  import opened Strings

  const MinNameLength := 3
  const MaxNameLength := 63

  /** The class `[a-z0-9]`. */
  predicate IsLabelChar(c: char)
  {
    'a' <= c <= 'z' || '0' <= c <= '9'
  }

  /** One match of `[a-z0-9]+`. */
  predicate IsLabel(p: string)
  {
    |p| > 0 && forall i | 0 <= i < |p| :: IsLabelChar(p[i])
  }

  /** Labels joined by single hyphens: the shape `L(-L)*` of the expression. */
  function JoinDash(parts: seq<string>): string
    requires |parts| > 0
  {
    if |parts| == 1 then parts[0] else parts[0] + "-" + JoinDash(parts[1..])
  }

  /** Label characters and hyphens, not starting with a hyphen and with no
      two hyphens in a row: what a prefix of a match looks like. */
  predicate MatchPrefixShape(s: string)
  {
    && (forall i | 0 <= i < |s| :: IsLabelChar(s[i]) || s[i] == '-')
    && (|s| > 0 ==> s[0] != '-')
    && (forall i | 0 <= i < |s| - 1 :: s[i] == '-' ==> s[i + 1] != '-')
  }

  /** The language of `^[a-z0-9]+(-[a-z0-9]+)*$`, by where hyphens stand. */
  predicate DashSeparated(s: string)
  {
    MatchPrefixShape(s) && |s| > 0 && s[|s| - 1] != '-'
  }

  /** What the source accepts as a database name. */
  predicate ValidName(name: string)
  {
    MinNameLength <= |name| <= MaxNameLength && DashSeparated(name)
  }

  /** Labels joined by hyphens have the hyphen shape. */
  lemma {:induction false} JoinedLabelsAreDashSeparated(parts: seq<string>)
    requires |parts| > 0
    requires forall i | 0 <= i < |parts| :: IsLabel(parts[i])
    ensures DashSeparated(JoinDash(parts))
  {
    if |parts| > 1 {
      var rest := JoinDash(parts[1..]);
      JoinedLabelsAreDashSeparated(parts[1..]);
      assert IsLabel(parts[0]);
      var s := parts[0] + "-" + rest;
      assert s == JoinDash(parts);
      var n := |parts[0]|;
      forall i | 0 <= i < |s|
        ensures IsLabelChar(s[i]) || s[i] == '-'
      {
        if i > n {
          assert s[i] == rest[i - n - 1];
        }
      }
      forall i | 0 <= i < |s| - 1
        ensures s[i] == '-' ==> s[i + 1] != '-'
      {
        if i > n {
          assert s[i] == rest[i - n - 1] && s[i + 1] == rest[i - n];
        } else if i == n {
          assert s[i + 1] == rest[0];
        }
      }
      assert s[|s| - 1] == rest[|rest| - 1];
    }
  }

  /** Cut a string at its hyphens. */
  function SplitDash(s: string): (parts: seq<string>)
    ensures |parts| > 0
    decreases |s|
  {
    match IndexOf(s, '-')
    case None => [s]
    case Some(k) => [s[..k]] + SplitDash(s[k + 1..])
  }

  /** Every string of the hyphen shape is labels joined by hyphens: with
      `JoinedLabelsAreDashSeparated`, the two descriptions of the language
      coincide. */
  lemma {:induction false} DashSeparatedSplits(s: string)
    requires DashSeparated(s)
    ensures forall i | 0 <= i < |SplitDash(s)| :: IsLabel(SplitDash(s)[i])
    ensures JoinDash(SplitDash(s)) == s
    decreases |s|
  {
    match IndexOf(s, '-')
    case None =>
      assert SplitDash(s) == [s];
    case Some(k) =>
      SplitPieces(s, k);
      DashSeparatedSplits(s[k + 1..]);
      SplitAt(s, k, SplitDash(s[k + 1..]));
  }

  /** `SplitDash` cuts at the first hyphen, and `JoinDash` puts it back. */
  lemma SplitAt(s: string, k: nat, rest: seq<string>)
    requires IndexOf(s, '-') == Some(k) && IsLabel(s[..k])
    requires rest == SplitDash(s[k + 1..])
    requires forall i | 0 <= i < |rest| :: IsLabel(rest[i])
    requires JoinDash(rest) == s[k + 1..]
    ensures forall i | 0 <= i < |SplitDash(s)| :: IsLabel(SplitDash(s)[i])
    ensures JoinDash(SplitDash(s)) == s
  {
    var parts := SplitDash(s);
    assert parts == [s[..k]] + rest;
    assert parts[1..] == rest;
    assert s == s[..k] + "-" + s[k + 1..];
  }

  /** Cutting a hyphen-shaped string at its first hyphen leaves a label
      before it and a hyphen-shaped string after it. */
  lemma SplitPieces(s: string, k: nat)
    requires DashSeparated(s) && k < |s| && s[k] == '-' && '-' !in s[..k]
    ensures IsLabel(s[..k]) && DashSeparated(s[k + 1..])
  {
    var head, tail := s[..k], s[k + 1..];
    assert k > 0 && k < |s| - 1;
    assert s[k + 1] != '-';
    forall i | 0 <= i < |head| ensures IsLabelChar(head[i]) {
      assert head[i] == s[i];
    }
    forall i | 0 <= i < |tail| ensures IsLabelChar(tail[i]) || tail[i] == '-' {
      assert tail[i] == s[k + 1 + i];
    }
    forall i | 0 <= i < |tail| - 1 ensures tail[i] == '-' ==> tail[i + 1] != '-' {
      assert tail[i] == s[k + 1 + i] && tail[i + 1] == s[k + 2 + i];
    }
    assert tail[|tail| - 1] == s[|s| - 1];
  }

  /** The states of the automaton for `^[a-z0-9]+(-[a-z0-9]+)*$`. */
  datatype MatchState = ExpectLabel | InLabel | Rejected

  function Step(st: MatchState, c: char): MatchState
  {
    match st
    case Rejected => Rejected
    case ExpectLabel => if IsLabelChar(c) then InLabel else Rejected
    case InLabel => if IsLabelChar(c) then InLabel else if c == '-' then ExpectLabel else Rejected
  }

  /** A prefix that is not of match-prefix shape cannot be extended to a match. */
  lemma PrefixShapeCloses(s: string, i: nat)
    requires i <= |s| && MatchPrefixShape(s)
    ensures MatchPrefixShape(s[..i])
  {
    assert forall j | 0 <= j < i :: s[..i][j] == s[j];
  }

  /** `regexp.MatchString` for the database-name expression, run as an
      automaton over the characters. */
  method MatchNamePattern(s: string) returns (b: bool)
    ensures b <==> DashSeparated(s)
  {
    var st := ExpectLabel;
    var i := 0;
    while i < |s| && st != Rejected
      invariant 0 <= i <= |s|
      invariant st != Rejected <==> MatchPrefixShape(s[..i])
      invariant st == InLabel <==> (st != Rejected && i > 0 && s[i - 1] != '-')
      invariant st == ExpectLabel ==> (i == 0 || s[i - 1] == '-')
    {
      assert s[..i + 1] == s[..i] + [s[i]];
      assert forall j | 0 <= j < i :: s[..i + 1][j] == s[..i][j];
      st := Step(st, s[i]);
      i := i + 1;
    }
    if st == Rejected {
      if MatchPrefixShape(s) {
        PrefixShapeCloses(s, i);
      }
    } else {
      assert s[..i] == s;
    }
    b := st == InLabel;
  }

  /** `IsValidDatabaseName`: the length bounds, then the pattern. */
  method IsValidDatabaseName(name: string) returns (ok: bool)
    ensures ok <==> ValidName(name)
  {
    if |name| < MinNameLength || |name| > MaxNameLength {
      return false;
    }
    ok := MatchNamePattern(name);
  }

  /** `GetDatabaseName`: the text after the last `/`, cut at the first `?`,
      if it is a valid name, and "" otherwise. */
  function GetDatabaseName(url: string): (r: string)
    ensures r != "" ==> ValidName(r) && '/' !in r && '?' !in r
    ensures '/' !in url ==> r == ""
  {
    match LastIndexOf(url, '/')
    case None => ""
    case Some(slash) =>
      var segment := url[slash + 1..];
      var name := match IndexOf(segment, '?') case None => segment case Some(q) => segment[..q];
      assert forall j | 0 <= j < |name| :: name[j] == segment[j];
      if ValidName(name) then name else ""
  }

  /** The name of a URL `prefix/name?query`. */
  lemma NameAfterLastSlash(prefix: string, name: string, query: string)
    requires '/' !in name && '?' !in name && '/' !in query
    requires query == "" || query[0] == '?'
    ensures GetDatabaseName(prefix + "/" + name + query) == (if ValidName(name) then name else "")
  {
    var url := prefix + "/" + name + query;
    var segment := name + query;
    assert url == (prefix + "/") + segment;
    assert '/' !in segment by {
      forall j | 0 <= j < |segment| ensures segment[j] != '/' {
        if j < |name| { assert segment[j] == name[j]; } else { assert segment[j] == query[j - |name|]; }
      }
    }
    NoSlashAfter(prefix + "/", segment);
    assert url[|prefix| + 1..] == segment;
    if query == "" {
      assert segment == name;
    } else {
      assert segment[|name|] == '?';
      assert segment[..|name|] == name;
      assert IndexOf(segment, '?') == Some(|name|);
    }
  }

  lemma NoSlashAfter(head: string, tail: string)
    requires |head| > 0 && head[|head| - 1] == '/' && '/' !in tail
    ensures LastIndexOf(head + tail, '/') == Some(|head| - 1)
  {
    var s := head + tail;
    var r := LastIndexOf(s, '/');
    assert s[|head| - 1] == '/';
    assert r.Some?;
  }

  /** The cases listed for the validity check. */
  lemma ValidNameExamples()
    ensures ValidName("valid-name") && ValidName("valid123-name") && ValidName("123456")
    ensures !ValidName("invalid_name") && !ValidName("sh")
    ensures !ValidName("-invalid-start") && !ValidName("invalid-end-")
  {
    assert "invalid_name"[7] == '_';
  }

  /** A URL with a query string, as in the datasource examples. */
  lemma QueryStringDropped()
    ensures GetDatabaseName("jdbc:postgresql://server:5432/your-database-name?sslmode=require") == "your-database-name"
  {
    ExampleUrl();
    ExampleName();
    NameAfterLastSlash("jdbc:postgresql://server:5432", "your-database-name", "?sslmode=require");
  }

  lemma ExampleUrl()
    ensures "jdbc:postgresql://server:5432/your-database-name?sslmode=require"
        == "jdbc:postgresql://server:5432" + "/" + "your-database-name" + "?sslmode=require"
  {
  }

  lemma ExampleName()
    ensures ValidName("your-database-name")
  {
  }
}

=== FILE: merge.dfy ===
/** Merging two analysis results (analyzer/project_analysis_result.go:140-186).

    The second result's applications, hosting bindings and backing bindings
    are added to the first one with the add operations, in map order; the
    first error ends the merge.  `Mergeable` says when no add fails and
    `MergedResult` what comes out, both without reference to an order; the
    method is proved to agree with them whatever order the maps are walked
    in. */
module Merging {
  import opened Wrappers
  import opened Errors
  import opened Collections
  import opened AnalysisResult

  /** Two names merge when they agree or one of them is empty. */
  predicate NamesCompatible(n1: string, n2: string)
  {
    n1 == n2 || n1 == "" || n2 == ""
  }

  /** The name of a merge: the first one unless it is empty. */
  function MergedName(n1: string, n2: string): (n: string)
    ensures NamesCompatible(n1, n2) ==> (n == "" <==> n1 == "" && n2 == "")
    ensures NamesCompatible(n1, n2) && n != "" ==> n == n1 || n == n2
    ensures n1 != "" ==> n == n1
  {
    if n1 == "" then n2 else n1
  }

  /** The applications of a set of pairs. */
  function PairApps(pairs: set<(string, string)>): set<string>
  {
    set p | p in pairs :: p.0
  }

  /** The services a set of pairs gives an application. */
  function PairServices(pairs: set<(string, string)>, a: string): set<string>
  {
    set p | p in pairs && p.0 == a :: p.1
  }

  /** The services of a set of pairs. */
  function PairNames(pairs: set<(string, string)>): set<string>
  {
    set p | p in pairs :: p.1
  }

  /** Backing bindings with a set of pairs added. */
  function BackingWith(base: map<string, set<string>>, pairs: set<(string, string)>): (m: map<string, set<string>>)
    ensures m.Keys == base.Keys + PairApps(pairs)
  {
    map a | a in base.Keys + PairApps(pairs) :: (if a in base then base[a] else {}) + PairServices(pairs, a)
  }

  /** Services with the named ones of `from` added where the name is still
      free: a service already present is kept. */
  function Adopt(base: map<string, Service>, from: map<string, Service>, names: set<string>): (m: map<string, Service>)
    requires names <= from.Keys
    ensures m.Keys == base.Keys + names
    ensures forall s | s in base :: m[s] == base[s]
    ensures forall s | s in names && s !in base :: m[s] == from[s]
  {
    map s | s in base.Keys + names :: if s in base then base[s] else from[s]
  }

  /** The part of a map on the given keys. */
  function Restrict<V>(m: map<string, V>, keys: set<string>): (r: map<string, V>)
    ensures r.Keys == m.Keys * keys
    ensures forall k | k in r :: r[k] == m[k]
  {
    map k | k in m && k in keys :: m[k]
  }

  /** The hosting services of the given applications. */
  function HostNames(hosting: map<string, string>, apps: set<string>): set<string>
  {
    set a | a in apps && a in hosting :: hosting[a]
  }

  /** The first result with the second one's applications added: the
      state the binding steps start from. */
  function WithApplications(r1: ProjectAnalysisResult, r2: ProjectAnalysisResult): (r: ProjectAnalysisResult)
    ensures r.applications.Keys == r1.applications.Keys + r2.applications.Keys
  {
    r1.(applications := r1.applications + r2.applications)
  }

  /** Adding the hosting binding of `a` from `r2` to `base` cannot fail on
      its own: the service exists in `r2`, the application is known, and
      neither the service name nor the binding is taken in `base`. */
  predicate CanHost(base: ProjectAnalysisResult, r2: ProjectAnalysisResult, a: string)
    requires a in r2.hosting
  {
    && r2.hosting[a] in r2.services
    && a in base.applications
    && r2.hosting[a] !in base.services
    && a !in base.hosting
  }

  /** Adding the backing pair `p` from `r2` to `base` cannot fail: the
      service exists in `r2`, the application is known, and `base` does not
      bind the pair already. */
  predicate CanBack(base: ProjectAnalysisResult, r2: ProjectAnalysisResult, p: (string, string))
  {
    && p.1 in r2.services
    && p.0 in base.applications
    && p.1 !in BackingOf(base, p.0)
  }

  /** Every hosting binding of `r2` can be added to `base`, and no two
      share a service. */
  predicate CanHostAll(base: ProjectAnalysisResult, r2: ProjectAnalysisResult)
  {
    (forall a | a in r2.hosting :: CanHost(base, r2, a)) && HostingInjective(r2.hosting)
  }

  /** Every backing pair of `r2` can be added to `base`. */
  predicate CanBackAll(base: ProjectAnalysisResult, r2: ProjectAnalysisResult)
  {
    forall p | p in BackingPairs(r2) :: CanBack(base, r2, p)
  }

  /** When the merge succeeds: the names agree, no application is in both,
      and every binding of the second result can be added once its
      applications are. */
  predicate Mergeable(r1: ProjectAnalysisResult, r2: ProjectAnalysisResult)
  {
    && NamesCompatible(r1.name, r2.name)
    && r1.applications.Keys !! r2.applications.Keys
    && CanHostAll(WithApplications(r1, r2), r2)
    && CanBackAll(WithApplications(r1, r2), r2)
  }

  lemma HostNamesKnown(base: ProjectAnalysisResult, r2: ProjectAnalysisResult)
    requires CanHostAll(base, r2)
    ensures r2.hosting.Values <= r2.services.Keys
  {
  }

  lemma BackedNamesKnown(base: ProjectAnalysisResult, r2: ProjectAnalysisResult)
    requires CanBackAll(base, r2)
    ensures BackedNames(r2) <= r2.services.Keys
    ensures PairNames(BackingPairs(r2)) == BackedNames(r2)
  {
    forall s | s in BackedNames(r2) ensures s in r2.services && s in PairNames(BackingPairs(r2)) {
      var a :| a in r2.backing && s in r2.backing[a];
      assert (a, s) in BackingPairs(r2);
    }
  }

  lemma MergeableReferences(r1: ProjectAnalysisResult, r2: ProjectAnalysisResult)
    requires Mergeable(r1, r2)
    ensures ReferencedNames(r2) <= r2.services.Keys
  {
    HostNamesKnown(WithApplications(r1, r2), r2);
    BackedNamesKnown(WithApplications(r1, r2), r2);
  }

  /** What a successful merge returns: both sets of applications and
      hosting bindings, the union of the backing bindings, and the services
      of the first result together with those the second one refers to. */
  function MergedResult(r1: ProjectAnalysisResult, r2: ProjectAnalysisResult): (r: ProjectAnalysisResult)
    requires Mergeable(r1, r2)
    ensures r.services.Keys == r1.services.Keys + ReferencedNames(r2)
    ensures forall s | s in r1.services :: r.services[s] == r1.services[s]
  {
    MergeableReferences(r1, r2);
    Combined(r1, r2)
  }

  /** The fields of a merged result, whether or not the merge succeeds. */
  function Combined(r1: ProjectAnalysisResult, r2: ProjectAnalysisResult): (r: ProjectAnalysisResult)
    requires ReferencedNames(r2) <= r2.services.Keys
    ensures r.name == MergedName(r1.name, r2.name)
    ensures r.applications.Keys == r1.applications.Keys + r2.applications.Keys
    ensures r.hosting.Keys == r1.hosting.Keys + r2.hosting.Keys
    ensures r.backing.Keys == r1.backing.Keys + PairApps(BackingPairs(r2))
  {
    ProjectAnalysisResult(
      MergedName(r1.name, r2.name),
      r1.applications + r2.applications,
      Adopt(r1.services, r2.services, ReferencedNames(r2)),
      r1.hosting + r2.hosting,
      BackingWith(r1.backing, BackingPairs(r2)))
  }

  /** `mergeProjectAnalysisResult`. */
  method Merge(r1: ProjectAnalysisResult, r2: ProjectAnalysisResult) returns (res: Result<ProjectAnalysisResult, Error>)
    ensures res.Success? <==> Mergeable(r1, r2)
    ensures res.Success? ==> res.value == MergedResult(r1, r2)
    ensures !NamesCompatible(r1.name, r2.name) ==> res == Failure(NameConflict(r1.name, r2.name))
  {
    if r1.name != r2.name && r1.name != "" && r2.name != "" {
      return Failure(NameConflict(r1.name, r2.name));
    }
    var name := MergedName(r1.name, r2.name);
    var withApps := MergeApplications(r1.(name := name), r2);
    if withApps.Failure? {
      return Failure(withApps.error);
    }
    var withHosting := MergeHosting(withApps.value, r2);
    StepsIgnoreName(WithApplications(r1, r2), r2, name);
    if withHosting.Failure? {
      return Failure(withHosting.error);
    }
    var withBacking := MergeBacking(withHosting.value, r2);
    BackingStepsIgnoreHosting(withHosting.value, withApps.value, r2);
    if withBacking.Failure? {
      return Failure(withBacking.error);
    }
    MergeComposes(r1, r2);
    return Success(withBacking.value);
  }

  /** The steps do not look at the name. */
  lemma StepsIgnoreName(base: ProjectAnalysisResult, r2: ProjectAnalysisResult, name: string)
    ensures CanHostAll(base.(name := name), r2) == CanHostAll(base, r2)
    ensures CanBackAll(base.(name := name), r2) == CanBackAll(base, r2)
  {
    assert forall a | a in r2.hosting :: CanHost(base.(name := name), r2, a) == CanHost(base, r2, a);
    assert forall p | p in BackingPairs(r2) :: CanBack(base.(name := name), r2, p) == CanBack(base, r2, p);
  }

  /** Whether the backing pairs can be added does not depend on the
      services or the hosting bindings. */
  lemma BackingStepsIgnoreHosting(b1: ProjectAnalysisResult, b2: ProjectAnalysisResult, r2: ProjectAnalysisResult)
    requires b1.applications == b2.applications && b1.backing == b2.backing
    ensures CanBackAll(b1, r2) == CanBackAll(b2, r2)
  {
    assert forall p | p in BackingPairs(r2) :: CanBack(b1, r2, p) == CanBack(b2, r2, p);
  }

  /** The three steps together give `MergedResult`. */
  lemma MergeComposes(r1: ProjectAnalysisResult, r2: ProjectAnalysisResult)
    requires Mergeable(r1, r2)
    ensures var withApps := WithApplications(r1, r2).(name := MergedName(r1.name, r2.name));
      var withHosting := withApps.(services := Adopt(withApps.services, r2.services, r2.hosting.Values),
                                   hosting := withApps.hosting + r2.hosting);
      && BackedNames(r2) <= r2.services.Keys
      && withHosting.(services := Adopt(withHosting.services, r2.services, BackedNames(r2)),
                      backing := BackingWith(withHosting.backing, BackingPairs(r2)))
         == MergedResult(r1, r2)
  {
    MergeableReferences(r1, r2);
    AdoptTwice(r1.services, r2.services, r2.hosting.Values, BackedNames(r2));
  }

  /** Step 1: the applications of `r2`, one by one, in map order. */
  method MergeApplications(base: ProjectAnalysisResult, r2: ProjectAnalysisResult) returns (res: Result<ProjectAnalysisResult, Error>)
    ensures res.Success? <==> base.applications.Keys !! r2.applications.Keys
    ensures res.Success? ==> res.value == base.(applications := base.applications + r2.applications)
  {
    var cur := base;
    var todo := r2.applications.Keys;
    ghost var done: set<string> := {};
    while todo != {}
      invariant done + todo == r2.applications.Keys && done !! todo
      invariant done !! base.applications.Keys
      invariant cur == base.(applications := base.applications + Restrict(r2.applications, done))
      decreases todo
    {
      var a :| a in todo;
      var u := AddApplication(cur, a, r2.applications[a]);
      ApplicationStep(base, r2, done, a);
      if u.err.Some? {
        return Failure(u.err.value);
      }
      cur := u.result;
      done := done + {a};
      todo := todo - {a};
    }
    RestrictAll(r2.applications);
    res := Success(cur);
  }

  /** One application added in step 1. */
  lemma ApplicationStep(base: ProjectAnalysisResult, r2: ProjectAnalysisResult, done: set<string>, a: string)
    requires a in r2.applications && a !in done && done !! base.applications.Keys
    ensures var cur := base.(applications := base.applications + Restrict(r2.applications, done));
      var u := AddApplication(cur, a, r2.applications[a]);
      && (u.err.Some? <==> a in base.applications)
      && (u.err.None? ==> u.result == base.(applications := base.applications + Restrict(r2.applications, done + {a})))
  {
    RestrictAdd(r2.applications, done, a);
    UnionUpdate(base.applications, Restrict(r2.applications, done), a, r2.applications[a]);
  }

  /** What step 2 keeps after adding the bindings of the applications in
      `done`. */
  predicate HostingLoopState(base: ProjectAnalysisResult, r2: ProjectAnalysisResult, done: set<string>,
                             cur: ProjectAnalysisResult)
  {
    && (forall a | a in done :: a in r2.hosting && CanHost(base, r2, a))
    && HostingInjective(Restrict(r2.hosting, done))
    && HostNames(r2.hosting, done) <= r2.services.Keys
    && cur.name == base.name && cur.applications == base.applications && cur.backing == base.backing
    && cur.services == Adopt(base.services, r2.services, HostNames(r2.hosting, done))
    && cur.hosting == base.hosting + Restrict(r2.hosting, done)
  }

  /** Step 2: the hosting bindings of `r2`, each with its service, in map
      order. */
  method MergeHosting(base: ProjectAnalysisResult, r2: ProjectAnalysisResult) returns (res: Result<ProjectAnalysisResult, Error>)
    ensures res.Success? <==> CanHostAll(base, r2)
    ensures res.Success? ==> r2.hosting.Values <= r2.services.Keys
    ensures res.Success? ==> res.value == base.(services := Adopt(base.services, r2.services, r2.hosting.Values),
                                                hosting := base.hosting + r2.hosting)
  {
    var cur := base;
    var todo := r2.hosting.Keys;
    ghost var done: set<string> := {};
    HostingLoopStarts(base, r2);
    while todo != {}
      invariant done + todo == r2.hosting.Keys && done !! todo
      invariant HostingLoopState(base, r2, done, cur)
      decreases todo
    {
      var a :| a in todo;
      var step := HostOne(base, r2, done, a, cur);
      if step.Failure? {
        return Failure(step.error);
      }
      cur := step.value;
      done := done + {a};
      todo := todo - {a};
    }
    HostingLoopEnds(base, r2, cur);
    res := Success(cur);
  }

  /** One iteration of step 2: the hosting binding of `a` with its
      service. */
  method HostOne(base: ProjectAnalysisResult, r2: ProjectAnalysisResult, ghost done: set<string>, a: string,
                 cur: ProjectAnalysisResult) returns (res: Result<ProjectAnalysisResult, Error>)
    requires a in r2.hosting && a !in done
    requires HostingLoopState(base, r2, done, cur)
    ensures res.Failure? ==> !CanHostAll(base, r2)
    ensures res.Success? ==> HostingLoopState(base, r2, done + {a}, res.value)
  {
    var hostName := r2.hosting[a];
    if hostName !in r2.services {
      HostMissing(base, r2, a);
      return Failure(HostingServiceMissing(hostName));
    }
    var u := AddHosting(cur, a, hostName, r2.services[hostName]);
    if u.err.Some? {
      HostingRefused(base, r2, done, a, cur);
      return Failure(u.err.value);
    }
    HostingAdded(base, r2, done, a, cur);
    res := Success(u.result);
  }

  /** A binding whose service `r2` lacks cannot be added. */
  lemma HostMissing(base: ProjectAnalysisResult, r2: ProjectAnalysisResult, a: string)
    requires a in r2.hosting && r2.hosting[a] !in r2.services
    ensures !CanHostAll(base, r2)
  {
    assert !CanHost(base, r2, a);
  }

  lemma HostingLoopStarts(base: ProjectAnalysisResult, r2: ProjectAnalysisResult)
    ensures HostingLoopState(base, r2, {}, base)
  {
    assert Restrict(r2.hosting, {}) == map[];
    assert base.hosting + map[] == base.hosting;
    assert Adopt(base.services, r2.services, {}) == base.services;
  }

  lemma HostingLoopEnds(base: ProjectAnalysisResult, r2: ProjectAnalysisResult, cur: ProjectAnalysisResult)
    requires HostingLoopState(base, r2, r2.hosting.Keys, cur)
    ensures CanHostAll(base, r2)
    ensures r2.hosting.Values <= r2.services.Keys
    ensures cur == base.(services := Adopt(base.services, r2.services, r2.hosting.Values), hosting := base.hosting + r2.hosting)
  {
    RestrictAll(r2.hosting);
    assert HostNames(r2.hosting, r2.hosting.Keys) == r2.hosting.Values;
  }

  /** A hosting binding refused in step 2: not every binding can be
      added. */
  lemma HostingRefused(base: ProjectAnalysisResult, r2: ProjectAnalysisResult, done: set<string>, a: string,
                       cur: ProjectAnalysisResult)
    requires a in r2.hosting && a !in done && r2.hosting[a] in r2.services
    requires HostingLoopState(base, r2, done, cur)
    requires AddHosting(cur, a, r2.hosting[a], r2.services[r2.hosting[a]]).err.Some?
    ensures !CanHostAll(base, r2)
  {
    var hostName := r2.hosting[a];
    if a !in cur.applications {
      assert !CanHost(base, r2, a);
    } else if hostName in cur.services {
      if hostName !in base.services {
        var b :| b in done && b in r2.hosting && r2.hosting[b] == hostName;
        assert !HostingInjective(r2.hosting);
      } else {
        assert !CanHost(base, r2, a);
      }
    } else {
      assert a in base.hosting;
      assert !CanHost(base, r2, a);
    }
  }

  /** A hosting binding added in step 2 keeps the loop's facts. */
  lemma HostingAdded(base: ProjectAnalysisResult, r2: ProjectAnalysisResult, done: set<string>, a: string,
                     cur: ProjectAnalysisResult)
    requires a in r2.hosting && a !in done && r2.hosting[a] in r2.services
    requires HostingLoopState(base, r2, done, cur)
    requires AddHosting(cur, a, r2.hosting[a], r2.services[r2.hosting[a]]).err.None?
    ensures HostingLoopState(base, r2, done + {a}, AddHosting(cur, a, r2.hosting[a], r2.services[r2.hosting[a]]).result)
  {
    var hostName := r2.hosting[a];
    assert hostName !in HostNames(r2.hosting, done);
    HostingStepAdds(base, r2, done, a);
    RestrictAdd(r2.hosting, done, a);
    UnionUpdate(base.hosting, Restrict(r2.hosting, done), a, hostName);
    AdoptAdd(base.services, r2.services, HostNames(r2.hosting, done), hostName);
  }

  /** A new binding whose service is not yet used keeps the bindings
      injective. */
  lemma HostingStepAdds(base: ProjectAnalysisResult, r2: ProjectAnalysisResult, done: set<string>, a: string)
    requires a in r2.hosting && a !in done && r2.hosting[a] in r2.services
    requires HostingInjective(Restrict(r2.hosting, done))
    requires r2.hosting[a] !in HostNames(r2.hosting, done)
    ensures HostingInjective(Restrict(r2.hosting, done + {a}))
    ensures HostNames(r2.hosting, done + {a}) == HostNames(r2.hosting, done) + {r2.hosting[a]}
  {
    var h := Restrict(r2.hosting, done + {a});
    forall b, c | b in h && c in h && b != c ensures h[b] != h[c] {
      if b == a {
        assert c in done;
      } else if c == a {
        assert b in done;
      } else {
        assert Restrict(r2.hosting, done)[b] != Restrict(r2.hosting, done)[c];
      }
    }
  }

  /** What step 3 keeps after adding the pairs in `done`. */
  predicate BackingLoopState(base: ProjectAnalysisResult, r2: ProjectAnalysisResult, done: set<(string, string)>,
                             cur: ProjectAnalysisResult)
  {
    && (forall p | p in done :: CanBack(base, r2, p))
    && PairNames(done) <= r2.services.Keys
    && cur.name == base.name && cur.applications == base.applications && cur.hosting == base.hosting
    && cur.services == Adopt(base.services, r2.services, PairNames(done))
    && cur.backing == BackingWith(base.backing, done)
  }

  /** Step 3: the backing bindings of `r2`, pair by pair, in map order. */
  method MergeBacking(base: ProjectAnalysisResult, r2: ProjectAnalysisResult) returns (res: Result<ProjectAnalysisResult, Error>)
    ensures res.Success? <==> CanBackAll(base, r2)
    ensures res.Success? ==> BackedNames(r2) <= r2.services.Keys
    ensures res.Success? ==> res.value == base.(services := Adopt(base.services, r2.services, BackedNames(r2)),
                                                backing := BackingWith(base.backing, BackingPairs(r2)))
  {
    var cur := base;
    var todo := BackingPairs(r2);
    ghost var done: set<(string, string)> := {};
    BackingLoopStarts(base, r2);
    while todo != {}
      invariant done + todo == BackingPairs(r2) && done !! todo
      invariant BackingLoopState(base, r2, done, cur)
      decreases todo
    {
      var p :| p in todo;
      if p.1 !in r2.services {
        return Failure(BackingServiceMissing(p.1));
      }
      var u := AddBacking(cur, p.0, p.1, r2.services[p.1]);
      BackingStep(base, r2, done, p, cur);
      if u.err.Some? {
        return Failure(u.err.value);
      }
      cur := u.result;
      done := done + {p};
      todo := todo - {p};
    }
    BackedNamesKnown(base, r2);
    res := Success(cur);
  }

  lemma BackingLoopStarts(base: ProjectAnalysisResult, r2: ProjectAnalysisResult)
    ensures BackingLoopState(base, r2, {}, base)
  {
    assert PairNames({}) == {};
    assert Adopt(base.services, r2.services, {}) == base.services;
    assert PairApps({}) == {};
    forall a | a in base.backing ensures BackingWith(base.backing, {})[a] == base.backing[a] {
      assert PairServices({}, a) == {};
    }
  }

  /** One pair added in step 3: a failure means not every pair can be
      added, a success keeps the loop's facts. */
  lemma BackingStep(base: ProjectAnalysisResult, r2: ProjectAnalysisResult, done: set<(string, string)>,
                    p: (string, string), cur: ProjectAnalysisResult)
    requires p in BackingPairs(r2) && p !in done && p.1 in r2.services
    requires BackingLoopState(base, r2, done, cur)
    ensures var u := AddBacking(cur, p.0, p.1, r2.services[p.1]);
      && (u.err.Some? ==> !CanBackAll(base, r2))
      && (u.err.None? ==> BackingLoopState(base, r2, done + {p}, u.result))
  {
    if AddBacking(cur, p.0, p.1, r2.services[p.1]).err.Some? {
      BackingStepRefused(base, r2, done, p, cur);
    } else {
      BackingStepAdded(base, r2, done, p, cur);
    }
  }

  lemma BackingStepRefused(base: ProjectAnalysisResult, r2: ProjectAnalysisResult, done: set<(string, string)>,
                           p: (string, string), cur: ProjectAnalysisResult)
    requires p in BackingPairs(r2) && p !in done && p.1 in r2.services
    requires cur.applications == base.applications && cur.backing == BackingWith(base.backing, done)
    requires AddBacking(cur, p.0, p.1, r2.services[p.1]).err.Some?
    ensures !CanBackAll(base, r2)
  {
    if p.0 in cur.applications {
      assert p.1 in BackingOf(cur, p.0);
      PairServicesIn(done, p.0, p.1);
      assert !CanBack(base, r2, p);
    }
  }

  lemma BackingStepAdded(base: ProjectAnalysisResult, r2: ProjectAnalysisResult, done: set<(string, string)>,
                         p: (string, string), cur: ProjectAnalysisResult)
    requires p.1 in r2.services
    requires BackingLoopState(base, r2, done, cur)
    requires AddBacking(cur, p.0, p.1, r2.services[p.1]).err.None?
    ensures BackingLoopState(base, r2, done + {p}, AddBacking(cur, p.0, p.1, r2.services[p.1]).result)
  {
    BackingAddedServices(base, r2, done, p, cur);
    BackingAddedBindings(base, r2, done, p, cur);
    BaseBackingKept(base, cur, done, p.0);
  }

  /** The bindings added to keep those the loop started from. */
  lemma BaseBackingKept(base: ProjectAnalysisResult, cur: ProjectAnalysisResult, done: set<(string, string)>, a: string)
    requires cur.backing == BackingWith(base.backing, done)
    ensures BackingOf(base, a) <= BackingOf(cur, a)
  {
  }

  lemma BackingAddedServices(base: ProjectAnalysisResult, r2: ProjectAnalysisResult, done: set<(string, string)>,
                             p: (string, string), cur: ProjectAnalysisResult)
    requires p.1 in r2.services && PairNames(done) <= r2.services.Keys
    requires cur.services == Adopt(base.services, r2.services, PairNames(done))
    requires AddBacking(cur, p.0, p.1, r2.services[p.1]).err.None?
    ensures PairNames(done + {p}) <= r2.services.Keys
    ensures AddBacking(cur, p.0, p.1, r2.services[p.1]).result.services == Adopt(base.services, r2.services, PairNames(done + {p}))
  {
    AdoptAdd(base.services, r2.services, PairNames(done), p.1);
    PairNamesAdd(done, p);
  }

  lemma BackingAddedBindings(base: ProjectAnalysisResult, r2: ProjectAnalysisResult, done: set<(string, string)>,
                             p: (string, string), cur: ProjectAnalysisResult)
    requires p.1 in r2.services
    requires cur.backing == BackingWith(base.backing, done)
    requires AddBacking(cur, p.0, p.1, r2.services[p.1]).err.None?
    ensures AddBacking(cur, p.0, p.1, r2.services[p.1]).result.backing == BackingWith(base.backing, done + {p})
  {
    var u := AddBacking(cur, p.0, p.1, r2.services[p.1]);
    assert u.result.backing == cur.backing[p.0 := BackingOf(cur, p.0) + {p.1}];
    BackingWithAdd(base.backing, done, p);
  }

  lemma RestrictAdd<V>(m: map<string, V>, keys: set<string>, k: string)
    requires k in m
    ensures Restrict(m, keys + {k}) == Restrict(m, keys)[k := m[k]]
  {
  }

  lemma RestrictAll<V>(m: map<string, V>)
    ensures Restrict(m, m.Keys) == m
  {
  }

  lemma UnionUpdate<V>(a: map<string, V>, b: map<string, V>, k: string, v: V)
    ensures (a + b)[k := v] == a + b[k := v]
  {
  }

  /** Membership in `PairServices`, stated once. */
  lemma PairServicesIn(pairs: set<(string, string)>, a: string, s: string)
    ensures s in PairServices(pairs, a) <==> (a, s) in pairs
  {
    if (a, s) in pairs {
      assert (a, s).1 == s;
    }
  }

  /** Membership in `PairApps`, for one direction. */
  lemma PairAppsIn(pairs: set<(string, string)>, p: (string, string))
    requires p in pairs
    ensures p.0 in PairApps(pairs)
  {
  }

  lemma PairAppsAdd(pairs: set<(string, string)>, p: (string, string))
    ensures PairApps(pairs + {p}) == PairApps(pairs) + {p.0}
  {
    forall a | a in PairApps(pairs + {p}) ensures a in PairApps(pairs) + {p.0} {
      var q :| q in pairs + {p} && q.0 == a;
      if q != p {
        PairAppsIn(pairs, q);
      }
    }
    forall a | a in PairApps(pairs) ensures a in PairApps(pairs + {p}) {
      var q :| q in pairs && q.0 == a;
      PairAppsIn(pairs + {p}, q);
    }
    PairAppsIn(pairs + {p}, p);
  }

  lemma PairNamesAdd(pairs: set<(string, string)>, p: (string, string))
    ensures PairNames(pairs + {p}) == PairNames(pairs) + {p.1}
  {
    forall s | s in PairNames(pairs + {p}) ensures s in PairNames(pairs) + {p.1} {
      var q :| q in pairs + {p} && q.1 == s;
      if q != p {
        assert q in pairs;
      }
    }
    forall s | s in PairNames(pairs) ensures s in PairNames(pairs + {p}) {
      var q :| q in pairs && q.1 == s;
      assert q in pairs + {p};
    }
    assert p in pairs + {p};
  }

  lemma PairServicesAdd(pairs: set<(string, string)>, p: (string, string), a: string)
    ensures PairServices(pairs + {p}, a) == if a == p.0 then PairServices(pairs, a) + {p.1} else PairServices(pairs, a)
  {
    forall s ensures s in PairServices(pairs + {p}, a) <==> s in (if a == p.0 then PairServices(pairs, a) + {p.1} else PairServices(pairs, a)) {
      PairServicesIn(pairs + {p}, a, s);
      PairServicesIn(pairs, a, s);
    }
  }

  /** Adding one pair to the backing bindings. */
  lemma BackingWithAdd(base: map<string, set<string>>, pairs: set<(string, string)>, p: (string, string))
    ensures var m := BackingWith(base, pairs);
      BackingWith(base, pairs + {p}) == m[p.0 := (if p.0 in m then m[p.0] else {}) + {p.1}]
  {
    var m := BackingWith(base, pairs);
    var m' := BackingWith(base, pairs + {p});
    var n := m[p.0 := (if p.0 in m then m[p.0] else {}) + {p.1}];
    BackingWithAddKeys(base, pairs, p);
    forall a | a in m' ensures m'[a] == n[a] {
      BackingWithAddAt(base, pairs, p, a);
    }
  }

  lemma BackingWithAddKeys(base: map<string, set<string>>, pairs: set<(string, string)>, p: (string, string))
    ensures BackingWith(base, pairs + {p}).Keys == BackingWith(base, pairs).Keys + {p.0}
  {
    PairAppsAdd(pairs, p);
  }

  lemma BackingWithAddAt(base: map<string, set<string>>, pairs: set<(string, string)>, p: (string, string), a: string)
    requires a in BackingWith(base, pairs + {p})
    ensures var m := BackingWith(base, pairs);
      BackingWith(base, pairs + {p})[a] == m[p.0 := (if p.0 in m then m[p.0] else {}) + {p.1}][a]
  {
    PairServicesAdd(pairs, p, a);
    if a != p.0 {
      PairAppsAdd(pairs, p);
    }
  }

  /** Adopting one more name. */
  lemma AdoptAdd(base: map<string, Service>, from: map<string, Service>, names: set<string>, s: string)
    requires names <= from.Keys && s in from
    ensures var m := Adopt(base, from, names);
      Adopt(base, from, names + {s}) == if s in m then m else m[s := from[s]]
  {
  }

  /** Adopting in two rounds is adopting once. */
  lemma AdoptTwice(base: map<string, Service>, from: map<string, Service>, names1: set<string>, names2: set<string>)
    requires names1 <= from.Keys && names2 <= from.Keys
    ensures Adopt(Adopt(base, from, names1), from, names2) == Adopt(base, from, names1 + names2)
  {
  }

  /** The services the merged result refers to are those of both. */
  lemma MergedReferences(r1: ProjectAnalysisResult, r2: ProjectAnalysisResult)
    requires Mergeable(r1, r2)
    ensures ReferencedNames(MergedResult(r1, r2)) == ReferencedNames(r1) + ReferencedNames(r2)
  {
    MergedHostNames(r1, r2);
    MergedBackedNames(r1, r2);
  }

  /** The two results of a merge bind disjoint applications. */
  lemma HostKeysDisjoint(r1: ProjectAnalysisResult, r2: ProjectAnalysisResult)
    requires Mergeable(r1, r2)
    ensures r1.hosting.Keys !! r2.hosting.Keys
  {
    forall a | a in r2.hosting ensures a !in r1.hosting {
      assert CanHost(WithApplications(r1, r2), r2, a);
    }
  }

  /** The hosting services of the merged result are those of both. */
  lemma MergedHostNames(r1: ProjectAnalysisResult, r2: ProjectAnalysisResult)
    requires Mergeable(r1, r2)
    ensures MergedResult(r1, r2).hosting.Values == r1.hosting.Values + r2.hosting.Values
  {
    HostKeysDisjoint(r1, r2);
    UnionValues(r1.hosting, r2.hosting);
  }

  lemma UnionValues(h1: map<string, string>, h2: map<string, string>)
    requires h1.Keys !! h2.Keys
    ensures (h1 + h2).Values == h1.Values + h2.Values
  {
    var h := h1 + h2;
    forall s | s in h1.Values ensures s in h.Values {
      var a :| a in h1 && h1[a] == s;
      assert h[a] == s;
    }
    forall s | s in h2.Values ensures s in h.Values {
      var a :| a in h2 && h2[a] == s;
      assert h[a] == s;
    }
  }

  /** An application with a backing service in `r` is among the pairs'
      applications. */
  lemma PairAppsOfBacking(r: ProjectAnalysisResult, a: string, s: string)
    requires a in r.backing && s in r.backing[a]
    ensures a in PairApps(BackingPairs(r))
  {
    PairAppsIn(BackingPairs(r), (a, s));
  }

  /** Adding the pairs of `r` gives every application the union of its
      services. */
  lemma BackingWithOf(base: map<string, set<string>>, r: ProjectAnalysisResult, a: string)
    ensures var m := BackingWith(base, BackingPairs(r));
      (if a in m then m[a] else {}) == (if a in base then base[a] else {}) + BackingOf(r, a)
  {
    var m := BackingWith(base, BackingPairs(r));
    forall s ensures s in PairServices(BackingPairs(r), a) <==> s in BackingOf(r, a) {
      PairServicesIn(BackingPairs(r), a, s);
    }
    forall s | s in BackingOf(r, a) ensures a in m {
      PairAppsOfBacking(r, a, s);
    }
  }

  /** The backing services of each application after a merge. */
  lemma MergedBackingOf(r1: ProjectAnalysisResult, r2: ProjectAnalysisResult, a: string)
    requires Mergeable(r1, r2)
    ensures BackingOf(MergedResult(r1, r2), a) == BackingOf(r1, a) + BackingOf(r2, a)
  {
    BackingWithOf(r1.backing, r2, a);
  }

  /** The backing services of the merged result are those of both. */
  lemma MergedBackedNames(r1: ProjectAnalysisResult, r2: ProjectAnalysisResult)
    requires Mergeable(r1, r2)
    ensures BackedNames(MergedResult(r1, r2)) == BackedNames(r1) + BackedNames(r2)
  {
    BackedNamesWith(MergedResult(r1, r2), r1, r2);
  }

  lemma BackedNamesWith(m: ProjectAnalysisResult, r1: ProjectAnalysisResult, r2: ProjectAnalysisResult)
    requires m.backing == BackingWith(r1.backing, BackingPairs(r2))
    ensures BackedNames(m) == BackedNames(r1) + BackedNames(r2)
  {
    forall s | s in BackedNames(m) ensures s in BackedNames(r1) + BackedNames(r2) {
      var a :| a in m.backing && s in m.backing[a];
      BackingWithOf(r1.backing, r2, a);
      assert s in BackingOf(r1, a) || s in BackingOf(r2, a);
    }
    forall s | s in BackedNames(r1) + BackedNames(r2) ensures s in BackedNames(m) {
      var a :| (a in r1.backing && s in r1.backing[a]) || (a in r2.backing && s in r2.backing[a]);
      BackingWithOf(r1.backing, r2, a);
      assert s in BackingOf(m, a);
    }
  }

  /** The merged bindings: applications with backing services are hosted,
      and their backing sets are not empty. */
  lemma MergedBindings(r1: ProjectAnalysisResult, r2: ProjectAnalysisResult)
    requires Consistent(r1) && Consistent(r2) && Mergeable(r1, r2)
    ensures var m := MergedResult(r1, r2);
      && m.backing.Keys <= m.hosting.Keys
      && (forall a | a in m.backing :: m.backing[a] != {})
  {
    var m := MergedResult(r1, r2);
    forall a | a in m.backing ensures a in m.hosting && m.backing[a] != {} {
      MergedBackingOf(r1, r2, a);
      if a in r1.backing {
        var s :| s in r1.backing[a];
      } else {
        var p :| p in BackingPairs(r2) && p.0 == a;
        assert a in r2.backing;
        var s :| s in r2.backing[a];
      }
    }
  }

  /** Merging never lets two applications share a hosting service. */
  lemma MergedInjective(r1: ProjectAnalysisResult, r2: ProjectAnalysisResult)
    requires Consistent(r1) && Mergeable(r1, r2)
    ensures HostingInjective(MergedResult(r1, r2).hosting)
  {
    var h := MergedResult(r1, r2).hosting;
    var w := WithApplications(r1, r2);
    forall a, b | a in h && b in h && a != b ensures h[a] != h[b] {
      if a in r2.hosting && b in r2.hosting {
      } else if a in r2.hosting {
        assert CanHost(w, r2, a);
        assert b in r1.hosting && h[b] == r1.hosting[b];
      } else if b in r2.hosting {
        assert CanHost(w, r2, b);
        assert a in r1.hosting && h[a] == r1.hosting[a];
      }
    }
  }

  /** Merging consistent results gives a consistent result: every analyzer
      result stays convertible. */
  lemma MergePreservesConsistent(r1: ProjectAnalysisResult, r2: ProjectAnalysisResult)
    requires Consistent(r1) && Consistent(r2) && Mergeable(r1, r2)
    ensures Consistent(MergedResult(r1, r2))
  {
    var m := MergedResult(r1, r2);
    var w := WithApplications(r1, r2);
    MergedReferences(r1, r2);
    MergedBindings(r1, r2);
    MergedInjective(r1, r2);
    MergeableReferences(r1, r2);
    forall s | s in m.services ensures !m.services[s].Foreign? {
      if s !in r1.services {
        assert s in r2.services;
      }
    }
    forall a | a in m.hosting ensures m.services[m.hosting[a]] == AzureContainerApp {
      if a in r2.hosting {
        assert CanHost(w, r2, a);
      } else {
        assert m.hosting[a] == r1.hosting[a];
      }
    }
  }

  /** A result merged into a directory's named start is kept as it is. */
  lemma MergeIntoNamed(name: string, r: ProjectAnalysisResult)
    requires Consistent(r) && NamesCompatible(name, r.name)
    ensures Mergeable(Named(name), r)
    ensures MergedResult(Named(name), r) == r.(name := MergedName(name, r.name))
  {
    MergeableIntoNamed(name, r);
    MergedIntoNamedIs(name, r);
  }

  lemma MergedIntoNamedIs(name: string, r: ProjectAnalysisResult)
    requires WellFormed(r)
    ensures Combined(Named(name), r) == r.(name := MergedName(name, r.name))
  {
    AdoptAll(r.services, ReferencedNames(r));
    BackingWithNoBase(r);
    assert map[] + r.applications == r.applications;
    assert map[] + r.hosting == r.hosting;
  }

  lemma MergeableIntoNamed(name: string, r: ProjectAnalysisResult)
    requires Consistent(r) && NamesCompatible(name, r.name)
    ensures Mergeable(Named(name), r)
  {
    var w := WithApplications(Named(name), r);
    assert forall a | a in r.hosting :: CanHost(w, r, a);
    forall p | p in BackingPairs(r) ensures CanBack(w, r, p) {
      assert p.1 in BackedNames(r);
    }
  }

  /** Adopting every name into nothing copies the map. */
  lemma AdoptAll(from: map<string, Service>, names: set<string>)
    requires names == from.Keys
    ensures Adopt(map[], from, names) == from
  {
  }

  /** The pairs of non-empty backing bindings, added to nothing, give
      the bindings back. */
  lemma BackingWithNoBase(r: ProjectAnalysisResult)
    requires forall a | a in r.backing :: r.backing[a] != {}
    ensures BackingWith(map[], BackingPairs(r)) == r.backing
  {
    var m := BackingWith(map[], BackingPairs(r));
    forall a | a in r.backing ensures a in m {
      var s :| s in r.backing[a];
      PairAppsOfBacking(r, a, s);
    }
    forall a | a in m ensures a in r.backing && m[a] == r.backing[a] {
      BackingWithOf(map[], r, a);
    }
  }

  /** No pairs leave the bindings as they are. */
  lemma BackingWithNone(base: map<string, set<string>>)
    ensures BackingWith(base, {}) == base
  {
    assert PairApps({}) == {};
    forall a | a in base ensures BackingWith(base, {})[a] == base[a] {
      assert PairServices({}, a) == {};
    }
  }

  /** An empty result merged into any result changes at most its name. */
  lemma MergeEmpty(r: ProjectAnalysisResult, name: string)
    requires NamesCompatible(r.name, name)
    ensures Mergeable(r, Named(name))
    ensures MergedResult(r, Named(name)) == r.(name := MergedName(r.name, name))
  {
    var e := Named(name);
    assert BackingPairs(e) == {};
    assert ReferencedNames(e) == {};
    BackingWithNone(r.backing);
    assert r.applications + map[] == r.applications;
    assert r.hosting + map[] == r.hosting;
  }

  /** Results with different applications, whose hosting services are new
      to the first result, merge even when both use a backing service of
      the same name; for a shared name the first result's service is kept. */
  lemma DisjointMerge(r1: ProjectAnalysisResult, r2: ProjectAnalysisResult)
    requires Consistent(r1) && Consistent(r2) && NamesCompatible(r1.name, r2.name)
    requires r1.applications.Keys !! r2.applications.Keys
    requires r2.hosting.Values !! r1.services.Keys
    ensures Mergeable(r1, r2)
    ensures var m := MergedResult(r1, r2);
      && m.services.Keys == r1.services.Keys + r2.services.Keys
      && (forall s | s in r1.services :: m.services[s] == r1.services[s])
      && (forall s | s in r2.services && s !in r1.services :: m.services[s] == r2.services[s])
  {
    var w := WithApplications(r1, r2);
    forall a | a in r2.hosting ensures CanHost(w, r2, a) {
      assert r2.hosting[a] in r2.hosting.Values;
    }
    forall p | p in BackingPairs(r2) ensures CanBack(w, r2, p) {
      assert p.1 in BackedNames(r2);
    }
    MergeableReferences(r1, r2);
  }

  /** A binding of the second result whose service it does not hold makes
      the merge fail. */
  lemma MissingServiceRefused(r1: ProjectAnalysisResult, r2: ProjectAnalysisResult, a: string, s: string)
    requires (a in r2.hosting && r2.hosting[a] == s) || (a in r2.backing && s in r2.backing[a])
    requires s !in r2.services
    ensures !Mergeable(r1, r2)
  {
    if !(a in r2.hosting && r2.hosting[a] == s) {
      assert (a, s) in BackingPairs(r2);
    }
  }

  /** Two well-formed results that merge have different applications, so
      the merge joins their application maps and their backing maps. */
  lemma MergedMaps(r1: ProjectAnalysisResult, r2: ProjectAnalysisResult)
    requires WellFormed(r1) && WellFormed(r2) && Mergeable(r1, r2)
    ensures MergedResult(r1, r2).applications == r1.applications + r2.applications
    ensures MergedResult(r1, r2).backing == r1.backing + r2.backing
  {
    assert r1.backing.Keys !! r2.backing.Keys;
    BackingWithApart(r1.backing, r2);
  }

  /** Non-empty backing bindings of new applications, added as pairs, are
      added as they are. */
  lemma BackingWithApart(base: map<string, set<string>>, r: ProjectAnalysisResult)
    requires forall a | a in r.backing :: r.backing[a] != {}
    requires base.Keys !! r.backing.Keys
    ensures BackingWith(base, BackingPairs(r)) == base + r.backing
  {
    var m := BackingWith(base, BackingPairs(r));
    forall a | a in r.backing ensures a in m {
      var s :| s in r.backing[a];
      PairAppsOfBacking(r, a, s);
    }
    forall a | a in m ensures a in base + r.backing && m[a] == (base + r.backing)[a] {
      BackingWithApartAt(base, r, a);
    }
  }

  lemma BackingWithApartAt(base: map<string, set<string>>, r: ProjectAnalysisResult, a: string)
    requires forall a | a in r.backing :: r.backing[a] != {}
    requires base.Keys !! r.backing.Keys
    requires a in BackingWith(base, BackingPairs(r))
    ensures a in base + r.backing && BackingWith(base, BackingPairs(r))[a] == (base + r.backing)[a]
  {
    BackingWithOf(base, r, a);
  }

  /** Copying every service of `from` where the name is free keeps the
      services of `base` and adds the others. */
  lemma AdoptEverything(base: map<string, Service>, from: map<string, Service>)
    ensures Adopt(base, from, from.Keys) == from + base
  {
  }

  /** The merge of consistent results, field by field: every field is the
      union of both, and for a shared service name the first result's
      service is kept. */
  lemma MergedShape(r1: ProjectAnalysisResult, r2: ProjectAnalysisResult)
    requires Consistent(r1) && Consistent(r2) && Mergeable(r1, r2)
    ensures var m := MergedResult(r1, r2);
      && m.name == MergedName(r1.name, r2.name)
      && m.applications == r1.applications + r2.applications
      && m.services == r2.services + r1.services
      && m.hosting == r1.hosting + r2.hosting
      && m.backing == r1.backing + r2.backing
  {
    MergedMaps(r1, r2);
    AdoptEverything(r1.services, r2.services);
  }

  /** Consistent results merge exactly when their names agree, they have
      different applications, and the second one's hosting services are
      new to the first. */
  lemma MergeableIff(r1: ProjectAnalysisResult, r2: ProjectAnalysisResult)
    requires Consistent(r1) && Consistent(r2)
    ensures Mergeable(r1, r2) <==>
      && NamesCompatible(r1.name, r2.name)
      && r1.applications.Keys !! r2.applications.Keys
      && r2.hosting.Values !! r1.services.Keys
  {
    if Mergeable(r1, r2) {
      forall s | s in r2.hosting.Values ensures s !in r1.services {
        var a :| a in r2.hosting && r2.hosting[a] == s;
        assert CanHost(WithApplications(r1, r2), r2, a);
      }
    } else if NamesCompatible(r1.name, r2.name) && r1.applications.Keys !! r2.applications.Keys
              && r2.hosting.Values !! r1.services.Keys {
      DisjointMerge(r1, r2);
    }
  }

  /** The names of three results agree in one grouping exactly when they
      agree in the other, and then give the same name. */
  lemma MergedNameAssociative(n1: string, n2: string, n3: string)
    ensures NamesCompatible(n1, n2) && NamesCompatible(MergedName(n1, n2), n3)
        <==> NamesCompatible(n2, n3) && NamesCompatible(n1, MergedName(n2, n3))
    ensures MergedName(MergedName(n1, n2), n3) == MergedName(n1, MergedName(n2, n3))
  {
  }

  /** When three consistent results merge, in either grouping: their
      names agree, their applications are apart, and each one's hosting
      services are new to the ones before it. */
  predicate MergeableThree(r1: ProjectAnalysisResult, r2: ProjectAnalysisResult, r3: ProjectAnalysisResult)
  {
    && NamesCompatible(r1.name, r2.name) && NamesCompatible(r2.name, r3.name) && NamesCompatible(r1.name, r3.name)
    && r1.applications.Keys !! r2.applications.Keys
    && r1.applications.Keys !! r3.applications.Keys
    && r2.applications.Keys !! r3.applications.Keys
    && r2.hosting.Values !! r1.services.Keys
    && r3.hosting.Values !! r1.services.Keys
    && r3.hosting.Values !! r2.services.Keys
  }

  /** A consistent merge of `r1` and `r2` merges with `r3` exactly when the
      parts do. */
  lemma MergeableAfter(r1: ProjectAnalysisResult, r2: ProjectAnalysisResult, r3: ProjectAnalysisResult)
    requires Consistent(r1) && Consistent(r2) && Consistent(r3) && Mergeable(r1, r2)
    ensures Mergeable(MergedResult(r1, r2), r3) <==>
      && NamesCompatible(MergedName(r1.name, r2.name), r3.name)
      && (r1.applications.Keys + r2.applications.Keys) !! r3.applications.Keys
      && r3.hosting.Values !! (r1.services.Keys + r2.services.Keys)
  {
    MergePreservesConsistent(r1, r2);
    MergedShape(r1, r2);
    MergeableIff(MergedResult(r1, r2), r3);
  }

  /** `r1` merges with a consistent merge of `r2` and `r3` exactly when it
      merges with the parts. */
  lemma MergeableBefore(r1: ProjectAnalysisResult, r2: ProjectAnalysisResult, r3: ProjectAnalysisResult)
    requires Consistent(r1) && Consistent(r2) && Consistent(r3) && Mergeable(r2, r3)
    ensures Mergeable(r1, MergedResult(r2, r3)) <==>
      && NamesCompatible(r1.name, MergedName(r2.name, r3.name))
      && r1.applications.Keys !! (r2.applications.Keys + r3.applications.Keys)
      && (r2.hosting.Values + r3.hosting.Values) !! r1.services.Keys
  {
    MergePreservesConsistent(r2, r3);
    MergedShape(r2, r3);
    MergedHostNames(r2, r3);
    MergeableIff(r1, MergedResult(r2, r3));
  }

  lemma LeftGrouping(r1: ProjectAnalysisResult, r2: ProjectAnalysisResult, r3: ProjectAnalysisResult)
    requires Consistent(r1) && Consistent(r2) && Consistent(r3)
    ensures Mergeable(r1, r2) && Mergeable(MergedResult(r1, r2), r3) <==> MergeableThree(r1, r2, r3)
  {
    MergeableIff(r1, r2);
    if Mergeable(r1, r2) {
      MergeableAfter(r1, r2, r3);
    }
  }

  lemma RightGrouping(r1: ProjectAnalysisResult, r2: ProjectAnalysisResult, r3: ProjectAnalysisResult)
    requires Consistent(r1) && Consistent(r2) && Consistent(r3)
    ensures Mergeable(r2, r3) && Mergeable(r1, MergedResult(r2, r3)) <==> MergeableThree(r1, r2, r3)
  {
    MergeableIff(r2, r3);
    if Mergeable(r2, r3) {
      MergeableBefore(r1, r2, r3);
    }
  }

  lemma UnionAssociative<V>(x: map<string, V>, y: map<string, V>, z: map<string, V>)
    ensures (x + y) + z == x + (y + z)
  {
  }

  /** Merges of the two groupings, field by field, agree. */
  lemma ShapesAgree(r1: ProjectAnalysisResult, r2: ProjectAnalysisResult, r3: ProjectAnalysisResult,
                    left: ProjectAnalysisResult, right: ProjectAnalysisResult)
    requires left == ProjectAnalysisResult(MergedName(MergedName(r1.name, r2.name), r3.name),
      (r1.applications + r2.applications) + r3.applications, r3.services + (r2.services + r1.services),
      (r1.hosting + r2.hosting) + r3.hosting, (r1.backing + r2.backing) + r3.backing)
    requires right == ProjectAnalysisResult(MergedName(r1.name, MergedName(r2.name, r3.name)),
      r1.applications + (r2.applications + r3.applications), (r3.services + r2.services) + r1.services,
      r1.hosting + (r2.hosting + r3.hosting), r1.backing + (r2.backing + r3.backing))
    ensures left == right
  {
    MergedNameAssociative(r1.name, r2.name, r3.name);
    UnionAssociative(r1.applications, r2.applications, r3.applications);
    UnionAssociative(r3.services, r2.services, r1.services);
    UnionAssociative(r1.hosting, r2.hosting, r3.hosting);
    UnionAssociative(r1.backing, r2.backing, r3.backing);
  }

  lemma GroupingsAgree(r1: ProjectAnalysisResult, r2: ProjectAnalysisResult, r3: ProjectAnalysisResult)
    requires Consistent(r1) && Consistent(r2) && Consistent(r3)
    requires Mergeable(r1, r2) && Mergeable(MergedResult(r1, r2), r3)
    requires Mergeable(r2, r3) && Mergeable(r1, MergedResult(r2, r3))
    ensures MergedResult(MergedResult(r1, r2), r3) == MergedResult(r1, MergedResult(r2, r3))
  {
    MergePreservesConsistent(r1, r2);
    MergePreservesConsistent(r2, r3);
    MergedShape(r1, r2);
    MergedShape(r2, r3);
    MergedShape(MergedResult(r1, r2), r3);
    MergedShape(r1, MergedResult(r2, r3));
    ShapesAgree(r1, r2, r3, MergedResult(MergedResult(r1, r2), r3), MergedResult(r1, MergedResult(r2, r3)));
  }

  /** Merging consistent results is associative: one grouping succeeds
      exactly when the other does, and then both give the same result. */
  lemma MergeAssociative(r1: ProjectAnalysisResult, r2: ProjectAnalysisResult, r3: ProjectAnalysisResult)
    requires Consistent(r1) && Consistent(r2) && Consistent(r3)
    ensures Mergeable(r1, r2) && Mergeable(MergedResult(r1, r2), r3)
        <==> Mergeable(r2, r3) && Mergeable(r1, MergedResult(r2, r3))
    ensures Mergeable(r1, r2) && Mergeable(MergedResult(r1, r2), r3)
        ==> MergedResult(MergedResult(r1, r2), r3) == MergedResult(r1, MergedResult(r2, r3))
  {
    LeftGrouping(r1, r2, r3);
    RightGrouping(r1, r2, r3);
    if Mergeable(r1, r2) && Mergeable(MergedResult(r1, r2), r3) {
      GroupingsAgree(r1, r2, r3);
    }
  }
}

=== FILE: paths.dfy ===
/** Slash-separated paths as the analyzer builds them, Go's
    `filepath.Base`, and the application name derived from a directory
    (analyzer/internal/name_util.go:5-11). */
module Paths {
  import opened Wrappers
  import opened Strings

  /** The path with every trailing `/` removed. */
  function StripTrailingSlashes(p: string): (r: string)
    ensures r <= p
    ensures r == "" || r[|r| - 1] != '/'
    ensures forall i | |r| <= i < |p| :: p[i] == '/'
  {
    if p != "" && p[|p| - 1] == '/' then StripTrailingSlashes(p[..|p| - 1]) else p
  }

  /** Go's `filepath.Base` on a slash-separated path: "." for the empty
      path, "/" for a path of slashes only, and otherwise the last element,
      trailing slashes ignored. */
  function PathBase(p: string): (r: string)
    ensures r != ""
    ensures '/' in r ==> r == "/"
    ensures p == "" ==> r == "."
    ensures p != "" && '/' !in p ==> r == p
    ensures p != "" && StripTrailingSlashes(p) == "" ==> r == "/"
  {
    if p == "" then "."
    else
      var q := StripTrailingSlashes(p);
      if q == "" then "/"
      else
        match LastIndexOf(q, '/')
        case None => q
        case Some(i) => q[i + 1..]
  }

  /** Otherwise the base is the last element: the part of the path
      after its last `/`, once trailing slashes are dropped. */
  lemma PathBaseLastElement(p: string)
    requires StripTrailingSlashes(p) != ""
    ensures var q, r := StripTrailingSlashes(p), PathBase(p);
      && '/' !in r && |r| <= |q| && q[|q| - |r|..] == r
      && (|r| < |q| ==> q[|q| - |r| - 1] == '/')
  {
    var q := StripTrailingSlashes(p);
    match LastIndexOf(q, '/')
    case None =>
      assert PathBase(p) == q;
      assert q[0..] == q;
    case Some(i) =>
      assert PathBase(p) == q[i + 1..];
  }

  /** A name is a path element: non-empty and without `/`. */
  predicate IsElement(name: string)
  {
    name != "" && '/' !in name
  }

  /** The base of `dir/name` is `name`. */
  lemma BaseOfChild(dir: string, name: string)
    requires IsElement(name)
    ensures PathBase(dir + "/" + name) == name
  {
    var p := dir + "/" + name;
    assert p[|p| - 1] == name[|name| - 1];
    assert StripTrailingSlashes(p) == p;
    assert p[|dir|] == '/';
    assert p[|dir| + 1..] == name;
    var i := LastIndexOf(p, '/');
    assert i.Some?;
  }

  /** Trailing slashes do not change the base. */
  lemma BaseIgnoresTrailingSlash(p: string)
    requires StripTrailingSlashes(p) != ""
    ensures PathBase(p + "/") == PathBase(p)
  {
    assert (p + "/")[..|p + "/"| - 1] == p;
  }

  /** `filepath.Join` of a directory and the path elements below it, for
      a clean directory path. */
  function DirPath(root: string, rel: seq<string>): string
  {
    if rel == [] then root else DirPath(root, rel[..|rel| - 1]) + "/" + rel[|rel| - 1]
  }

  /** The base of a directory below the root is its own name. */
  lemma BaseOfDirPath(root: string, rel: seq<string>)
    requires rel != [] && IsElement(rel[|rel| - 1])
    ensures PathBase(DirPath(root, rel)) == rel[|rel| - 1]
  {
    BaseOfChild(DirPath(root, rel[..|rel| - 1]), rel[|rel| - 1]);
  }

  /** `filepath.Dir(filepath.Rel(root, pomPath))`: the directory of a file
      relative to the root, "." for the root itself. */
  function RelativeDir(rel: seq<string>): string
  {
    if rel == [] then "."
    else if |rel| == 1 then rel[0]
    else RelativeDir(rel[..|rel| - 1]) + "/" + rel[|rel| - 1]
  }

  /** A module directory's relative path ends in the directory's own name. */
  lemma BaseOfRelativeDir(rel: seq<string>)
    requires rel != [] && IsElement(rel[|rel| - 1])
    ensures PathBase(RelativeDir(rel)) == rel[|rel| - 1]
  {
    if |rel| > 1 {
      BaseOfChild(RelativeDir(rel[..|rel| - 1]), rel[|rel| - 1]);
    }
  }

  /** `GetNameFromDirPath`: the label of the directory's base name, or
      "root" when that label is empty.  `labelName` stands for
      `LabelName`, whose definition is not part of this model. */
  function NameFromDirPath(labelName: string -> string, path: string): (r: string)
    ensures r != ""
    ensures labelName(PathBase(path)) != "" ==> r == labelName(PathBase(path))
    ensures labelName(PathBase(path)) == "" ==> r == "root"
  {
    var result := labelName(PathBase(path));
    if result == "" then "root" else result
  }

  /** Two paths with the same base give the same name, whatever else
      they hold. */
  lemma NameDependsOnBaseOnly(labelName: string -> string, path1: string, path2: string)
    requires PathBase(path1) == PathBase(path2)
    ensures NameFromDirPath(labelName, path1) == NameFromDirPath(labelName, path2)
  {
  }

  /** In particular a directory's name does not depend on its parent. */
  lemma ChildNameIgnoresParent(labelName: string -> string, dir1: string, dir2: string, name: string)
    requires IsElement(name)
    ensures NameFromDirPath(labelName, dir1 + "/" + name) == NameFromDirPath(labelName, dir2 + "/" + name)
  {
    BaseOfChild(dir1, name);
    BaseOfChild(dir2, name);
    NameDependsOnBaseOnly(labelName, dir1 + "/" + name, dir2 + "/" + name);
  }

  /** ASCII lower case; no other character lower-cases into one of the
      letters of "pom.xml". */
  function AsciiLower(c: char): char
  {
    if 'A' <= c <= 'Z' then (c as int + 32) as char else c
  }

  /** `strings.ToLower(name) == "pom.xml"`. */
  predicate IsPomFileName(name: string)
  {
    |name| == |"pom.xml"| && forall i | 0 <= i < |name| :: AsciiLower(name[i]) == "pom.xml"[i]
  }

  /** The spellings the comparison accepts include every mix of cases. */
  lemma PomFileNameCases()
    ensures IsPomFileName("pom.xml") && IsPomFileName("POM.XML") && IsPomFileName("Pom.Xml")
    ensures !IsPomFileName("backend-pom.xml") && !IsPomFileName("build.gradle")
  {
  }
}

=== FILE: placeholder.dfy ===
/** Environment-variable placeholders in Spring Boot property values
    (analyzer/internal/spring_boot_property.go:118-138).

    The source finds all leftmost non-overlapping matches of the pattern
    `\$\{([^:}]+)(?::([^}]+))?}` in the trimmed value and then, match by
    match, replaces every occurrence of the matched text in the current
    value with the environment value, the default, or "". The regular
    expression is hand-written here as a scanner for that one pattern;
    `os.Getenv` becomes a map in which a missing key reads as "". */
module Placeholder {
  import opened Wrappers
  import opened Strings

  /** One match: the matched text, group 1 (the variable name) and group 2
      (the default; Go reports an absent group as ""). */
  datatype Placeholder = Placeholder(text: string, name: string, default: string)

  /** `[^:}]`, the characters of a variable name. */
  predicate IsNameChar(c: char)
  {
    c != ':' && c != '}'
  }

  /** `[^}]`, the characters of a default value. */
  predicate IsDefaultChar(c: char)
  {
    c != '}'
  }

  /** The text a placeholder with this name and default is written as. */
  function PlaceholderText(name: string, default: string): (r: string)
    ensures |r| >= 3 && r[0] == '$' && r[1] == '{' && r[|r| - 1] == '}'
  {
    "${" + name + (if default == "" then "" else ":" + default) + "}"
  }

  /** A placeholder the pattern can produce. */
  predicate ValidPlaceholder(p: Placeholder)
  {
    && |p.name| > 0
    && (forall i | 0 <= i < |p.name| :: IsNameChar(p.name[i]))
    && (forall i | 0 <= i < |p.default| :: IsDefaultChar(p.default[i]))
    && p.text == PlaceholderText(p.name, p.default)
  }

  /** Length of the longest prefix made of name characters. */
  function NameRun(s: string): (n: nat)
    ensures n <= |s|
    ensures forall i | 0 <= i < n :: IsNameChar(s[i])
    ensures n < |s| ==> !IsNameChar(s[n])
  {
    if |s| > 0 && IsNameChar(s[0]) then 1 + NameRun(s[1..]) else 0
  }

  /** Length of the longest prefix made of default-value characters. */
  function DefaultRun(s: string): (n: nat)
    ensures n <= |s|
    ensures forall i | 0 <= i < n :: IsDefaultChar(s[i])
    ensures n < |s| ==> !IsDefaultChar(s[n])
  {
    if |s| > 0 && IsDefaultChar(s[0]) then 1 + DefaultRun(s[1..]) else 0
  }

  /** The match of the pattern that starts at the first character of `s`,
      if there is one. Both character classes are greedy, and a shorter run
      could only be followed by a character of the same class, so the
      longest runs are the only candidates. */
  function MatchPrefix(s: string): (m: Option<Placeholder>)
    ensures m.Some? ==> ValidPlaceholder(m.value) && m.value.text <= s
    ensures !("${" <= s) ==> m.None?
  {
    if |s| < 2 || s[0] != '$' || s[1] != '{' then None
    else
      var n := NameRun(s[2..]);
      var j := 2 + n;
      if n == 0 || j == |s| then None
      else if s[j] == '}' then
        MatchedWithoutDefault(s, j);
        Some(Placeholder(s[..j + 1], s[2..j], ""))
      else
        var m := DefaultRun(s[j + 1..]);
        var k := j + 1 + m;
        if m == 0 || k == |s| then None
        else
          MatchedWithDefault(s, j, k);
          Some(Placeholder(s[..k + 1], s[2..j], s[j + 1..k]))
  }

  lemma MatchedWithoutDefault(s: string, j: nat)
    requires 2 < j < |s| && s[0] == '$' && s[1] == '{' && s[j] == '}'
    requires j == 2 + NameRun(s[2..])
    ensures ValidPlaceholder(Placeholder(s[..j + 1], s[2..j], ""))
    ensures s[..j + 1] <= s
  {
    NameSlice(s, j);
    assert s[..j + 1] == s[..2] + s[2..j] + s[j..j + 1];
  }

  lemma MatchedWithDefault(s: string, j: nat, k: nat)
    requires 2 < j && j + 1 < k < |s| && s[0] == '$' && s[1] == '{' && s[j] == ':' && s[k] == '}'
    requires j == 2 + NameRun(s[2..]) && k == j + 1 + DefaultRun(s[j + 1..])
    ensures ValidPlaceholder(Placeholder(s[..k + 1], s[2..j], s[j + 1..k]))
    ensures s[..k + 1] <= s
  {
    NameSlice(s, j);
    DefaultSlice(s, j, k);
    TextWithDefault(s, j, k);
  }

  lemma NameSlice(s: string, j: nat)
    requires 2 <= j <= |s| && j == 2 + NameRun(s[2..])
    ensures forall i | 0 <= i < |s[2..j]| :: IsNameChar(s[2..j][i])
  {
    NameRunChars(s[2..]);
    assert s[2..][..j - 2] == s[2..j];
  }

  lemma DefaultSlice(s: string, j: nat, k: nat)
    requires j + 1 <= k <= |s| && k == j + 1 + DefaultRun(s[j + 1..])
    ensures var d := s[j + 1..k]; forall i | 0 <= i < |d| :: IsDefaultChar(d[i])
  {
    DefaultRunChars(s[j + 1..]);
    assert s[j + 1..][..k - j - 1] == s[j + 1..k];
  }

  lemma TextWithDefault(s: string, j: nat, k: nat)
    requires 2 < j && j + 1 < k < |s| && s[0] == '$' && s[1] == '{' && s[j] == ':' && s[k] == '}'
    ensures s[..k + 1] == PlaceholderText(s[2..j], s[j + 1..k])
  {
    assert s[..k + 1] == s[..2] + s[2..j] + s[j..j + 1] + s[j + 1..k] + s[k..k + 1];
  }

  /** The run `NameRun` measures is made of name characters. */
  lemma NameRunChars(t: string)
    ensures var run := t[..NameRun(t)]; forall i | 0 <= i < |run| :: IsNameChar(run[i])
  {
  }

  /** The run `DefaultRun` measures is made of default-value characters. */
  lemma DefaultRunChars(t: string)
    ensures var run := t[..DefaultRun(t)]; forall i | 0 <= i < |run| :: IsDefaultChar(run[i])
  {
  }

  /** Go's `FindAllStringSubmatch(s, -1)` for the placeholder pattern: the
      leftmost match, then the matches after it. */
  function FindAll(s: string): (r: seq<Placeholder>)
    ensures forall i | 0 <= i < |r| :: ValidPlaceholder(r[i])
    ensures '}' !in s ==> r == []
    decreases |s|
  {
    if s == [] then []
    else
      match MatchPrefix(s)
      case Some(p) =>
        assert p.text[|p.text| - 1] == '}';
        [p] + FindAll(s[|p.text|..])
      case None => FindAll(s[1..])
  }

  /** The value a placeholder stands for: the variable if it is set and not
      empty, else the default (which is "" when absent). */
  function Resolve(env: map<string, string>, p: Placeholder): string
  {
    var v := if p.name in env then env[p.name] else "";
    if v == "" then p.default else v
  }

  /** The sequential replacement loop of spring_boot_property.go:124-136. */
  function ReplaceEach(env: map<string, string>, s: string, ms: seq<Placeholder>): string
    requires forall i | 0 <= i < |ms| :: ValidPlaceholder(ms[i])
    decreases |ms|
  {
    if ms == [] then s
    else
      assert ValidPlaceholder(ms[0]);
      ReplaceEach(env, ReplaceAll(s, ms[0].text, Resolve(env, ms[0])), ms[1..])
  }

  /** `getEnvironmentVariablePlaceholderHandledValue`. */
  function Substitute(env: map<string, string>, raw: string): (r: string)
    ensures FindAll(TrimSpace(raw)) == [] ==> r == TrimSpace(raw)
    ensures '}' !in raw ==> r == TrimSpace(raw)
  {
    var t := TrimSpace(raw);
    assert '}' !in raw ==> '}' !in t by {
      if '}' in t {
        var i :| 0 <= i < |t| && t[i] == '}';
        assert raw[LeadingSpaces(raw) + i] == '}';
      }
    }
    ReplaceEach(env, t, FindAll(t))
  }

  /* ---------------------------------------------------------------------
     Templates: a value written as literal text and placeholders. They give
     an independent description of what substitution should produce. */

  datatype Piece = Literal(chars: string) | Ref(name: string, default: string)

  function AsPlaceholder(name: string, default: string): Placeholder
  {
    Placeholder(PlaceholderText(name, default), name, default)
  }

  /** A placeholder whose name and default contain no `$`. */
  predicate PlainPlaceholder(p: Placeholder)
  {
    ValidPlaceholder(p) && '$' !in p.name && '$' !in p.default
  }

  predicate PlainRef(name: string, default: string)
  {
    PlainPlaceholder(AsPlaceholder(name, default))
  }

  /** Literal text without `$`, and placeholders without `$` inside. */
  predicate TemplateOk(t: seq<Piece>)
  {
    forall i | 0 <= i < |t| ::
      match t[i]
      case Literal(c) => '$' !in c
      case Ref(n, d) => PlainRef(n, d)
  }

  function RenderPiece(x: Piece): string
  {
    match x
    case Literal(c) => c
    case Ref(n, d) => PlaceholderText(n, d)
  }

  function Render(t: seq<Piece>): string
  {
    if t == [] then "" else RenderPiece(t[0]) + Render(t[1..])
  }

  /** The placeholders of a template, in order. */
  function Refs(t: seq<Piece>): seq<Placeholder>
  {
    if t == [] then []
    else
      (match t[0]
       case Literal(_) => []
       case Ref(n, d) => [AsPlaceholder(n, d)]) + Refs(t[1..])
  }

  /** What the value should read after substitution: each placeholder
      replaced by what it stands for. */
  function Expand(env: map<string, string>, t: seq<Piece>): string
  {
    if t == [] then ""
    else
      (match t[0]
       case Literal(c) => c
       case Ref(n, d) => Resolve(env, AsPlaceholder(n, d))) + Expand(env, t[1..])
  }

  /** Every placeholder of the template stands for text without `$`. */
  predicate ResolvesPlain(env: map<string, string>, t: seq<Piece>)
  {
    forall i | 0 <= i < |t| && t[i].Ref? :: '$' !in Resolve(env, AsPlaceholder(t[i].name, t[i].default))
  }

  /** A placeholder written out is recognised as exactly that placeholder,
      whatever follows it. */
  lemma MatchRendered(p: Placeholder, rest: string)
    requires ValidPlaceholder(p)
    ensures MatchPrefix(p.text + rest) == Some(p)
  {
    if p.default == "" {
      MatchRenderedPlain(p, rest);
    } else {
      MatchRenderedDefault(p, rest);
    }
  }

  lemma MatchRenderedPlain(p: Placeholder, rest: string)
    requires ValidPlaceholder(p) && p.default == ""
    ensures MatchPrefix(p.text + rest) == Some(p)
  {
    var s := p.text + rest;
    var j := 2 + |p.name|;
    PlainSlices(p, rest);
    NameRunOf(s, 2, j);
  }

  /** Where the name of a placeholder written without a default sits in
      the text that starts with it. */
  lemma PlainSlices(p: Placeholder, rest: string)
    requires p.default == "" && p.text == PlaceholderText(p.name, p.default)
    ensures var s, j := p.text + rest, 2 + |p.name|;
      && j < |s| && s[0] == '$' && s[1] == '{' && s[j] == '}'
      && s[2..j] == p.name && s[..j + 1] == p.text
  {
    var s := p.text + rest;
    assert s == "${" + p.name + "}" + rest;
  }

  lemma MatchRenderedDefault(p: Placeholder, rest: string)
    requires ValidPlaceholder(p) && p.default != ""
    ensures MatchPrefix(p.text + rest) == Some(p)
  {
    var s := p.text + rest;
    var j := 2 + |p.name|;
    var k := j + 1 + |p.default|;
    DefaultSlices(p, rest);
    NameRunOf(s, 2, j);
    DefaultRunOf(s, j + 1, k);
    MatchDefaultShape(s, j, k);
    DefaultParts(s, j, k, p);
  }

  lemma DefaultParts(s: string, j: nat, k: nat, p: Placeholder)
    requires 2 < j && j + 1 < k < |s|
    requires s[..k + 1] == p.text && s[2..j] == p.name && s[j + 1..k] == p.default
    ensures Placeholder(s[..k + 1], s[2..j], s[j + 1..k]) == p
  {
  }

  /** Where the parts of a placeholder written with a default sit in the
      text that starts with it. */
  lemma DefaultSlices(p: Placeholder, rest: string)
    requires p.default != "" && p.text == PlaceholderText(p.name, p.default)
    ensures var s, j := p.text + rest, 2 + |p.name|;
      var k := j + 1 + |p.default|;
      && k < |s| && s[0] == '$' && s[1] == '{' && s[j] == ':' && s[k] == '}'
      && s[2..j] == p.name && s[j + 1..k] == p.default && s[..k + 1] == p.text
  {
    var s := p.text + rest;
    assert s == "${" + p.name + ":" + p.default + "}" + rest;
  }

  /** The shape `${name:default}` at the start of `s`, with the runs of
      name and default characters ending at `j` and `k`, is a match. */
  lemma MatchDefaultShape(s: string, j: nat, k: nat)
    requires 2 < j && j + 1 < k < |s| && s[0] == '$' && s[1] == '{'
    requires NameRun(s[2..]) == j - 2 && s[j] == ':'
    requires DefaultRun(s[j + 1..]) == k - j - 1 && s[k] == '}'
    ensures MatchPrefix(s) == Some(Placeholder(s[..k + 1], s[2..j], s[j + 1..k]))
  {
  }

  /** A run of name characters ends at the first character outside the
      class. */
  lemma NameRunOf(s: string, a: nat, b: nat)
    requires a <= b < |s| && !IsNameChar(s[b])
    requires forall i | 0 <= i < |s[a..b]| :: IsNameChar(s[a..b][i])
    ensures NameRun(s[a..]) == b - a
  {
    assert forall i | 0 <= i < b - a :: s[a..][i] == s[a..b][i];
    assert s[a..][b - a] == s[b];
  }

  lemma DefaultRunOf(s: string, a: nat, b: nat)
    requires a <= b < |s| && !IsDefaultChar(s[b])
    requires forall i | 0 <= i < |s[a..b]| :: IsDefaultChar(s[a..b][i])
    ensures DefaultRun(s[a..]) == b - a
  {
    assert forall i | 0 <= i < b - a :: s[a..][i] == s[a..b][i];
    assert s[a..][b - a] == s[b];
  }

  /** Text without `$` contains no match and is skipped character by
      character. */
  lemma {:induction false} FindAllSkipsLiteral(c: string, rest: string)
    requires '$' !in c
    ensures FindAll(c + rest) == FindAll(rest)
    decreases |c|
  {
    if c == [] {
      assert c + rest == rest;
    } else {
      var s := c + rest;
      assert s[0] == c[0] && c[0] != '$';
      assert MatchPrefix(s).None?;
      assert s[1..] == c[1..] + rest;
      assert FindAll(s) == FindAll(s[1..]);
      FindAllSkipsLiteral(c[1..], rest);
    }
  }

  /** The scanner finds exactly the placeholders the template was written
      with, in order. */
  lemma {:induction false} ScanTemplate(t: seq<Piece>)
    requires TemplateOk(t)
    ensures FindAll(Render(t)) == Refs(t)
  {
    if t != [] {
      TemplateOkTail(t);
      ScanTemplate(t[1..]);
      var rest := Render(t[1..]);
      match t[0]
      case Literal(c) =>
        assert '$' !in c by { assert t[0] == t[0]; }
        FindAllSkipsLiteral(c, rest);
      case Ref(n, d) =>
        var p := AsPlaceholder(n, d);
        assert PlainRef(n, d) by { assert t[0] == Ref(n, d); }
        MatchRendered(p, rest);
        var s := p.text + rest;
        assert s[|p.text|..] == rest;
    }
  }

  /** Two placeholders cannot overlap at one position: if one's text starts
      the other's text (followed by anything), they are the same. */
  lemma DistinctPlaceholdersDiffer(p: Placeholder, q: Placeholder, rest: string)
    requires ValidPlaceholder(p) && ValidPlaceholder(q)
    requires p.text <= q.text + rest
    ensures p == q
  {
    var s := q.text + rest;
    assert s == p.text + s[|p.text|..];
    MatchRendered(p, s[|p.text|..]);
    MatchRendered(q, rest);
  }

  /** Replace every placeholder equal to `p` by the literal `v`. */
  function SubstRef(t: seq<Piece>, p: Placeholder, v: string): (u: seq<Piece>)
    ensures |u| == |t|
  {
    if t == [] then []
    else
      (if t[0].Ref? && AsPlaceholder(t[0].name, t[0].default) == p then [Literal(v)] else [t[0]])
      + SubstRef(t[1..], p, v)
  }

  /** A placeholder other than `p` is copied unchanged, and scanning resumes
      right after it. */
  lemma ReplaceSkipsOtherRef(q: Placeholder, rest: string, p: Placeholder, v: string)
    requires PlainPlaceholder(q) && ValidPlaceholder(p) && q != p
    ensures ReplaceAll(q.text + rest, p.text, v) == q.text + ReplaceAll(rest, p.text, v)
  {
    DollarOnlyFirst(q);
    OtherNotPrefix(q, rest, p);
    PlaceholderStartsDollar(p);
    ReplaceSkipsDollarPiece(q.text, rest, p.text, v);
  }

  /** A piece whose only `$` is its first character, and which the pattern
      does not start, is copied unchanged. */
  lemma ReplaceSkipsDollarPiece(t: string, rest: string, pat: string, v: string)
    requires |t| > 0 && '$' !in t[1..]
    requires |pat| > 0 && pat[0] == '$' && !(pat <= t + rest)
    ensures ReplaceAll(t + rest, pat, v) == t + ReplaceAll(rest, pat, v)
  {
    var s := t + rest;
    if |s| >= |pat| {
      ReplaceAllSkips(t[1..], rest, pat, v);
      ReplaceAllStep(s, pat, v);
      FirstAndTail(t, rest);
      AppendAssoc([t[0]], t[1..], ReplaceAll(rest, pat, v));
    }
  }

  lemma FirstAndTail(t: string, rest: string)
    requires |t| > 0
    ensures (t + rest)[0] == t[0] && (t + rest)[1..] == t[1..] + rest && [t[0]] + t[1..] == t
  {
  }

  lemma PlaceholderStartsDollar(p: Placeholder)
    requires ValidPlaceholder(p)
    ensures |p.text| > 0 && p.text[0] == '$'
  {
  }

  /** Another placeholder's text does not start a text that starts with
      `q`. */
  lemma OtherNotPrefix(q: Placeholder, rest: string, p: Placeholder)
    requires ValidPlaceholder(q) && ValidPlaceholder(p) && q != p
    ensures !(p.text <= q.text + rest)
  {
    if p.text <= q.text + rest {
      DistinctPlaceholdersDiffer(p, q, rest);
    }
  }

  /** One step of `ReplaceAll` where the pattern does not start the text. */
  lemma ReplaceAllStep(s: string, pat: string, rep: string)
    requires 0 < |pat| <= |s| && !(pat <= s)
    ensures ReplaceAll(s, pat, rep) == [s[0]] + ReplaceAll(s[1..], pat, rep)
  {
  }

  /** In a placeholder without `$` inside, the only `$` is the first
      character. */
  lemma DollarOnlyFirst(q: Placeholder)
    requires PlainPlaceholder(q)
    ensures |q.text| > 0 && q.text[0] == '$' && '$' !in q.text[1..]
  {
    assert q.text[1..] == "{" + q.name + (if q.default == "" then "" else ":" + q.default) + "}";
  }

  /** Replacing the text of one placeholder in a written template is the
      same as replacing that placeholder by literal text. */
  lemma {:induction false} ReplaceInTemplate(t: seq<Piece>, p: Placeholder, v: string)
    requires TemplateOk(t) && ValidPlaceholder(p)
    ensures ReplaceAll(Render(t), p.text, v) == Render(SubstRef(t, p, v))
  {
    if t == [] {
      assert ReplaceAll("", p.text, v) == "";
    } else {
      TemplateOkTail(t);
      ReplaceInTemplate(t[1..], p, v);
      var rest := Render(t[1..]);
      var u := SubstRef(t, p, v);
      assert Render(u) == RenderPiece(u[0]) + Render(SubstRef(t[1..], p, v));
      assert Render(t) == RenderPiece(t[0]) + rest;
      match t[0]
      case Literal(c) =>
        assert '$' !in c by { assert t[0] == t[0]; }
        ReplaceAllSkips(c, rest, p.text, v);
      case Ref(n, d) =>
        var q := AsPlaceholder(n, d);
        assert PlainPlaceholder(q) by { assert t[0] == Ref(n, d); }
        if q == p {
          var s := q.text + rest;
          assert s[|p.text|..] == rest;
        } else {
          ReplaceSkipsOtherRef(q, rest, p, v);
        }
    }
  }

  lemma TemplateOkTail(t: seq<Piece>)
    requires TemplateOk(t) && t != []
    ensures TemplateOk(t[1..])
  {
    forall i | 0 <= i < |t[1..]| ensures (match t[1..][i] case Literal(c) => '$' !in c case Ref(n, d) => PlainRef(n, d)) {
      assert t[1..][i] == t[i + 1];
    }
  }

  /** No placeholder of `SubstRef(t, p, v)` equals `p`, the others are kept. */
  lemma {:induction false} SubstRefKeeps(t: seq<Piece>, p: Placeholder, v: string, i: nat)
    requires i < |t|
    ensures SubstRef(t, p, v)[i] ==
      (if t[i].Ref? && AsPlaceholder(t[i].name, t[i].default) == p then Literal(v) else t[i])
  {
    if i > 0 {
      SubstRefKeeps(t[1..], p, v, i - 1);
    }
  }

  /** Substituting all placeholders, one after another, yields the expanded
      template once every placeholder of the template has been scheduled. */
  lemma {:induction false} ReplaceEachExpands(env: map<string, string>, t: seq<Piece>, ms: seq<Placeholder>)
    requires TemplateOk(t) && ResolvesPlain(env, t)
    requires forall i | 0 <= i < |ms| :: ValidPlaceholder(ms[i])
    requires forall i | 0 <= i < |t| && t[i].Ref? :: AsPlaceholder(t[i].name, t[i].default) in ms
    ensures ReplaceEach(env, Render(t), ms) == Expand(env, t)
    decreases |ms|
  {
    if ms == [] {
      LiteralsRender(env, t);
    } else {
      var p, v := ms[0], Resolve(env, ms[0]);
      ReplaceInTemplate(t, p, v);
      var u := SubstRef(t, p, v);
      forall i | 0 <= i < |u|
        ensures (match u[i] case Literal(c) => '$' !in c case Ref(n, d) => PlainRef(n, d))
        ensures u[i].Ref? ==> '$' !in Resolve(env, AsPlaceholder(u[i].name, u[i].default))
        ensures u[i].Ref? ==> AsPlaceholder(u[i].name, u[i].default) in ms[1..]
      {
        SubstRefKeeps(t, p, v, i);
        if u[i].Ref? {
          assert AsPlaceholder(u[i].name, u[i].default) in ms;
        }
      }
      SubstExpands(env, t, p, v);
      ReplaceEachExpands(env, u, ms[1..]);
    }
  }

  /** Replacing a placeholder by the literal it resolves to does not change
      the expansion. */
  lemma {:induction false} SubstExpands(env: map<string, string>, t: seq<Piece>, p: Placeholder, v: string)
    requires v == Resolve(env, p)
    ensures Expand(env, SubstRef(t, p, v)) == Expand(env, t)
  {
    if t != [] {
      SubstExpands(env, t[1..], p, v);
    }
  }

  /** A template without placeholders reads the same before and after. */
  lemma {:induction false} LiteralsRender(env: map<string, string>, t: seq<Piece>)
    requires forall i | 0 <= i < |t| :: t[i].Literal?
    ensures Render(t) == Expand(env, t)
  {
    if t != [] {
      LiteralsRender(env, t[1..]);
    }
  }

  /** Substitution of a value written as a template: every placeholder is
      replaced by its variable, its default or "", however many there are.
      It needs the written value to have no surrounding white space, and the
      replacement texts to contain no `$` (the source replaces placeholder
      texts in the partly substituted value, so a replacement that itself
      spells a later placeholder would be replaced again). */
  lemma SubstituteTemplate(env: map<string, string>, t: seq<Piece>)
    requires TemplateOk(t) && ResolvesPlain(env, t)
    requires TrimSpace(Render(t)) == Render(t)
    ensures Substitute(env, Render(t)) == Expand(env, t)
  {
    ScanTemplate(t);
    var ms := Refs(t);
    RefsArePlain(t);
    ReplaceEachExpands(env, t, ms);
  }

  lemma {:induction false} RefsArePlain(t: seq<Piece>)
    requires TemplateOk(t)
    ensures forall i | 0 <= i < |Refs(t)| :: PlainPlaceholder(Refs(t)[i])
    ensures forall i | 0 <= i < |t| && t[i].Ref? :: AsPlaceholder(t[i].name, t[i].default) in Refs(t)
  {
    if t != [] {
      TemplateOkTail(t);
      RefsArePlain(t[1..]);
      forall i | 0 <= i < |t| && t[i].Ref? ensures AsPlaceholder(t[i].name, t[i].default) in Refs(t) {
        if i > 0 {
          assert t[i] == t[1..][i - 1];
        }
      }
    }
  }

  /** An unterminated placeholder is left as it is. */
  lemma UnterminatedKept(env: map<string, string>)
    ensures Substitute(env, "${VALUE_ONE") == "${VALUE_ONE"
  {
    var raw := "${VALUE_ONE";
    assert '}' !in raw;
    assert !IsSpace(raw[0]) && !IsSpace(raw[|raw| - 1]);
  }

  /** A default is used when the variable is not set or is empty. */
  lemma DefaultFillsIn(env: map<string, string>, name: string, default: string)
    requires PlainRef(name, default)
    requires name !in env || env[name] == ""
    ensures Substitute(env, PlaceholderText(name, default)) == default
  {
    SubstituteSingle(env, name, default);
  }

  /** A variable that is set wins over the default. */
  lemma VariableBeatsDefault(env: map<string, string>, name: string, default: string)
    requires PlainRef(name, default)
    requires name in env && env[name] != ""
    ensures Substitute(env, PlaceholderText(name, default)) == env[name]
  {
    SubstituteSingle(env, name, default);
  }

  /** A value that is a single placeholder becomes what the placeholder
      resolves to, whatever that text contains: it is replaced once, as a
      whole. */
  lemma SubstituteSingle(env: map<string, string>, name: string, default: string)
    requires PlainRef(name, default)
    ensures Substitute(env, PlaceholderText(name, default)) == Resolve(env, AsPlaceholder(name, default))
  {
    var p := AsPlaceholder(name, default);
    var v := Resolve(env, p);
    TrimPlaceholder(p);
    FindAllOne(p);
    ReplaceAllWhole(p.text, v);
    assert ReplaceEach(env, p.text, [p]) == ReplaceEach(env, v, []);
  }

  /** A placeholder's text has no surrounding white space. */
  lemma TrimPlaceholder(p: Placeholder)
    requires ValidPlaceholder(p)
    ensures TrimSpace(p.text) == p.text
  {
    assert !IsSpace(p.text[0]) && !IsSpace(p.text[|p.text| - 1]);
  }

  /** The only placeholder found in a placeholder's own text is itself. */
  lemma FindAllOne(p: Placeholder)
    requires ValidPlaceholder(p)
    ensures FindAll(p.text) == [p]
  {
    MatchRendered(p, "");
    assert p.text + "" == p.text;
    assert p.text[|p.text|..] == "";
  }

  /** Replacing a text within itself yields the replacement. */
  lemma ReplaceAllWhole(pat: string, rep: string)
    requires |pat| > 0
    ensures ReplaceAll(pat, pat, rep) == rep
  {
    assert pat[|pat|..] == "";
  }
}

=== FILE: pom.dfy ===
/** The parts of an effective POM the analyzer reads (analyzer/pom.go:12-81). */
module Maven {

  datatype Dependency = Dependency(groupId: string, artifactId: string, version: string, scope: string)

  datatype Plugin = Plugin(groupId: string, artifactId: string, version: string)

  /** An effective POM: its declared modules, dependencies and build plugins. */
  datatype Pom = Pom(modules: seq<string>, dependencies: seq<Dependency>, plugins: seq<Plugin>)
}

/** Cutting the effective POM out of the console output of
    `mvn help:effective-pom` (analyzer/pom.go:101-130).

    The output is scanned line by line.  A line matching `^\s*<project `
    opens a block and throws away what was collected; a line matching
    `^\s*</project>\s*$` is collected and closes the block; while a block
    is open every line is collected.  Lines are joined with no separator.
    `\s` is the class of the regular-expression library: tab, newline,
    form feed, carriage return and space. */
module EffectivePom {
  import opened Wrappers
  import opened Strings
  import opened Errors

  /** `\s` in the regular-expression syntax the source uses. */
  predicate IsPatternSpace(c: char)
  {
    c == '\t' || c == '\n' || c == '\U{000C}' || c == '\r' || c == ' '
  }

  function LeadingPatternSpaces(s: string): (n: nat)
    ensures n <= |s|
    ensures forall i | 0 <= i < n :: IsPatternSpace(s[i])
    ensures n < |s| ==> !IsPatternSpace(s[n])
  {
    if |s| > 0 && IsPatternSpace(s[0]) then 1 + LeadingPatternSpaces(s[1..]) else 0
  }

  const OpenTag := "<project "
  const CloseTag := "</project>"

  /** `^\s*<project `: the space after the element name is required. */
  predicate IsProjectStart(line: string)
  {
    OpenTag <= line[LeadingPatternSpaces(line)..]
  }

  /** `^\s*</project>\s*$`. */
  predicate IsProjectEnd(line: string)
  {
    var rest := line[LeadingPatternSpaces(line)..];
    CloseTag <= rest && forall i | |CloseTag| <= i < |rest| :: IsPatternSpace(rest[i])
  }

  /** No line both opens and closes a block. */
  lemma StartAndEndDisjoint(line: string)
    ensures !(IsProjectStart(line) && IsProjectEnd(line))
  {
    var rest := line[LeadingPatternSpaces(line)..];
    if OpenTag <= rest {
      assert rest[1] == OpenTag[1];
    }
    if CloseTag <= rest {
      assert rest[1] == CloseTag[1];
    }
  }

  /** The scanning loop (analyzer/pom.go:109-121), from a given state. */
  function Scan(lines: seq<string>, inProject: bool, buf: string): string
    decreases |lines|
  {
    if lines == [] then buf
    else
      var line := lines[0];
      var inNext := if IsProjectStart(line) then true else if IsProjectEnd(line) then false else inProject;
      var bufReset := if IsProjectStart(line) then "" else if IsProjectEnd(line) then buf + line else buf;
      var bufNext := if inNext then bufReset + line else bufReset;
      Scan(lines[1..], inNext, bufNext)
  }

  /** `getEffectivePomStringFromConsoleOutput`. */
  function EffectivePomString(consoleOutput: string): (r: Result<string, Error>)
    ensures r.Success? ==> r.value != ""
    ensures r.Failure? ==> r.error == EmptyEffectivePom
  {
    var collected := Scan(Lines(consoleOutput), false, "");
    if collected == "" then Failure(EmptyEffectivePom) else Success(collected)
  }

  /** The index of the last opening line, if any. */
  function LastStart(lines: seq<string>): (k: Option<nat>)
    ensures k.Some? ==> k.value < |lines| && IsProjectStart(lines[k.value])
    ensures k.Some? ==> forall j | k.value < j < |lines| :: !IsProjectStart(lines[j])
    ensures k.None? ==> forall j | 0 <= j < |lines| :: !IsProjectStart(lines[j])
  {
    if lines == [] then None
    else
      match LastStart(lines[1..])
      case Some(j) =>
        assert forall i | j + 1 < i < |lines| :: lines[i] == lines[1..][i - 1];
        Some(j + 1)
      case None =>
        assert forall i | 0 < i < |lines| :: lines[i] == lines[1..][i - 1];
        if IsProjectStart(lines[0]) then Some(0) else None
  }

  /** The closing lines, concatenated. */
  function Closings(lines: seq<string>): string
  {
    if lines == [] then ""
    else (if IsProjectEnd(lines[0]) then lines[0] else "") + Closings(lines[1..])
  }

  /** What an open block collects from lines without an opening line:
      everything up to and including the first closing line, and after it
      only closing lines. */
  function InBlock(lines: seq<string>): string
  {
    if lines == [] then ""
    else if IsProjectEnd(lines[0]) then lines[0] + Closings(lines[1..])
    else lines[0] + InBlock(lines[1..])
  }

  /** What the extractor returns, described without the loop: the last
      opening line followed by what its block collects; with no opening
      line, the closing lines alone. */
  function Extracted(lines: seq<string>): string
  {
    match LastStart(lines)
    case None => Closings(lines)
    case Some(k) => lines[k] + InBlock(lines[k + 1..])
  }

  /** What the loop returns from a given state, described without the loop. */
  function ScanOutcome(lines: seq<string>, inProject: bool, buf: string): string
  {
    match LastStart(lines)
    case None => buf + (if inProject then InBlock(lines) else Closings(lines))
    case Some(k) => lines[k] + InBlock(lines[k + 1..])
  }

  /** The loop computes `ScanOutcome`, from any state it may be in. */
  lemma {:induction false} ScanComputes(lines: seq<string>, inProject: bool, buf: string)
    ensures Scan(lines, inProject, buf) == ScanOutcome(lines, inProject, buf)
    decreases |lines|, 1
  {
    if lines != [] {
      StartAndEndDisjoint(lines[0]);
      if IsProjectStart(lines[0]) {
        ScanOpening(lines, inProject, buf);
      } else if IsProjectEnd(lines[0]) {
        ScanClosing(lines, inProject, buf);
      } else {
        ScanOther(lines, inProject, buf);
      }
    }
  }

  lemma {:induction false} ScanOpening(lines: seq<string>, inProject: bool, buf: string)
    requires lines != [] && IsProjectStart(lines[0])
    ensures Scan(lines, inProject, buf) == ScanOutcome(lines, inProject, buf)
    decreases |lines|, 0
  {
    var line := lines[0];
    assert Scan(lines, inProject, buf) == Scan(lines[1..], true, line) by {
      assert "" + line == line;
    }
    ScanComputes(lines[1..], true, line);
    match LastStart(lines[1..])
    case Some(j) =>
      assert lines[j + 1..][1..] == lines[1..][j + 1..];
    case None =>
      assert "" + line == line;
  }

  lemma {:induction false} ScanClosing(lines: seq<string>, inProject: bool, buf: string)
    requires lines != [] && IsProjectEnd(lines[0]) && !IsProjectStart(lines[0])
    ensures Scan(lines, inProject, buf) == ScanOutcome(lines, inProject, buf)
    decreases |lines|, 0
  {
    var line := lines[0];
    assert Scan(lines, inProject, buf) == Scan(lines[1..], false, buf + line);
    ScanComputes(lines[1..], false, buf + line);
    if LastStart(lines[1..]).Some? {
      OutcomeAfterStart(lines, inProject, buf, false, buf + line);
    } else {
      ClosingOutcome(lines, inProject, buf);
    }
  }

  lemma {:induction false} ScanOther(lines: seq<string>, inProject: bool, buf: string)
    requires lines != [] && !IsProjectEnd(lines[0]) && !IsProjectStart(lines[0])
    ensures Scan(lines, inProject, buf) == ScanOutcome(lines, inProject, buf)
    decreases |lines|, 0
  {
    var line := lines[0];
    var bufNext := if inProject then buf + line else buf;
    assert Scan(lines, inProject, buf) == Scan(lines[1..], inProject, bufNext);
    ScanComputes(lines[1..], inProject, bufNext);
    if LastStart(lines[1..]).Some? {
      OutcomeAfterStart(lines, inProject, buf, inProject, bufNext);
    } else {
      OtherOutcome(lines, inProject, buf);
    }
  }

  /** Once an opening line follows, the state the scan is in no longer
      matters. */
  lemma OutcomeAfterStart(lines: seq<string>, inProject: bool, buf: string, inNext: bool, bufNext: string)
    requires lines != [] && !IsProjectStart(lines[0]) && LastStart(lines[1..]).Some?
    ensures ScanOutcome(lines, inProject, buf) == ScanOutcome(lines[1..], inNext, bufNext)
  {
    var j := LastStart(lines[1..]).value;
    assert LastStart(lines) == Some(j + 1);
    assert lines[1..][j + 1..] == lines[j + 2..];
  }

  /** A closing line with no opening line after it is kept, in a block or
      not, and ends the block. */
  lemma ClosingOutcome(lines: seq<string>, inProject: bool, buf: string)
    requires lines != [] && IsProjectEnd(lines[0]) && !IsProjectStart(lines[0]) && LastStart(lines[1..]).None?
    ensures ScanOutcome(lines, inProject, buf) == ScanOutcome(lines[1..], false, buf + lines[0])
  {
    assert LastStart(lines) == None;
    assert InBlock(lines) == lines[0] + Closings(lines[1..]);
    assert Closings(lines) == lines[0] + Closings(lines[1..]);
  }

  /** Any other line with no opening line after it is kept only inside a
      block. */
  lemma OtherOutcome(lines: seq<string>, inProject: bool, buf: string)
    requires lines != [] && !IsProjectEnd(lines[0]) && !IsProjectStart(lines[0]) && LastStart(lines[1..]).None?
    ensures ScanOutcome(lines, inProject, buf) == ScanOutcome(lines[1..], inProject, if inProject then buf + lines[0] else buf)
  {
    assert LastStart(lines) == None;
    assert InBlock(lines) == lines[0] + InBlock(lines[1..]);
    assert Closings(lines) == "" + Closings(lines[1..]);
  }

  /** The extractor returns `Extracted` of the output's lines, and fails
      exactly when that is empty. */
  lemma EffectivePomStringSpec(consoleOutput: string)
    ensures var lines := Lines(consoleOutput);
      EffectivePomString(consoleOutput)
      == if Extracted(lines) == "" then Failure(EmptyEffectivePom) else Success(Extracted(lines))
  {
    ScanComputes(Lines(consoleOutput), false, "");
    assert Extracted(Lines(consoleOutput)) == ScanOutcome(Lines(consoleOutput), false, "");
    assert "" + Closings(Lines(consoleOutput)) == Closings(Lines(consoleOutput));
  }

  /** With an opening line, the output starts with the last one. */
  lemma StartsWithLastOpening(consoleOutput: string)
    requires LastStart(Lines(consoleOutput)).Some?
    ensures var lines := Lines(consoleOutput);
      EffectivePomString(consoleOutput).Success?
      && lines[LastStart(lines).value] <= EffectivePomString(consoleOutput).value
  {
    var lines := Lines(consoleOutput);
    EffectivePomStringSpec(consoleOutput);
    var k := LastStart(lines).value;
    assert |lines[k]| >= |OpenTag| by {
      var rest := lines[k][LeadingPatternSpaces(lines[k])..];
      assert OpenTag <= rest;
    }
  }

  /** An open block ends at its closing line: of the lines after it only
      the closing ones are kept. */
  lemma {:induction false} BlockEndsAtClose(before: seq<string>, close: string, after: seq<string>)
    requires IsProjectEnd(close)
    requires forall i | 0 <= i < |before| :: !IsProjectEnd(before[i])
    ensures InBlock(before + [close] + after) == Concat(before) + close + Closings(after)
    decreases |before|
  {
    var all := before + [close] + after;
    if before == [] {
      assert all == [close] + after;
      assert all[1..] == after;
    } else {
      LinesAfterFirst(before, close, after);
      BlockEndsAtClose(before[1..], close, after);
      InBlockStep(all);
      ConcatStep(before, close + Closings(after));
      AppendAssoc(Concat(before[1..]), close, Closings(after));
      AppendAssoc(Concat(before), close, Closings(after));
    }
  }

  lemma LinesAfterFirst(before: seq<string>, close: string, after: seq<string>)
    requires before != []
    ensures (before + [close] + after)[0] == before[0]
    ensures (before + [close] + after)[1..] == before[1..] + [close] + after
  {
  }

  lemma InBlockStep(lines: seq<string>)
    requires lines != [] && !IsProjectEnd(lines[0])
    ensures InBlock(lines) == lines[0] + InBlock(lines[1..])
  {
  }

  lemma ConcatStep(lines: seq<string>, tail: string)
    requires lines != []
    ensures lines[0] + (Concat(lines[1..]) + tail) == Concat(lines) + tail
  {
  }

  /** Lines joined with no separator. */
  function Concat(lines: seq<string>): string
  {
    if lines == [] then "" else lines[0] + Concat(lines[1..])
  }

  /** Output without any opening or closing line gives the error. */
  lemma NoProjectFails(consoleOutput: string)
    requires forall i | 0 <= i < |Lines(consoleOutput)| :: !IsProjectStart(Lines(consoleOutput)[i]) && !IsProjectEnd(Lines(consoleOutput)[i])
    ensures EffectivePomString(consoleOutput) == Failure(EmptyEffectivePom)
  {
    EffectivePomStringSpec(consoleOutput);
    NoClosings(Lines(consoleOutput));
  }

  lemma {:induction false} NoClosings(lines: seq<string>)
    requires forall i | 0 <= i < |lines| :: !IsProjectEnd(lines[i])
    ensures Closings(lines) == ""
  {
    if lines != [] {
      NoClosings(lines[1..]);
    }
  }

  /** A closing line outside any block is still kept. */
  lemma StrayClosingKept(close: string)
    requires IsProjectEnd(close)
    ensures Scan([close], false, "") == close
  {
    StartAndEndDisjoint(close);
  }
}

=== FILE: project.dfy ===
/** The resource type names of the older project description
    (analyzer/project.go:14-27).  They live in a module of their own
    because their Go names are those of the service kinds. */
module ProjectResourceTypes {
  const AzureDatabaseForPostgresql := "azure.db.postgresql"
  const AzureDatabaseForMysql := "azure.db.mysql"
  const AzureCacheForRedis := "azure.db.redis"
  const AzureCosmosDBForMongoDB := "azure.db.cosmos.mongo"
  const AzureCosmosDBForNoSQL := "azure.db.cosmos.nosql"
  const AzureContainerApp := "azure.host.containerapp"
  const AzureOpenAiModel := "azure.ai.openai.model"
  const AzureServiceBus := "azure.messaging.servicebus"
  const AzureEventHubs := "azure.messaging.eventhubs"
  const AzureStorageAccount := "azure.storage"
}

/** The older project description and its merge (analyzer/project.go:3-47). */
module LegacyProject {

  datatype Resource = Resource(resourceName: string, resourceType: string)

  datatype ResourceToResourceUsageBinding = ResourceToResourceUsageBinding(sourceResourceName: string, targetResourceName: string)

  datatype ProjectToResourceMapping = ProjectToResourceMapping(projectRelativePath: string, resourceName: string)

  datatype Project = Project(
    resources: seq<Resource>,
    resourceToResourceUsageBindings: seq<ResourceToResourceUsageBinding>,
    projectToResourceMappings: seq<ProjectToResourceMapping>)

  const EmptyProject := Project([], [], [])

  /** `mergeProject`: each list of the first project followed by the same
      list of the second, duplicates kept. */
  function MergeProject(p1: Project, p2: Project): (p: Project)
    ensures |p.resources| == |p1.resources| + |p2.resources|
    ensures p1.resources <= p.resources && p.resources[|p1.resources|..] == p2.resources
    ensures |p.resourceToResourceUsageBindings| == |p1.resourceToResourceUsageBindings| + |p2.resourceToResourceUsageBindings|
    ensures p1.resourceToResourceUsageBindings <= p.resourceToResourceUsageBindings
    ensures p.resourceToResourceUsageBindings[|p1.resourceToResourceUsageBindings|..] == p2.resourceToResourceUsageBindings
    ensures |p.projectToResourceMappings| == |p1.projectToResourceMappings| + |p2.projectToResourceMappings|
    ensures p1.projectToResourceMappings <= p.projectToResourceMappings
    ensures p.projectToResourceMappings[|p1.projectToResourceMappings|..] == p2.projectToResourceMappings
  {
    Project(
      p1.resources + p2.resources,
      p1.resourceToResourceUsageBindings + p2.resourceToResourceUsageBindings,
      p1.projectToResourceMappings + p2.projectToResourceMappings)
  }

  /** The empty project is a unit on both sides. */
  lemma MergeIdentity(p: Project)
    ensures MergeProject(EmptyProject, p) == p
    ensures MergeProject(p, EmptyProject) == p
  {
  }

  /** Merging is associative. */
  lemma MergeAssociative(p1: Project, p2: Project, p3: Project)
    ensures MergeProject(MergeProject(p1, p2), p3) == MergeProject(p1, MergeProject(p2, p3))
  {
  }

  /** A resource in both projects is kept twice. */
  lemma MergeKeepsDuplicates(p1: Project, p2: Project, x: Resource)
    requires x in p1.resources && x in p2.resources
    ensures multiset(MergeProject(p1, p2).resources)[x] >= 2
  {
    assert MergeProject(p1, p2).resources == p1.resources + p2.resources;
  }
}

=== FILE: scan.dfy ===
/** Scanning a project directory (analyzer/analyzer.go:12-54): every
    sub-directory is scanned in turn, every file named `pom.xml` in any
    case is analysed, and each partial result is merged into the one
    collected so far, which starts with the root's base name. */
module ProjectScan {
  import opened Wrappers
  import opened Errors
  import opened Collections
  import opened AnalysisResult
  import opened Merging
  import opened Paths
  import opened PomAnalysis
  import opened SpringConfig
  import opened Bindings
  import opened Maven

  /** A directory as `os.ReadDir` sees it: its entries in the order they
      are listed, or a failure to read it. */
  datatype Listing = Listed(entries: seq<Entry>) | Unreadable

  datatype Entry = File(name: string) | Directory(name: string, listing: Listing)

  /** Every directory of the tree can be read. */
  predicate Readable(listing: Listing)
  {
    listing.Listed? && forall e | e in listing.entries :: EntryReadable(e)
  }

  predicate EntryReadable(e: Entry)
  {
    e.Directory? ==> Readable(e.listing)
  }

  /** No file of the tree is a POM file. */
  predicate PomFree(listing: Listing)
  {
    listing.Listed? ==> forall e | e in listing.entries :: EntryPomFree(e)
  }

  predicate EntryPomFree(e: Entry)
  {
    match e
    case File(name) => !IsPomFileName(name)
    case Directory(_, listing) => PomFree(listing)
  }

  /** What a scan collects, as maps: the applications, and the names of
      the backing services bound to each.  The hosting bindings follow from
      the applications (`SelfHosted`), and the service names from both
      (`Consistent`). */
  datatype Collected = Collected(applications: map<string, Application>, backing: map<string, set<string>>)

  function CollectedOf(r: ProjectAnalysisResult): Collected
  {
    Collected(r.applications, r.backing)
  }

  const Nothing := Collected(map[], map[])

  function Join(c: Collected, d: Collected): Collected
  {
    Collected(c.applications + d.applications, c.backing + d.backing)
  }

  /** What the POM file `name` in the directory `rel` contributes: for a
      runnable effective POM, one application named after its directory,
      bound to every service name its dependencies ask for. */
  function PomCollected(ws: Workspace, root: string, rel: seq<string>, name: string): Collected
  {
    var pomPath := PomPath(root, rel, name);
    if pomPath in ws.effectivePoms && IsSpringBootRunnableProject(ws.effectivePoms[pomPath]) then
      var app := NameFromDirPath(ws.labelName, DirPath(root, rel));
      var names := Elements(RuleNames(ws.effectivePoms[pomPath].dependencies));
      Collected(map[app := Application(RelativeDir(rel))], if names == {} then map[] else map[app := names])
    else Nothing
  }

  /** What the directory `rel` contributes: its entries in the order they
      are listed. */
  function TreeCollected(ws: Workspace, root: string, rel: seq<string>, listing: Listing): Collected
    decreases listing, if listing.Listed? then |listing.entries| + 1 else 0
  {
    if listing.Listed? then EntriesCollected(ws, root, rel, listing, |listing.entries|) else Nothing
  }

  /** What the first `n` entries of a directory contribute. */
  function EntriesCollected(ws: Workspace, root: string, rel: seq<string>, listing: Listing, n: nat): Collected
    requires listing.Listed? && n <= |listing.entries|
    decreases listing, n
  {
    if n == 0 then Nothing
    else
      assert listing.entries[n - 1] in listing.entries;
      Join(EntriesCollected(ws, root, rel, listing, n - 1), EntryCollected(ws, root, rel, listing.entries[n - 1]))
  }

  lemma EntriesCollectedNext(ws: Workspace, root: string, rel: seq<string>, listing: Listing, i: nat)
    requires listing.Listed? && i < |listing.entries|
    ensures EntriesCollected(ws, root, rel, listing, i + 1)
      == Join(EntriesCollected(ws, root, rel, listing, i), EntryCollected(ws, root, rel, listing.entries[i]))
  {
  }

  /** What one entry contributes: a sub-directory its tree, a POM file its
      module, any other file nothing. */
  function EntryCollected(ws: Workspace, root: string, rel: seq<string>, e: Entry): Collected
    decreases e
  {
    match e
    case File(name) => if IsPomFileName(name) then PomCollected(ws, root, rel, name) else Nothing
    case Directory(name, listing) => TreeCollected(ws, root, rel + [name], listing)
  }

  /** Whatever the destination order, a POM analysed without error gives
      what the POM contributes. */
  lemma PomOutcomeCollected(ws: Workspace, root: string, rel: seq<string>, name: string, queues: seq<string>)
    requires PomOutcome(ws, root, rel, name, queues).err.None?
    ensures CollectedOf(PomOutcome(ws, root, rel, name, queues).result) == PomCollected(ws, root, rel, name)
  {
    var pomPath := PomPath(root, rel, name);
    if pomPath in ws.effectivePoms && IsSpringBootRunnableProject(ws.effectivePoms[pomPath]) {
      var dir := DirPath(root, rel);
      RunnableCollected(NameFromDirPath(ws.labelName, dir), RelativeDir(rel), ReadProperties(ws.env, ws.files, dir),
        queues, ws.effectivePoms[pomPath].dependencies);
    }
  }

  /** A runnable module analysed without error collects its application,
      bound to every service name its dependencies ask for. */
  lemma RunnableCollected(app: string, relativeDir: string, props: Properties, queues: seq<string>, deps: seq<Dependency>)
    requires AnalyzeRunnable(app, relativeDir, props, queues, deps).err.None?
    ensures var names := Elements(RuleNames(deps));
      CollectedOf(AnalyzeRunnable(app, relativeDir, props, queues, deps).result)
        == Collected(map[app := Application(relativeDir)], if names == {} then map[] else map[app := names])
  {
    var r := AnalyzeRunnable(app, relativeDir, props, queues, deps).result;
    RunnableApplication(app, relativeDir, props, queues, deps);
    RunnableBindings(app, relativeDir, props, queues, deps);
    var adds := BackingAdds(deps, DatabaseNameOf(props), queues);
    NamesIgnoreParameters(deps, DatabaseNameOf(props), queues);
    if adds == [] {
      assert r.backing == map[];
    } else {
      assert adds[0].0 in Elements(Names(adds));
      assert r.backing == map[app := Elements(RuleNames(deps))];
    }
  }

  /** A successful partial result merged into the result collected so far
      keeps its name and its invariants. */
  lemma MergeStep(cur: ProjectAnalysisResult, next: ProjectAnalysisResult)
    requires cur.name != "" && Consistent(cur) && SelfHosted(cur)
    requires Consistent(next) && SelfHosted(next) && Mergeable(cur, next)
    ensures var m := MergedResult(cur, next);
      m.name == cur.name && Consistent(m) && SelfHosted(m)
  {
    MergePreservesConsistent(cur, next);
    MergeableReferences(cur, next);
    CombinedSelfHosted(cur, next);
  }

  /** One merge of the scan: a partial result merged into the result
      collected so far, which keeps its name and its invariants, and is
      left as it was by a partial result that found nothing. */
  method MergeInto(cur: ProjectAnalysisResult, next: ProjectAnalysisResult) returns (res: Result<ProjectAnalysisResult, Error>)
    requires cur.name != "" && Consistent(cur) && SelfHosted(cur)
    requires Consistent(next) && SelfHosted(next)
    ensures res.Success? <==> Mergeable(cur, next)
    ensures res.Success? ==> res.value.name == cur.name && Consistent(res.value) && SelfHosted(res.value)
    ensures res.Success? ==> res.value == MergedResult(cur, next)
    ensures res.Success? ==> CollectedOf(res.value) == Join(CollectedOf(cur), CollectedOf(next))
    ensures NamesCompatible(cur.name, next.name) && next == Named(next.name) ==> res == Success(cur)
  {
    res := Merge(cur, next);
    if res.Success? {
      MergeStep(cur, next);
      MergedMaps(cur, next);
    }
    if NamesCompatible(cur.name, next.name) && next == Named(next.name) {
      MergeEmpty(cur, next.name);
    }
  }

  /** Merging keeps every application on a container app of its own name. */
  lemma CombinedSelfHosted(r1: ProjectAnalysisResult, r2: ProjectAnalysisResult)
    requires ReferencedNames(r2) <= r2.services.Keys
    requires SelfHosted(r1) && SelfHosted(r2)
    ensures SelfHosted(Combined(r1, r2))
  {
  }

  /** The result a directory starts with. */
  lemma NamedStart(name: string)
    ensures Consistent(Named(name)) && SelfHosted(Named(name))
  {
    assert ReferencedNames(Named(name)) == {};
  }

  /** `analyzeJavaProjectSubDirectory` for the directory `rel` below `root`
      with the given listing. */
  method ScanDirectory(ws: Workspace, root: string, rel: seq<string>, listing: Listing)
    returns (res: Result<ProjectAnalysisResult, Error>)
    ensures listing.Unreadable? ==> res == Failure(ReadDirectoryFailed(DirPath(root, rel)))
    ensures res.Success? ==> res.value.name == PathBase(root)
    ensures res.Success? ==> Consistent(res.value) && SelfHosted(res.value)
    ensures res.Success? ==> Readable(listing)
    ensures res.Success? ==> CollectedOf(res.value) == TreeCollected(ws, root, rel, listing)
    ensures Readable(listing) && PomFree(listing) ==> res == Success(Named(PathBase(root)))
    decreases listing, 2
  {
    if listing.Unreadable? {
      return Failure(ReadDirectoryFailed(DirPath(root, rel)));
    }
    NamedStart(PathBase(root));
    res := ScanEntries(ws, root, rel, listing, Named(PathBase(root)));
  }

  /** The directory loop: every entry in listing order, merged into
      `start`, stopping at the first error. */
  method ScanEntries(ws: Workspace, root: string, rel: seq<string>, listing: Listing, start: ProjectAnalysisResult)
    returns (res: Result<ProjectAnalysisResult, Error>)
    requires Scanned(ws, root, rel, listing, start, 0, start)
    ensures res.Success? ==> res.value.name == PathBase(root)
    ensures res.Success? ==> Consistent(res.value) && SelfHosted(res.value)
    ensures res.Success? ==> Readable(listing)
    ensures res.Success? ==> CollectedOf(res.value) == TreeCollected(ws, root, rel, listing)
    ensures Readable(listing) && PomFree(listing) ==> res == Success(start)
    decreases listing, 1
  {
    var cur := start;
    for i := 0 to |listing.entries|
      invariant Scanned(ws, root, rel, listing, start, i, cur)
      invariant Readable(listing) && PomFree(listing) ==> cur == start
    {
      var next := ScanNext(ws, root, rel, listing, i, start, cur);
      if next.Failure? {
        return next;
      }
      cur := next.value;
    }
    ScannedAll(ws, root, rel, listing, start, cur);
    return Success(cur);
  }

  /** The state of the directory loop after its first `i` entries: the
      result so far is consistent and named after the root, those entries
      were read, the result is still the start while they hold no POM
      file, and it has collected what they contribute. */
  ghost predicate Scanned(ws: Workspace, root: string, rel: seq<string>, listing: Listing,
                          start: ProjectAnalysisResult, i: nat, cur: ProjectAnalysisResult)
  {
    && listing.Listed? && i <= |listing.entries|
    && start == Named(start.name)
    && cur.name == PathBase(root) && Consistent(cur) && SelfHosted(cur)
    && (forall j | 0 <= j < i :: EntryReadable(listing.entries[j]))
    && ((forall j | 0 <= j < i :: EntryPomFree(listing.entries[j])) ==> cur == start)
    && CollectedOf(cur) == EntriesCollected(ws, root, rel, listing, i)
  }

  /** After the last entry the loop state is the directory's contract. */
  lemma ScannedAll(ws: Workspace, root: string, rel: seq<string>, listing: Listing,
                   start: ProjectAnalysisResult, cur: ProjectAnalysisResult)
    requires listing.Listed? && Scanned(ws, root, rel, listing, start, |listing.entries|, cur)
    ensures Readable(listing) && CollectedOf(cur) == TreeCollected(ws, root, rel, listing)
    ensures PomFree(listing) ==> cur == start
  {
    forall e | e in listing.entries ensures EntryReadable(e) {
      var j :| 0 <= j < |listing.entries| && listing.entries[j] == e;
    }
  }

  /** The step of the directory loop for the entry at index `i`: the loop
      state after `i` entries becomes the state after `i + 1`, and a read,
      POM-free tree leaves the start as it is. */
  method ScanNext(ws: Workspace, root: string, rel: seq<string>, listing: Listing, i: nat,
                  start: ProjectAnalysisResult, cur: ProjectAnalysisResult)
    returns (res: Result<ProjectAnalysisResult, Error>)
    requires listing.Listed? && i < |listing.entries|
    requires Scanned(ws, root, rel, listing, start, i, cur)
    ensures res.Success? ==> Scanned(ws, root, rel, listing, start, i + 1, res.value)
    ensures Readable(listing) && PomFree(listing) ==> res == Success(start)
    decreases listing, 0
  {
    var e := listing.entries[i];
    assert e in listing.entries;
    res := ScanEntry(ws, root, rel, e, cur);
    if res.Success? {
      EntriesCollectedNext(ws, root, rel, listing, i);
    }
  }

  /** One entry of a directory: a sub-directory is scanned and a POM file
      analysed, and what they find is merged into `cur`; other files are
      passed over. */
  method ScanEntry(ws: Workspace, root: string, rel: seq<string>, e: Entry, cur: ProjectAnalysisResult)
    returns (res: Result<ProjectAnalysisResult, Error>)
    requires cur.name == PathBase(root) && Consistent(cur) && SelfHosted(cur)
    ensures res.Success? ==> res.value.name == cur.name && Consistent(res.value) && SelfHosted(res.value)
    ensures res.Success? ==> EntryReadable(e)
    ensures res.Success? ==> CollectedOf(res.value) == Join(CollectedOf(cur), EntryCollected(ws, root, rel, e))
    ensures res.Success? ==> cur.applications.Keys !! EntryCollected(ws, root, rel, e).applications.Keys
    ensures e.Directory? && res.Success? ==> SubdirectoryMerged(ws, root, rel, e, cur, res.value)
    ensures e.File? && IsPomFileName(e.name) && res.Success? ==> PomMerged(ws, root, rel, e.name, cur, res.value)
    ensures e.File? && IsPomFileName(e.name) && PomPath(root, rel, e.name) !in ws.effectivePoms ==>
      res == Failure(EffectivePomFailed(PomPath(root, rel, e.name)))
    ensures EntryReadable(e) && EntryPomFree(e) && cur == Named(cur.name) ==> res == Success(cur)
    ensures e.File? && !IsPomFileName(e.name) ==> res == Success(cur)
    decreases e, 1
  {
    match e
    case Directory(_, _) =>
      res := ScanSubdirectory(ws, root, rel, e, cur);
    case File(name) =>
      if IsPomFileName(name) {
        res := ScanPomFile(ws, root, rel, e, cur);
      } else {
        JoinNothing(CollectedOf(cur));
        res := Success(cur);
      }
  }

  lemma JoinNothing(c: Collected)
    ensures Join(c, Nothing) == c
  {
    assert c.applications + map[] == c.applications;
    assert c.backing + map[] == c.backing;
  }

  /** A sub-directory of the walk: it is scanned, and what it found merged
      into `cur`. */
  method ScanSubdirectory(ws: Workspace, root: string, rel: seq<string>, e: Entry, cur: ProjectAnalysisResult)
    returns (res: Result<ProjectAnalysisResult, Error>)
    requires e.Directory?
    requires cur.name == PathBase(root) && Consistent(cur) && SelfHosted(cur)
    ensures res.Success? ==> res.value.name == cur.name && Consistent(res.value) && SelfHosted(res.value)
    ensures res.Success? ==> EntryReadable(e)
    ensures res.Success? ==> CollectedOf(res.value) == Join(CollectedOf(cur), EntryCollected(ws, root, rel, e))
    ensures res.Success? ==> cur.applications.Keys !! EntryCollected(ws, root, rel, e).applications.Keys
    ensures res.Success? ==> SubdirectoryMerged(ws, root, rel, e, cur, res.value)
    ensures EntryReadable(e) && EntryPomFree(e) && cur == Named(cur.name) ==> res == Success(cur)
    decreases e, 0
  {
    assert EntryCollected(ws, root, rel, e) == TreeCollected(ws, root, rel + [e.name], e.listing);
    var sub := ScanDirectory(ws, root, rel + [e.name], e.listing);
    if sub.Failure? {
      return Failure(sub.error);
    }
    res := MergeInto(cur, sub.value);
    if res.Success? {
      assert Consistent(sub.value) && CollectedOf(sub.value) == TreeCollected(ws, root, rel + [e.name], e.listing);
    }
  }

  /** A POM file of the walk: it is analysed, and what it found merged
      into `cur`. */
  method ScanPomFile(ws: Workspace, root: string, rel: seq<string>, e: Entry, cur: ProjectAnalysisResult)
    returns (res: Result<ProjectAnalysisResult, Error>)
    requires e.File? && IsPomFileName(e.name)
    requires cur.name == PathBase(root) && Consistent(cur) && SelfHosted(cur)
    ensures res.Success? ==> res.value.name == cur.name && Consistent(res.value) && SelfHosted(res.value)
    ensures res.Success? ==> CollectedOf(res.value) == Join(CollectedOf(cur), EntryCollected(ws, root, rel, e))
    ensures res.Success? ==> cur.applications.Keys !! EntryCollected(ws, root, rel, e).applications.Keys
    ensures res.Success? ==> PomMerged(ws, root, rel, e.name, cur, res.value)
    ensures PomPath(root, rel, e.name) !in ws.effectivePoms ==> res == Failure(EffectivePomFailed(PomPath(root, rel, e.name)))
  {
    var name := e.name;
    assert EntryCollected(ws, root, rel, e) == PomCollected(ws, root, rel, name);
    var u := AnalyzePomProject(ws, root, rel, name);
    if u.err.Some? {
      return Failure(u.err.value);
    }
    ghost var queues :| Elements(queues) == DestinationValues(ReadProperties(ws.env, ws.files, DirPath(root, rel)))
      && NoDuplicates(queues) && u == PomOutcome(ws, root, rel, name, queues);
    PomOutcomeCollected(ws, root, rel, name, queues);
    res := MergeInto(cur, u.result);
    if res.Success? {
      assert PomFileMerged(ws, root, rel, name, queues, cur, res.value);
    }
  }

  /** `merged` is `cur` merged with the result of scanning the
      sub-directory `e`. */
  ghost predicate SubdirectoryMerged(ws: Workspace, root: string, rel: seq<string>, e: Entry,
                               cur: ProjectAnalysisResult, merged: ProjectAnalysisResult)
    requires e.Directory?
  {
    exists sub | Consistent(sub) && CollectedOf(sub) == TreeCollected(ws, root, rel + [e.name], e.listing)
      :: Mergeable(cur, sub) && merged == MergedResult(cur, sub)
  }

  /** `merged` is `cur` merged with the result of analysing the POM file
      `name`, for some order of the destinations it reads. */
  ghost predicate PomMerged(ws: Workspace, root: string, rel: seq<string>, name: string,
                      cur: ProjectAnalysisResult, merged: ProjectAnalysisResult)
  {
    exists queues | Elements(queues) == DestinationValues(ReadProperties(ws.env, ws.files, DirPath(root, rel))) && NoDuplicates(queues)
      :: PomFileMerged(ws, root, rel, name, queues, cur, merged)
  }

  /** The POM analysis with destination order `queues` succeeded and its
      result, merged into `cur`, gave `merged`. */
  predicate PomFileMerged(ws: Workspace, root: string, rel: seq<string>, name: string, queues: seq<string>,
                          cur: ProjectAnalysisResult, merged: ProjectAnalysisResult)
  {
    var u := PomOutcome(ws, root, rel, name, queues);
    u.err.None? && Mergeable(cur, u.result) && merged == MergedResult(cur, u.result)
  }

  /** `AnalyzeJavaProject`: the scan of the root directory. */
  method AnalyzeJavaProject(ws: Workspace, root: string, listing: Listing)
    returns (res: Result<ProjectAnalysisResult, Error>)
    ensures listing.Unreadable? ==> res == Failure(ReadDirectoryFailed(root))
    ensures res.Success? ==> res.value.name == PathBase(root) && Consistent(res.value) && SelfHosted(res.value)
    ensures res.Success? ==> Readable(listing)
    ensures res.Success? ==> CollectedOf(res.value) == TreeCollected(ws, root, [], listing)
    ensures Readable(listing) && PomFree(listing) ==> res == Success(Named(PathBase(root)))
  {
    res := ScanDirectory(ws, root, [], listing);
  }
}

=== FILE: spring_config.dfy ===
/** Reading a Spring Boot project's configuration into one flat property
    map (analyzer/internal/spring_boot_property.go:15-116).

    Files are given as data: the text of each `.properties` file and the
    parsed node tree of each YAML file, by path.  A path missing from both
    maps is a file that does not exist.  Every property map is threaded
    through the readers as the source threads its `result` map, so later
    writes overwrite earlier ones. */
module SpringConfig {
  import opened Wrappers
  import opened Strings
  import opened Placeholder

  type Properties = map<string, string>

  /** The node kinds of the YAML library: a document, a mapping (kept as its
      key/value pairs), a sequence, a scalar, and an alias, which the reader
      ignores. */
  datatype YamlNode =
    | DocumentNode(content: seq<YamlNode>)
    | MappingNode(pairs: seq<YamlPair>)
    | SequenceNode(items: seq<YamlNode>)
    | ScalarNode(value: string)
    | AliasNode

  datatype YamlPair = YamlPair(key: YamlNode, value: YamlNode)

  /** The key of a mapping entry below `prefix` (spring_boot_property.go:72-75). */
  function ChildKey(prefix: string, key: string): (r: string)
    ensures prefix <= r
  {
    if prefix == "" then key else prefix + "." + key
  }

  /** The key of a sequence item below `prefix`: `prefix[i]` (spring_boot_property.go:81). */
  function ItemKey(prefix: string, i: nat): (r: string)
    ensures prefix <= r
  {
    prefix + "[" + Decimal(i) + "]"
  }

  /** `parseYAML`: every scalar reachable from `node` stored under its
      dotted path, with placeholders substituted. */
  function ParseYaml(env: map<string, string>, prefix: string, node: YamlNode, acc: Properties): Properties
    decreases node, 2
  {
    match node
    case DocumentNode(_) => ParseContent(env, prefix, node, 0, acc)
    case MappingNode(_) => ParsePairs(env, prefix, node, 0, acc)
    case SequenceNode(_) => ParseItems(env, prefix, node, 0, acc)
    case ScalarNode(v) => acc[prefix := Substitute(env, v)]
    case AliasNode => acc
  }

  /** The documents of a stream, from the `i`-th on, all under the same prefix. */
  function ParseContent(env: map<string, string>, prefix: string, node: YamlNode, i: nat, acc: Properties): Properties
    requires node.DocumentNode? && i <= |node.content|
    decreases node, 1, |node.content| - i
  {
    if i == |node.content| then acc
    else
      assert node.content[i] in node.content;
      ParseContent(env, prefix, node, i + 1, ParseYaml(env, prefix, node.content[i], acc))
  }

  /** The entries of a mapping, from the `i`-th on; an entry whose key is not
      a scalar is skipped. */
  function ParsePairs(env: map<string, string>, prefix: string, node: YamlNode, i: nat, acc: Properties): Properties
    requires node.MappingNode? && i <= |node.pairs|
    decreases node, 1, |node.pairs| - i
  {
    if i == |node.pairs| then acc
    else
      var pair := node.pairs[i];
      assert pair in node.pairs;
      var next := match pair.key
        case ScalarNode(k) => ParseYaml(env, ChildKey(prefix, k), pair.value, acc)
        case _ => acc;
      ParsePairs(env, prefix, node, i + 1, next)
  }

  /** The items of a sequence, from the `i`-th on, under `prefix[i]`. */
  function ParseItems(env: map<string, string>, prefix: string, node: YamlNode, i: nat, acc: Properties): Properties
    requires node.SequenceNode? && i <= |node.items|
    decreases node, 1, |node.items| - i
  {
    if i == |node.items| then acc
    else
      assert node.items[i] in node.items;
      ParseItems(env, prefix, node, i + 1, ParseYaml(env, ItemKey(prefix, i), node.items[i], acc))
  }

  lemma MapUnionAssoc(a: Properties, b: Properties, c: Properties)
    ensures (a + b) + c == a + (b + c)
  {
  }

  /** Reading into a filled map is reading into an empty one and letting
      what was read overwrite what was there. */
  lemma {:induction false} YamlOverwrites(env: map<string, string>, prefix: string, node: YamlNode, acc: Properties)
    ensures ParseYaml(env, prefix, node, acc) == acc + ParseYaml(env, prefix, node, map[])
    decreases node, 2
  {
    match node
    case DocumentNode(_) => ContentOverwrites(env, prefix, node, 0, acc);
    case MappingNode(_) => PairsOverwrite(env, prefix, node, 0, acc);
    case SequenceNode(_) => ItemsOverwrite(env, prefix, node, 0, acc);
    case ScalarNode(v) => UpdateIsUnion(acc, prefix, Substitute(env, v));
    case AliasNode =>
  }

  /** Storing one value is letting a one-entry map overwrite. */
  lemma UpdateIsUnion(acc: Properties, k: string, v: string)
    ensures acc[k := v] == acc + map[][k := v]
  {
  }

  lemma {:induction false} ContentOverwrites(env: map<string, string>, prefix: string, node: YamlNode, i: nat, acc: Properties)
    requires node.DocumentNode? && i <= |node.content|
    ensures ParseContent(env, prefix, node, i, acc) == acc + ParseContent(env, prefix, node, i, map[])
    decreases node, 1, |node.content| - i
  {
    if i < |node.content| {
      var c := node.content[i];
      assert c in node.content;
      var one := ParseYaml(env, prefix, c, map[]);
      YamlOverwrites(env, prefix, c, acc);
      ContentOverwrites(env, prefix, node, i + 1, ParseYaml(env, prefix, c, acc));
      ContentOverwrites(env, prefix, node, i + 1, one);
      MapUnionAssoc(acc, one, ParseContent(env, prefix, node, i + 1, map[]));
    }
  }

  lemma {:induction false} PairsOverwrite(env: map<string, string>, prefix: string, node: YamlNode, i: nat, acc: Properties)
    requires node.MappingNode? && i <= |node.pairs|
    ensures ParsePairs(env, prefix, node, i, acc) == acc + ParsePairs(env, prefix, node, i, map[])
    decreases node, 1, |node.pairs| - i
  {
    if i < |node.pairs| {
      var pair := node.pairs[i];
      assert pair in node.pairs;
      match pair.key
      case ScalarNode(k) =>
        var one := ParseYaml(env, ChildKey(prefix, k), pair.value, map[]);
        YamlOverwrites(env, ChildKey(prefix, k), pair.value, acc);
        PairsOverwrite(env, prefix, node, i + 1, ParseYaml(env, ChildKey(prefix, k), pair.value, acc));
        PairsOverwrite(env, prefix, node, i + 1, one);
        MapUnionAssoc(acc, one, ParsePairs(env, prefix, node, i + 1, map[]));
      case _ =>
        PairsOverwrite(env, prefix, node, i + 1, acc);
    }
  }

  lemma {:induction false} ItemsOverwrite(env: map<string, string>, prefix: string, node: YamlNode, i: nat, acc: Properties)
    requires node.SequenceNode? && i <= |node.items|
    ensures ParseItems(env, prefix, node, i, acc) == acc + ParseItems(env, prefix, node, i, map[])
    decreases node, 1, |node.items| - i
  {
    if i < |node.items| {
      var c := node.items[i];
      assert c in node.items;
      var one := ParseYaml(env, ItemKey(prefix, i), c, map[]);
      YamlOverwrites(env, ItemKey(prefix, i), c, acc);
      ItemsOverwrite(env, prefix, node, i + 1, ParseYaml(env, ItemKey(prefix, i), c, acc));
      ItemsOverwrite(env, prefix, node, i + 1, one);
      MapUnionAssoc(acc, one, ParseItems(env, prefix, node, i + 1, map[]));
    }
  }

  /** Every key read below `prefix` extends `prefix`. */
  lemma {:induction false} YamlKeysExtendPrefix(env: map<string, string>, prefix: string, node: YamlNode)
    ensures forall k | k in ParseYaml(env, prefix, node, map[]) :: prefix <= k
    decreases node, 2
  {
    match node
    case DocumentNode(_) => ContentKeysExtendPrefix(env, prefix, node, 0);
    case MappingNode(_) => PairKeysExtendPrefix(env, prefix, node, 0);
    case SequenceNode(_) => ItemKeysExtendPrefix(env, prefix, node, 0);
    case ScalarNode(v) =>
    case AliasNode =>
  }

  lemma {:induction false} ContentKeysExtendPrefix(env: map<string, string>, prefix: string, node: YamlNode, i: nat)
    requires node.DocumentNode? && i <= |node.content|
    ensures forall k | k in ParseContent(env, prefix, node, i, map[]) :: prefix <= k
    decreases node, 1, |node.content| - i
  {
    if i < |node.content| {
      var c := node.content[i];
      assert c in node.content;
      YamlKeysExtendPrefix(env, prefix, c);
      ContentOverwrites(env, prefix, node, i + 1, ParseYaml(env, prefix, c, map[]));
      ContentKeysExtendPrefix(env, prefix, node, i + 1);
    }
  }

  lemma {:induction false} PairKeysExtendPrefix(env: map<string, string>, prefix: string, node: YamlNode, i: nat)
    requires node.MappingNode? && i <= |node.pairs|
    ensures forall k | k in ParsePairs(env, prefix, node, i, map[]) :: prefix <= k
    decreases node, 1, |node.pairs| - i
  {
    if i < |node.pairs| {
      var pair := node.pairs[i];
      assert pair in node.pairs;
      PairKeysExtendPrefix(env, prefix, node, i + 1);
      match pair.key
      case ScalarNode(key) =>
        var p := ChildKey(prefix, key);
        YamlKeysExtendPrefix(env, p, pair.value);
        PairsOverwrite(env, prefix, node, i + 1, ParseYaml(env, p, pair.value, map[]));
      case _ =>
    }
  }

  lemma {:induction false} ItemKeysExtendPrefix(env: map<string, string>, prefix: string, node: YamlNode, i: nat)
    requires node.SequenceNode? && i <= |node.items|
    ensures forall k | k in ParseItems(env, prefix, node, i, map[]) :: prefix <= k
    decreases node, 1, |node.items| - i
  {
    if i < |node.items| {
      var c := node.items[i];
      assert c in node.items;
      var p := ItemKey(prefix, i);
      YamlKeysExtendPrefix(env, p, c);
      ItemsOverwrite(env, prefix, node, i + 1, ParseYaml(env, p, c, map[]));
      ItemKeysExtendPrefix(env, prefix, node, i + 1);
    }
  }

  /** The scalar values the reader can reach in a tree: through documents,
      sequence items, and mapping entries whose key is a scalar. */
  function YamlScalars(node: YamlNode): set<string>
    decreases node, 2
  {
    match node
    case DocumentNode(_) => ContentScalars(node, 0)
    case MappingNode(_) => PairScalars(node, 0)
    case SequenceNode(_) => ItemScalars(node, 0)
    case ScalarNode(v) => {v}
    case AliasNode => {}
  }

  function ContentScalars(node: YamlNode, i: nat): set<string>
    requires node.DocumentNode? && i <= |node.content|
    decreases node, 1, |node.content| - i
  {
    if i == |node.content| then {}
    else
      assert node.content[i] in node.content;
      YamlScalars(node.content[i]) + ContentScalars(node, i + 1)
  }

  function PairScalars(node: YamlNode, i: nat): set<string>
    requires node.MappingNode? && i <= |node.pairs|
    decreases node, 1, |node.pairs| - i
  {
    if i == |node.pairs| then {}
    else
      var pair := node.pairs[i];
      assert pair in node.pairs;
      (if pair.key.ScalarNode? then YamlScalars(pair.value) else {}) + PairScalars(node, i + 1)
  }

  function ItemScalars(node: YamlNode, i: nat): set<string>
    requires node.SequenceNode? && i <= |node.items|
    decreases node, 1, |node.items| - i
  {
    if i == |node.items| then {}
    else
      assert node.items[i] in node.items;
      YamlScalars(node.items[i]) + ItemScalars(node, i + 1)
  }

  /** The texts the given values read as after substitution. */
  function Substituted(env: map<string, string>, values: set<string>): set<string>
  {
    set v | v in values :: Substitute(env, v)
  }

  lemma SubstitutedUnion(env: map<string, string>, a: set<string>, b: set<string>)
    ensures Substituted(env, a + b) == Substituted(env, a) + Substituted(env, b)
  {
  }

  /** Storing one value adds at most that value to the map's values. */
  lemma UpdateValues(acc: Properties, k: string, x: string)
    ensures acc[k := x].Values <= acc.Values + {x}
  {
    forall y | y in acc[k := x].Values
      ensures y in acc.Values + {x}
    {
      var k' :| k' in acc[k := x] && acc[k := x][k'] == y;
      if k' != k {
        assert acc[k'] == y;
      }
    }
  }

  /** Only scalars produce entries: every value the reader stores is a
      reachable scalar of the tree, substituted, or was already there. */
  lemma {:induction false} YamlValuesFromScalars(env: map<string, string>, prefix: string, node: YamlNode, acc: Properties)
    ensures ParseYaml(env, prefix, node, acc).Values <= acc.Values + Substituted(env, YamlScalars(node))
    decreases node, 2
  {
    match node
    case DocumentNode(_) => ContentValuesFromScalars(env, prefix, node, 0, acc);
    case MappingNode(_) => PairValuesFromScalars(env, prefix, node, 0, acc);
    case SequenceNode(_) => ItemValuesFromScalars(env, prefix, node, 0, acc);
    case ScalarNode(v) => ScalarValue(env, prefix, v, acc);
    case AliasNode =>
  }

  lemma ScalarValue(env: map<string, string>, prefix: string, v: string, acc: Properties)
    ensures ParseYaml(env, prefix, ScalarNode(v), acc).Values <= acc.Values + Substituted(env, {v})
  {
    UpdateValues(acc, prefix, Substitute(env, v));
    assert Substitute(env, v) in Substituted(env, {v});
  }

  lemma {:induction false} ContentValuesFromScalars(env: map<string, string>, prefix: string, node: YamlNode, i: nat, acc: Properties)
    requires node.DocumentNode? && i <= |node.content|
    ensures ParseContent(env, prefix, node, i, acc).Values <= acc.Values + Substituted(env, ContentScalars(node, i))
    decreases node, 1, |node.content| - i
  {
    if i < |node.content| {
      var c := node.content[i];
      assert c in node.content;
      YamlValuesFromScalars(env, prefix, c, acc);
      ContentValuesFromScalars(env, prefix, node, i + 1, ParseYaml(env, prefix, c, acc));
      SubstitutedUnion(env, YamlScalars(c), ContentScalars(node, i + 1));
    }
  }

  lemma {:induction false} PairValuesFromScalars(env: map<string, string>, prefix: string, node: YamlNode, i: nat, acc: Properties)
    requires node.MappingNode? && i <= |node.pairs|
    ensures ParsePairs(env, prefix, node, i, acc).Values <= acc.Values + Substituted(env, PairScalars(node, i))
    decreases node, 1, |node.pairs| - i
  {
    if i < |node.pairs| {
      var pair := node.pairs[i];
      assert pair in node.pairs;
      PairStep(env, prefix, node, i, acc);
      if pair.key.ScalarNode? {
        var p := ChildKey(prefix, pair.key.value);
        var next := ParseYaml(env, p, pair.value, acc);
        YamlValuesFromScalars(env, p, pair.value, acc);
        PairValuesFromScalars(env, prefix, node, i + 1, next);
        SubstitutedUnion(env, YamlScalars(pair.value), PairScalars(node, i + 1));
      } else {
        PairValuesFromScalars(env, prefix, node, i + 1, acc);
      }
    }
  }

  /** One entry of a mapping, for the reader and for the reachable scalars. */
  lemma PairStep(env: map<string, string>, prefix: string, node: YamlNode, i: nat, acc: Properties)
    requires node.MappingNode? && i < |node.pairs|
    ensures var pair := node.pairs[i];
      && (pair.key.ScalarNode? ==>
            && ParsePairs(env, prefix, node, i, acc)
               == ParsePairs(env, prefix, node, i + 1, ParseYaml(env, ChildKey(prefix, pair.key.value), pair.value, acc))
            && PairScalars(node, i) == YamlScalars(pair.value) + PairScalars(node, i + 1))
      && (!pair.key.ScalarNode? ==>
            && ParsePairs(env, prefix, node, i, acc) == ParsePairs(env, prefix, node, i + 1, acc)
            && PairScalars(node, i) == PairScalars(node, i + 1))
  {
  }

  lemma {:induction false} ItemValuesFromScalars(env: map<string, string>, prefix: string, node: YamlNode, i: nat, acc: Properties)
    requires node.SequenceNode? && i <= |node.items|
    ensures ParseItems(env, prefix, node, i, acc).Values <= acc.Values + Substituted(env, ItemScalars(node, i))
    decreases node, 1, |node.items| - i
  {
    if i < |node.items| {
      var c := node.items[i];
      assert c in node.items;
      var p := ItemKey(prefix, i);
      YamlValuesFromScalars(env, p, c, acc);
      ItemValuesFromScalars(env, prefix, node, i + 1, ParseYaml(env, p, c, acc));
      SubstitutedUnion(env, YamlScalars(c), ItemScalars(node, i + 1));
    }
  }

  /** A tree with no reachable scalar (only aliases, empty collections, or
      entries under non-scalar keys) gives no property at all. */
  lemma YamlWithoutScalarsEmpty(env: map<string, string>, prefix: string, node: YamlNode)
    requires YamlScalars(node) == {}
    ensures ParseYaml(env, prefix, node, map[]) == map[]
  {
    YamlValuesFromScalars(env, prefix, node, map[]);
  }

  /** A mapping entry whose key is not a scalar adds nothing: the mapping
      reads as if the entry were not there. */
  lemma NonScalarKeySkipped(env: map<string, string>, prefix: string, key: YamlNode, value: YamlNode,
                            rest: seq<YamlPair>, acc: Properties)
    requires !key.ScalarNode?
    ensures ParseYaml(env, prefix, MappingNode([YamlPair(key, value)] + rest), acc)
         == ParseYaml(env, prefix, MappingNode(rest), acc)
  {
    var ps := [YamlPair(key, value)] + rest;
    assert ps[1..] == rest;
    PairsShift(env, prefix, ps, 1, acc);
  }

  /** Reading the entries of a mapping from `i` on is reading those of its
      tail from `i - 1` on. */
  lemma {:induction false} PairsShift(env: map<string, string>, prefix: string, ps: seq<YamlPair>, i: nat, acc: Properties)
    requires 1 <= i <= |ps|
    ensures ParsePairs(env, prefix, MappingNode(ps), i, acc) == ParsePairs(env, prefix, MappingNode(ps[1..]), i - 1, acc)
    decreases |ps| - i
  {
    if i < |ps| {
      assert ps[1..][i - 1] == ps[i];
      var pair := ps[i];
      var next := match pair.key
        case ScalarNode(k) => ParseYaml(env, ChildKey(prefix, k), pair.value, acc)
        case _ => acc;
      PairsShift(env, prefix, ps, i + 1, next);
    }
  }

  /** A nested mapping `a: {b: v}` in a document gives the key `a.b`. */
  lemma NestedKeyDotted(env: map<string, string>, a: string, b: string, v: string)
    requires a != ""
    ensures ParseYaml(env, "", DocumentNode([MappingNode([YamlPair(ScalarNode(a), MappingNode([YamlPair(ScalarNode(b), ScalarNode(v))]))])]), map[])
         == map[a + "." + b := Substitute(env, v)]
  {
    var inner := MappingNode([YamlPair(ScalarNode(b), ScalarNode(v))]);
    var outer := MappingNode([YamlPair(ScalarNode(a), inner)]);
    var doc := DocumentNode([outer]);
    var m := map[a + "." + b := Substitute(env, v)];
    assert ChildKey(a, b) == a + "." + b;
    assert ParseYaml(env, a + "." + b, ScalarNode(v), map[]) == m;
    assert ParsePairs(env, a, inner, 1, m) == m;
    assert ParsePairs(env, a, inner, 0, map[]) == m;
    assert ParseYaml(env, a, inner, map[]) == m;
    assert ChildKey("", a) == a;
    assert ParsePairs(env, "", outer, 1, m) == m;
    assert ParsePairs(env, "", outer, 0, map[]) == m;
    assert ParseYaml(env, "", outer, map[]) == m;
    assert ParseContent(env, "", doc, 1, m) == m;
    assert ParseContent(env, "", doc, 0, map[]) == m;
  }

  /** A sequence `a: [x, y]` gives the keys `a[0]` and `a[1]`. */
  lemma SequenceKeysIndexed(env: map<string, string>, a: string, x: string, y: string)
    ensures ParseYaml(env, "", MappingNode([YamlPair(ScalarNode(a), SequenceNode([ScalarNode(x), ScalarNode(y)]))]), map[])
         == map[a + "[0]" := Substitute(env, x), a + "[1]" := Substitute(env, y)]
  {
    var sq := SequenceNode([ScalarNode(x), ScalarNode(y)]);
    var m := map[a + "[0]" := Substitute(env, x), a + "[1]" := Substitute(env, y)];
    TwoItemsIndexed(env, a, x, y);
    assert ChildKey("", a) == a;
    var outer := MappingNode([YamlPair(ScalarNode(a), sq)]);
    assert ParsePairs(env, "", outer, 1, m) == m;
    assert ParsePairs(env, "", outer, 0, map[]) == m;
  }

  /** The two items of a sequence under `a` are stored as `a[0]` and `a[1]`. */
  lemma TwoItemsIndexed(env: map<string, string>, a: string, x: string, y: string)
    ensures ParseYaml(env, a, SequenceNode([ScalarNode(x), ScalarNode(y)]), map[])
         == map[a + "[0]" := Substitute(env, x), a + "[1]" := Substitute(env, y)]
  {
    TwoItems(env, a, x, y);
    SmallItemKey(a, 0);
    SmallItemKey(a, 1);
  }

  /** Below ten, the item key holds the single digit of the index. */
  lemma SmallItemKey(a: string, i: nat)
    requires i < 10
    ensures ItemKey(a, i) == a + ['[', DigitChar(i), ']']
  {
    assert Decimal(i) == [DigitChar(i)];
    assert a + "[" + Decimal(i) + "]" == a + ['[', DigitChar(i), ']'];
  }

  lemma TwoItems(env: map<string, string>, a: string, x: string, y: string)
    ensures ParseYaml(env, a, SequenceNode([ScalarNode(x), ScalarNode(y)]), map[])
         == map[ItemKey(a, 0) := Substitute(env, x), ItemKey(a, 1) := Substitute(env, y)]
  {
    var sq := SequenceNode([ScalarNode(x), ScalarNode(y)]);
    var m0 := map[ItemKey(a, 0) := Substitute(env, x)];
    var m := m0[ItemKey(a, 1) := Substitute(env, y)];
    assert ParseItems(env, a, sq, 1, m0) == ParseItems(env, a, sq, 2, m);
    assert ParseItems(env, a, sq, 0, map[]) == ParseItems(env, a, sq, 1, m0);
  }

  /** One line of a `.properties` file (spring_boot_property.go:105-114):
      blank lines, lines starting with `#` and lines without `=` give
      nothing; otherwise the key is the trimmed text before the first `=`
      and the value the substituted text after it. */
  function ParsePropertyLine(env: map<string, string>, line: string): (r: Option<(string, string)>)
    ensures r.None? <==> AllSpace(line) || "#" <= line || '=' !in line
    ensures r.Some? ==> '=' !in r.value.0
  {
    if TrimSpace(line) == "" || "#" <= line then None
    else
      match IndexOf(line, '=')
      case None => None
      case Some(i) =>
        var key := TrimSpace(line[..i]);
        KeyHasNoSeparator(line[..i]);
        Some((key, Substitute(env, line[i + 1..])))
  }

  lemma KeyHasNoSeparator(s: string)
    requires '=' !in s
    ensures '=' !in TrimSpace(s)
  {
    var r := TrimSpace(s);
    var k := LeadingSpaces(s);
    assert forall j | 0 <= j < |r| :: r[j] == s[k + j];
  }

  /** A line written as `key=value` reads back as the trimmed key and the
      substituted value. */
  lemma PropertyLineRoundTrip(env: map<string, string>, key: string, value: string)
    requires '=' !in key && !("#" <= key)
    ensures ParsePropertyLine(env, key + "=" + value) == Some((TrimSpace(key), Substitute(env, value)))
  {
    var line := key + "=" + value;
    assert line[..|key|] == key && line[|key| + 1..] == value;
    assert IndexOf(line, '=') == Some(|key|) by {
      assert line[|key|] == '=' && '=' !in line[..|key|];
    }
    assert TrimSpace(line) != "" by {
      assert !IsSpace(line[|key|]);
    }
    assert !("#" <= line) by {
      if key == "" {
        assert line[0] == '=';
      } else {
        assert line[0] == key[0];
      }
    }
  }

  /** One line's effect on the property map. */
  function ApplyLine(env: map<string, string>, line: string, acc: Properties): Properties
  {
    match ParsePropertyLine(env, line)
    case None => acc
    case Some(kv) => acc[kv.0 := kv.1]
  }

  /** `readPropertiesInPropertiesFile` over the scanned lines. */
  function ReadPropertyLines(env: map<string, string>, lines: seq<string>, acc: Properties): Properties
    decreases |lines|
  {
    if lines == [] then acc else ReadPropertyLines(env, lines[1..], ApplyLine(env, lines[0], acc))
  }

  lemma ApplyLineOverwrites(env: map<string, string>, line: string, acc: Properties)
    ensures ApplyLine(env, line, acc) == acc + ApplyLine(env, line, map[])
  {
    match ParsePropertyLine(env, line)
    case None =>
    case Some(kv) => UpdateIsUnion(acc, kv.0, kv.1);
  }

  lemma {:induction false} PropertyLinesOverwrite(env: map<string, string>, lines: seq<string>, acc: Properties)
    ensures ReadPropertyLines(env, lines, acc) == acc + ReadPropertyLines(env, lines, map[])
    decreases |lines|
  {
    if lines != [] {
      var one := ApplyLine(env, lines[0], map[]);
      ApplyLineOverwrites(env, lines[0], acc);
      PropertyLinesOverwrite(env, lines[1..], acc + one);
      PropertyLinesOverwrite(env, lines[1..], one);
      MapUnionAssoc(acc, one, ReadPropertyLines(env, lines[1..], map[]));
    }
  }

  /** Reading lines one block after another: the later block wins. */
  lemma {:induction false} PropertyLinesAppend(env: map<string, string>, first: seq<string>, second: seq<string>, acc: Properties)
    ensures ReadPropertyLines(env, first + second, acc) == ReadPropertyLines(env, second, ReadPropertyLines(env, first, acc))
    decreases |first|
  {
    if first != [] {
      assert (first + second)[0] == first[0] && (first + second)[1..] == first[1..] + second;
      PropertyLinesAppend(env, first[1..], second, ApplyLine(env, first[0], acc));
    } else {
      assert first + second == second;
    }
  }

  /** The last line that sets a key decides its value. */
  lemma LastLineWins(env: map<string, string>, lines: seq<string>, key: string, value: string, acc: Properties)
    requires '=' !in key && !("#" <= key) && key != ""
    ensures var m := ReadPropertyLines(env, lines + [key + "=" + value], acc);
      TrimSpace(key) in m && m[TrimSpace(key)] == Substitute(env, value)
  {
    var line := key + "=" + value;
    PropertyLinesAppend(env, lines, [line], acc);
    PropertyLineRoundTrip(env, key, value);
    assert [line][1..] == [];
    assert ReadPropertyLines(env, [line], ReadPropertyLines(env, lines, acc))
        == ApplyLine(env, line, ReadPropertyLines(env, lines, acc));
  }

  /** The configuration files of the scanned tree: the text of each
      properties file and the parsed tree of each YAML file, by path. */
  datatype ConfigFiles = ConfigFiles(propertiesFiles: map<string, string>, yamlFiles: map<string, YamlNode>)

  function ReadPropertiesFile(env: map<string, string>, files: ConfigFiles, path: string, acc: Properties): Properties
  {
    if path in files.propertiesFiles then ReadPropertyLines(env, Lines(files.propertiesFiles[path]), acc) else acc
  }

  function ReadYamlFile(env: map<string, string>, files: ConfigFiles, path: string, acc: Properties): Properties
  {
    if path in files.yamlFiles then ParseYaml(env, "", files.yamlFiles[path], acc) else acc
  }

  const ActiveProfileKey := "spring.profiles.active"

  /** `filepath.Join(projectPath, "/src/main/resources/" + name)` for a
      clean project path. */
  function ResourcePath(projectPath: string, name: string): string
  {
    projectPath + "/src/main/resources/" + name
  }

  /** One configuration layer: `<base>.properties`, then `<base>.yml`, then
      `<base>.yaml`, each overwriting what came before. */
  function ReadLayer(env: map<string, string>, files: ConfigFiles, projectPath: string, base: string, acc: Properties): Properties
  {
    var afterProperties := ReadPropertiesFile(env, files, ResourcePath(projectPath, base + ".properties"), acc);
    var afterYml := ReadYamlFile(env, files, ResourcePath(projectPath, base + ".yml"), afterProperties);
    ReadYamlFile(env, files, ResourcePath(projectPath, base + ".yaml"), afterYml)
  }

  /** `ReadProperties` (spring_boot_property.go:15-29): the `application`
      layer, then, if it names an active profile, the
      `application-<profile>` layer on top of it. */
  function ReadProperties(env: map<string, string>, files: ConfigFiles, projectPath: string): (r: Properties)
    ensures LayerAlone(env, files, projectPath, "application").Keys <= r.Keys
    ensures ActiveProfileKey !in LayerAlone(env, files, projectPath, "application") ==> r == LayerAlone(env, files, projectPath, "application")
  {
    LayerOverwrites(env, files, projectPath, "application", map[]);
    assert map[] + LayerAlone(env, files, projectPath, "application") == LayerAlone(env, files, projectPath, "application");
    var result := ReadLayer(env, files, projectPath, "application", map[]);
    if ActiveProfileKey in result then
      LayerOverwrites(env, files, projectPath, "application-" + result[ActiveProfileKey], result);
      ReadLayer(env, files, projectPath, "application-" + result[ActiveProfileKey], result)
    else result
  }

  /** One file on its own. */
  function PropertiesFileAlone(env: map<string, string>, files: ConfigFiles, path: string): Properties
  {
    if path in files.propertiesFiles then ReadPropertyLines(env, Lines(files.propertiesFiles[path]), map[]) else map[]
  }

  function YamlFileAlone(env: map<string, string>, files: ConfigFiles, path: string): Properties
  {
    if path in files.yamlFiles then ParseYaml(env, "", files.yamlFiles[path], map[]) else map[]
  }

  /** A layer as the union of its three files read on their own, later
      files taking precedence. */
  function LayerAlone(env: map<string, string>, files: ConfigFiles, projectPath: string, base: string): Properties
  {
    PropertiesFileAlone(env, files, ResourcePath(projectPath, base + ".properties"))
      + YamlFileAlone(env, files, ResourcePath(projectPath, base + ".yml"))
      + YamlFileAlone(env, files, ResourcePath(projectPath, base + ".yaml"))
  }

  lemma PropertiesFileOverwrites(env: map<string, string>, files: ConfigFiles, path: string, acc: Properties)
    ensures ReadPropertiesFile(env, files, path, acc) == acc + PropertiesFileAlone(env, files, path)
  {
    if path in files.propertiesFiles {
      PropertyLinesOverwrite(env, Lines(files.propertiesFiles[path]), acc);
    }
  }

  lemma YamlFileOverwrites(env: map<string, string>, files: ConfigFiles, path: string, acc: Properties)
    ensures ReadYamlFile(env, files, path, acc) == acc + YamlFileAlone(env, files, path)
  {
    if path in files.yamlFiles {
      YamlOverwrites(env, "", files.yamlFiles[path], acc);
    }
  }

  lemma LayerOverwrites(env: map<string, string>, files: ConfigFiles, projectPath: string, base: string, acc: Properties)
    ensures ReadLayer(env, files, projectPath, base, acc) == acc + LayerAlone(env, files, projectPath, base)
  {
    var p1 := ResourcePath(projectPath, base + ".properties");
    var p2 := ResourcePath(projectPath, base + ".yml");
    var p3 := ResourcePath(projectPath, base + ".yaml");
    var f1, f2, f3 := PropertiesFileAlone(env, files, p1), YamlFileAlone(env, files, p2), YamlFileAlone(env, files, p3);
    PropertiesFileOverwrites(env, files, p1, acc);
    YamlFileOverwrites(env, files, p2, acc + f1);
    YamlFileOverwrites(env, files, p3, acc + f1 + f2);
    MapUnionAssoc(acc, f1, f2);
    MapUnionAssoc(acc, f1 + f2, f3);
  }

  /** The configuration is the base layer with the active profile's layer
      over it: every key the profile layer sets takes the profile's value,
      and every other key keeps the base value. */
  lemma ReadPropertiesLayers(env: map<string, string>, files: ConfigFiles, projectPath: string)
    ensures var base := LayerAlone(env, files, projectPath, "application");
      ReadProperties(env, files, projectPath)
      == if ActiveProfileKey in base
         then base + LayerAlone(env, files, projectPath, "application-" + base[ActiveProfileKey])
         else base
  {
    LayerOverwrites(env, files, projectPath, "application", map[]);
    var base := LayerAlone(env, files, projectPath, "application");
    assert map[] + base == base;
    if ActiveProfileKey in base {
      LayerOverwrites(env, files, projectPath, "application-" + base[ActiveProfileKey], base);
    }
  }
}

=== FILE: strings.dfy ===
/** The handful of Go `strings`/`unicode`/`fmt` helpers the core calls,
    written out over `seq<char>`. */
module Strings {

  import opened Wrappers

  /** Go's `unicode.IsSpace`: the ASCII and Latin-1 spaces plus the
      Unicode White_Space characters above Latin-1. */
  predicate IsSpace(c: char)
  {
    || c == '\t' || c == '\n' || c == '\U{000B}' || c == '\U{000C}' || c == '\r' || c == ' '
    || c == '\U{0085}' || c == '\U{00A0}' || c == '\U{1680}'
    || ('\U{2000}' <= c <= '\U{200A}')
    || c == '\U{2028}' || c == '\U{2029}' || c == '\U{202F}' || c == '\U{205F}' || c == '\U{3000}'
  }

  predicate AllSpace(s: string)
  {
    forall i | 0 <= i < |s| :: IsSpace(s[i])
  }

  /** Number of leading white-space characters. */
  function LeadingSpaces(s: string): (n: nat)
    ensures n <= |s|
    ensures AllSpace(s[..n])
    ensures n < |s| ==> !IsSpace(s[n])
  {
    if |s| > 0 && IsSpace(s[0]) then 1 + LeadingSpaces(s[1..]) else 0
  }

  /** Number of trailing white-space characters. */
  function TrailingSpaces(s: string): (n: nat)
    ensures n <= |s|
    ensures AllSpace(s[|s| - n..])
    ensures n < |s| ==> !IsSpace(s[|s| - n - 1])
  {
    if |s| > 0 && IsSpace(s[|s| - 1]) then 1 + TrailingSpaces(s[..|s| - 1]) else 0
  }

  /** Go's `strings.TrimSpace`: the longest infix that neither starts nor
      ends with white space, obtained by dropping only white space. */
  function TrimSpace(s: string): (r: string)
    ensures r == "" || (!IsSpace(r[0]) && !IsSpace(r[|r| - 1]))
    ensures var k := LeadingSpaces(s);
      k + |r| <= |s| && r == s[k..k + |r|] && AllSpace(s[..k]) && AllSpace(s[k + |r|..])
    ensures r == "" <==> AllSpace(s)
    ensures s == "" || (!IsSpace(s[0]) && !IsSpace(s[|s| - 1])) ==> r == s
  {
    var k := LeadingSpaces(s);
    if k == |s| then ""
    else
      var t := TrailingSpaces(s[k..]);
      assert s[k..][|s[k..]| - t..] == s[|s| - t..];
      s[k..|s| - t]
  }

  /** Go's `strings.Index` for a one-character separator. */
  function IndexOf(s: string, c: char): (r: Option<nat>)
    ensures r.None? <==> c !in s
    ensures r.Some? ==> r.value < |s| && s[r.value] == c && c !in s[..r.value]
  {
    if |s| == 0 then None
    else if s[0] == c then Some(0)
    else
      match IndexOf(s[1..], c)
      case None => None
      case Some(i) =>
        assert s[..i + 1] == [s[0]] + s[1..][..i];
        Some(i + 1)
  }

  /** Go's `strings.LastIndex` for a one-character separator. */
  function LastIndexOf(s: string, c: char): (r: Option<nat>)
    ensures r.None? <==> c !in s
    ensures r.Some? ==> r.value < |s| && s[r.value] == c && c !in s[r.value + 1..]
  {
    if |s| == 0 then None
    else if s[|s| - 1] == c then Some(|s| - 1)
    else
      var init := s[..|s| - 1];
      match LastIndexOf(init, c)
      case None =>
        assert s == init + [s[|s| - 1]];
        None
      case Some(i) =>
        assert s[i + 1..] == init[i + 1..] + [s[|s| - 1]];
        Some(i)
  }

  /** Go's `strings.HasSuffix`. */
  predicate HasSuffix(s: string, suffix: string)
  {
    |suffix| <= |s| && s[|s| - |suffix|..] == suffix
  }

  /** `pat` occurs somewhere in `s`. */
  predicate Contains(s: string, pat: string)
  {
    pat <= s || (|s| > 0 && Contains(s[1..], pat))
  }

  /** Concatenation regrouped. */
  lemma AppendAssoc(a: string, b: string, c: string)
    ensures a + b + c == a + (b + c)
  {
  }

  /** Go's `strings.Replace(s, pat, rep, -1)` for a non-empty pattern:
      occurrences are replaced left to right, without overlap. */
  function ReplaceAll(s: string, pat: string, rep: string): (r: string)
    requires |pat| > 0
    ensures !Contains(s, pat) ==> r == s
    decreases |s|
  {
    if |s| < |pat| then s
    else if pat <= s then rep + ReplaceAll(s[|pat|..], pat, rep)
    else [s[0]] + ReplaceAll(s[1..], pat, rep)
  }

  /** A piece that does not contain the first character of the pattern is
      copied unchanged, and scanning resumes right after it. */
  lemma {:induction false} ReplaceAllSkips(lit: string, rest: string, pat: string, rep: string)
    requires |pat| > 0 && pat[0] !in lit
    ensures ReplaceAll(lit + rest, pat, rep) == lit + ReplaceAll(rest, pat, rep)
    decreases |lit|
  {
    if lit == [] {
      assert lit + rest == rest;
    } else {
      var s := lit + rest;
      assert s[1..] == lit[1..] + rest;
      if |s| >= |pat| {
        assert !(pat <= s) by { assert s[0] == lit[0]; }
        calc {
          ReplaceAll(s, pat, rep);
          [lit[0]] + ReplaceAll(lit[1..] + rest, pat, rep);
          { ReplaceAllSkips(lit[1..], rest, pat, rep); }
          [lit[0]] + (lit[1..] + ReplaceAll(rest, pat, rep));
          { assert [lit[0]] + lit[1..] == lit; }
          lit + ReplaceAll(rest, pat, rep);
        }
      } else {
        assert ReplaceAll(s, pat, rep) == s;
        assert ReplaceAll(rest, pat, rep) == rest;
      }
    }
  }

  lemma {:induction false} NoRoomNoOccurrence(s: string, pat: string)
    requires |s| < |pat|
    ensures !Contains(s, pat)
    decreases |s|
  {
    if |s| > 0 {
      NoRoomNoOccurrence(s[1..], pat);
    }
  }

  predicate IsDigit(c: char)
  {
    '0' <= c <= '9'
  }

  /** `fmt.Sprintf("%d", n)` for a non-negative `n`. */
  function Decimal(n: nat): (r: string)
    ensures |r| > 0 && forall i | 0 <= i < |r| :: IsDigit(r[i])
    ensures |r| > 1 ==> r[0] != '0'
  {
    if n < 10 then [DigitChar(n)] else Decimal(n / 10) + [DigitChar(n % 10)]
  }

  function DigitChar(d: nat): (c: char)
    requires d < 10
    ensures IsDigit(c) && c as int - '0' as int == d
  {
    ('0' as int + d) as char
  }

  function DigitValue(c: char): (d: nat)
    requires IsDigit(c)
    ensures d < 10
  {
    c as int - '0' as int
  }

  /** Reads a string of decimal digits back as a number. */
  function ParseDecimal(s: string): nat
    requires forall i | 0 <= i < |s| :: IsDigit(s[i])
  {
    if s == [] then 0 else 10 * ParseDecimal(s[..|s| - 1]) + DigitValue(s[|s| - 1])
  }

  /** `Decimal` is injective: it has `ParseDecimal` as a left inverse. */
  lemma {:induction false} DecimalRoundTrip(n: nat)
    ensures ParseDecimal(Decimal(n)) == n
  {
    if n >= 10 {
      var s := Decimal(n);
      assert s[..|s| - 1] == Decimal(n / 10);
      DecimalRoundTrip(n / 10);
    }
  }

  /** Drops one trailing carriage return, as `bufio.ScanLines` does. */
  function DropCR(s: string): (r: string)
    ensures r == s || (s == r + "\r")
  {
    if |s| > 0 && s[|s| - 1] == '\r' then s[..|s| - 1] else s
  }

  /** The lines `bufio.Scanner` with `ScanLines` yields: the text cut at each
      newline, a carriage return before it dropped, and no empty line after
      a final newline. */
  function Lines(s: string): (r: seq<string>)
    ensures forall i | 0 <= i < |r| :: '\n' !in r[i]
    ensures s == "" <==> r == []
    decreases |s|
  {
    if s == "" then []
    else
      match IndexOf(s, '\n')
      case None => [DropCR(s)]
      case Some(i) =>
        assert forall j | 0 <= j < i :: s[..i][j] == s[j];
        [DropCR(s[..i])] + Lines(s[i + 1..])
  }

  /** Lines written out, each followed by a newline. */
  function Unlines(ls: seq<string>): string
  {
    if ls == [] then "" else ls[0] + "\n" + Unlines(ls[1..])
  }

  /** Scanning lines written out gives them back, as long as none holds a
      newline or ends with a carriage return. */
  lemma {:induction false} LinesRoundTrip(ls: seq<string>)
    requires forall i | 0 <= i < |ls| :: '\n' !in ls[i] && (ls[i] == "" || ls[i][|ls[i]| - 1] != '\r')
    ensures Lines(Unlines(ls)) == ls
  {
    if ls != [] {
      var s := Unlines(ls);
      var l := ls[0];
      assert s == l + "\n" + Unlines(ls[1..]);
      assert s[|l|] == '\n' && s[..|l|] == l;
      assert '\n' !in s[..|l|];
      assert IndexOf(s, '\n') == Some(|l|);
      assert s[|l| + 1..] == Unlines(ls[1..]);
      LinesRoundTrip(ls[1..]);
    }
  }
}

=== FILE: wrappers.dfy ===
/** Wrappers used throughout the model: `Option` for Go's comma-ok
    lookups and `Result` for Go's `(value, error)` returns. */
module Wrappers {

  datatype Option<+T> = None | Some(value: T)

  datatype Result<+R, +E> = Success(value: R) | Failure(error: E)
}

/** Small facts about sequences used as Go slices. */
module Collections {

  /** The set of elements of a slice. */
  function Elements<T>(s: seq<T>): set<T>
  {
    set x | x in s
  }

  /** No element occurs twice. */
  predicate NoDuplicates<T(==)>(s: seq<T>)
  {
    forall i, j | 0 <= i < j < |s| :: s[i] != s[j]
  }

  /** Go's `for x := range m` over the keys of a map (or the members of a
      set kept as a map to bool): every member once, in an order the
      language leaves unspecified.  The choice in the loop stands for that
      order, so what is proved holds for every order. */
  method Enumerate<T(==)>(s: set<T>) returns (r: seq<T>)
    ensures Elements(r) == s && NoDuplicates(r)
  {
    r := [];
    var todo := s;
    while todo != {}
      invariant Elements(r) + todo == s
      invariant Elements(r) !! todo
      invariant NoDuplicates(r)
      decreases |todo|
    {
      var x :| x in todo;
      r := r + [x];
      todo := todo - {x};
    }
  }
}

/** The errors the analyzer and the converter report. Go returns them as
    formatted strings; the model keeps the facts each message mentions. */
module Errors {

  datatype Error =
    | ApplicationExists(applicationName: string)
    | ApplicationNotFound(applicationName: string)
    | HostingServiceExists(serviceName: string)
    | HostingBindingExists(applicationName: string)
    | BackingBindingExists(applicationName: string, serviceName: string)
    | NameConflict(name1: string, name2: string)
    | HostingServiceMissing(serviceName: string)
    | BackingServiceMissing(serviceName: string)
    | ReadDirectoryFailed(path: string)
    | EffectivePomFailed(pomPath: string)
    | EmptyEffectivePom
    | UnknownServiceType
}
